=== FILE: README.md ===
# AcademicAgent-Suite core, modelled in Dafny

AcademicAgent-Suite is a local study assistant. It ingests PDFs and videos,
turns them into searchable multimodal features, and answers questions over
them. This project models the orchestration logic around the machine-learning
workers:

- the global ingestion/query gate (`SystemStateManager`);
- the out-of-process tool dispatcher and its "last non-blank stdout line"
  protocol;
- the ingestion pipeline, which runs under the gate and releases it on every
  path;
- the two reasoning-graph nodes that have bodies;
- the batch ingestion orchestrator;
- the incremental outline scanner and its write-back;
- the re-ranking search;
- the PDF feature worker's walk over MinerU output;
- the visual-reasoning wrapper's result capture;
- the video keyframe slicer;
- the pure helpers of the web frontend.

Every external effect is an input: subprocess outcomes, FFmpeg, the frame
decoder and its difference score, CLIP embeddings, Milvus hits, JSON parsing,
the clock. The file tree is a value, `Storage.Fs`, of directories with ordered
listings and files with contents. A file that is written is either reported
(the PDF feature worker) or applied to a `Storage.Disk` object (the outline
write-back).

Modules, one per source file:

- `SystemState`, `ToolsManager`, `IngestionStream`, `ReasoningStream`
- `DataWrapper`, `JsonMessenger`, `VectorSearch`, `ClipWorkerPdf`
- `VisualWrapper`, `VideoSlicer`
- `AssetTypes`, `Page`, `EvidenceCard`, `AssetCard`
- shared: `Wrappers` (Option, Attempt), `Text` (Python/JavaScript string
  operations), `Storage` and `JsonValue`

Code that changes state step by step is modelled as methods with loops or as
classes with mutating methods. Each one is proved equal to a recursive
specification function, and the lemmas are stated about that function.

## Model

| member | source | states |
|---|---|---|
| SystemState.Acquire | core/system_state.py:35-45 | acquiring succeeds iff the gate is IDLE; success moves it to INGESTING with the task id; a refusal leaves the gate unchanged |
| SystemState.Release | core/system_state.py:47-53 | releasing returns the gate to IDLE with no task id, from any status |
| SystemState.OnlyIdleOrIngestingReachable | core/system_state.py:12-16 | from a reachable gate, any sequence of acquire, release and query calls keeps the status IDLE or INGESTING, never QUERYING or ERROR |
| SystemState.HeldGateRefusesAcquires | core/system_state.py:35-53 | while the gate is held and nobody releases it, every acquire is refused and the gate stays as it was (mutual exclusion) |
| SystemState.AcquireReleaseAcquire | core/system_state.py:35-53 | after a successful acquire, a second acquire fails; after a release, it succeeds for the new id |
| SystemState.SystemStateManager.constructor | core/system_state.py:27-33 | a fresh manager is IDLE with no task id |
| SystemState.SystemStateManager.AcquireIngestionLock | core/system_state.py:35-45 | the object's fields move exactly as `Acquire` says; true iff the previous status was IDLE |
| SystemState.SystemStateManager.ReleaseLock | core/system_state.py:47-53 | the fields become IDLE and no task id; one more release is counted |
| SystemState.SystemStateManager.IsQueryAllowed | core/system_state.py:59-63 | true iff the status is IDLE; the state is not changed |
| ToolsManager.NonBlank | core/tools_manager.py:49 | the kept lines are no more than the input lines, and none of them is blank |
| ToolsManager.ResultLine | core/tools_manager.py:49-53 | the line parsed, when there is one, is not blank |
| ToolsManager.LastNonBlankLine | core/tools_manager.py:49-53 | the kept lines are empty iff every line is blank; otherwise the last kept line is the last non-blank line, and every line after it is blank |
| ToolsManager.Dispatch | core/tools_manager.py:25-56 | an unset or missing interpreter gives the environment error and launches nothing; otherwise one process runs with the joined script path and the params, with `{}` for absent params; a nonzero exit gives the subprocess error with stderr; exit 0 without a non-blank stdout line gives the no-valid-JSON record; a last line that does not parse, or a launch exception, gives the fault record; a parsed reply comes only from exit 0 and the last non-blank line of stripped stdout |
| ToolsManager.NonBlankConcat | core/tools_manager.py:49 | filtering blank lines distributes over concatenation |
| ToolsManager.StripLeftConcat | core/tools_manager.py:49 | left-stripping a concatenation strips into the second part only when the first part is blank |
| ToolsManager.LastLineWins | core/tools_manager.py:48-53 | whatever a worker logs first, a final non-blank line is the one parsed |
| ToolsManager.LogLinesIgnored | core/tools_manager.py:48-53 | on the output `log1`, `log2`, `{}`, the parsed line is `{}` |
| ToolsManager.CallExpert | core/tools_manager.py:60-103 | the visual wrapper raises before dispatching iff its image is not a string; otherwise each wrapper dispatches to its fixed environment key and script, with its fixed parameter dictionary, launching iff its interpreter is usable, and replying by the dispatch protocol |
| ToolsManager.SandboxDefaultMode | core/tools_manager.py:87-94 | `call_sandbox` without a mode dispatches to the sandbox worker with the expression and mode `eval` |
| ToolsManager.RoutesByKind | core/tools_manager.py:60-103 | two wrappers of the same kind dispatch to the same environment key and script with the same parameter keys |
| ToolsManager.RoutesDistinct | core/tools_manager.py:60-103 | wrappers of different kinds never share an environment key or a script |
| IngestionStream.AssetId | core/ingestion_stream.py:24 | the id is the first truthy value among `asset_id`, `video_id`, `pdf_id`, and is absent iff none is truthy |
| IngestionStream.Guarded | core/ingestion_stream.py:33-51 | an unsupported type fails with no call; every call before the last returned a non-error reply; an indexed answer is the reply of the data manager, called last with the type and the id (the converse is `PreparedThenIndexed`) |
| IngestionStream.IndexAnswer | core/ingestion_stream.py:47-55 | the answer is indexed iff the data manager returned, and then it is that reply unchanged |
| IngestionStream.PreparedThenIndexed | core/ingestion_stream.py:33-51 | after a non-error parser reply (pdf), or non-error slicer and whisper replies (video), the data manager is called last with the type and the id, and the answer follows its outcome |
| IngestionStream.Pipeline | core/ingestion_stream.py:24-31 | a missing id or a busy gate fails with no call; an answer is indexed only with an id, an idle gate and a video or PDF asset |
| IngestionStream.IndexingLast | core/ingestion_stream.py:33-51 | the data manager is called only as the last call, after every earlier call returned a non-error reply, and its reply is returned unchanged |
| IngestionStream.NoWorkWithoutGate | core/ingestion_stream.py:26-31 | a missing id or a refused gate returns an error and calls no tool; an unsupported asset type calls no tool and never indexes |
| IngestionStream.VideoOrder | core/ingestion_stream.py:61-74 | video calls the slicer first; whisper runs second, iff the slicer reply is not an error, with exactly `{audio_id: params.video_id}` |
| IngestionStream.PdfParserErrorAborts | core/ingestion_stream.py:76-81 | a PDF parser error aborts after that single call, before indexing |
| IngestionStream.RunPipeline | core/ingestion_stream.py:18-59 | the answer and the calls are those of the pipeline function; after a successful acquire the gate is released exactly once and ends IDLE; otherwise it is untouched |
| ReasoningStream.SentinelGuard | core/reasoning_stream.py:59-63 | exactly one `SYSTEM_STATUS_LOCKED` message iff queries are not allowed, and no message iff they are; the gate is only read |
| ReasoningStream.RetrieverAsksOnce | core/reasoning_stream.py:65-78 | the update depends on the search worker only through the request built from the last message's text, the current asset id and top_k = 5 |
| ReasoningStream.RetrieverBranches | core/reasoning_stream.py:80-88 | in the corrected retriever, a hit list is passed on unchanged; no reply or an error record gives `retrieved_context = []`; a non-empty context is exactly the hits returned |
| ReasoningStream.AcademicRetriever | core/reasoning_stream.py:65-88 | corrected to read the modality under `metadata`: an empty history raises; with a history it raises only on a non-empty dictionary that is not an error record; a non-empty context is exactly the hit list the worker returned |
| ReasoningStream.AcademicRetrieverAsWritten | core/reasoning_stream.py:65-88 | as written: an empty history raises, a non-empty hit list raises at `res['modality']`, so every context it returns is empty |
| ReasoningStream.RetrieverAsWrittenDiffers | core/reasoning_stream.py:84-86 | the two retrievers differ exactly on a non-empty hit list, where the one as written raises and the corrected one hands the hits on |
| ReasoningStream.AsWrittenDropsHit | core/reasoning_stream.py:84-86 | one question and one video search record: as written the node raises, corrected it returns that record |
| DataWrapper.DbStep | data_layer/data_wrapper.py:51-52 | the database step runs the ingestor with `--force_reset` iff a reset is asked for, otherwise with no arguments |
| DataWrapper.Command | data_layer/data_wrapper.py:65-69 | the command is the interpreter, the joined script path, then the step's arguments in order |
| DataWrapper.RunStepsLaunchesPrefix | data_layer/data_wrapper.py:41-52 | the commands launched are those of the first planned steps, in order |
| DataWrapper.RunStepsSuccess | data_layer/data_wrapper.py:54-56 | the pipeline succeeds iff every planned step exits 0, and then every step was launched |
| DataWrapper.RunStepsAbort | data_layer/data_wrapper.py:58-60 | an abort comes from the last launched step, which exited nonzero after all earlier ones exited 0, and carries `Step failed: <name>` |
| DataWrapper.AbortedAtLastStep | data_layer/data_wrapper.py:41-60 | when the run aborts, the step at the last launched position exited nonzero, gave the message, and every planned step before it exited 0 |
| DataWrapper.ExecuteStep | data_layer/data_wrapper.py:62-89 | builds the step's command, extending it with the arguments, and fails iff that command exits nonzero |
| DataWrapper.RunIngestionPipeline | data_layer/data_wrapper.py:37-60 | the outcome and the commands launched are those of running the planned steps in order until one fails |
| DataWrapper.PlanShape | data_layer/data_wrapper.py:42-52 | the PDF step is planned iff the target is pdf or all; the video step iff video or all; the database step always, last |
| DataWrapper.AllCleanSucceeds | data_layer/data_wrapper.py:54-56 | when every step exits 0 the pipeline succeeds, having launched every planned step |
| DataWrapper.PdfFailureStopsEverything | data_layer/data_wrapper.py:43-44 | a failing PDF step stops the pipeline before the video and database steps |
| JsonMessenger.AssetDir | data_layer/json_messenger.py:23-26 | video assets live under `video`, everything else under `magic-pdf` |
| JsonMessenger.LocateRawFile | data_layer/json_messenger.py:53-57 | the raw file is `transcript.json` for video and `ocr/<id>_content_list.json` otherwise |
| JsonMessenger.Records | data_layer/json_messenger.py:64-66 | iterating a list yields its elements, each of which must be a dictionary; other values yield none or raise |
| JsonMessenger.SegmentLines | data_layer/json_messenger.py:64 | one `[start s]: text` line per segment, in order; it fails iff some segment lacks `start` or `text` |
| JsonMessenger.ItemLines | data_layer/json_messenger.py:66 | it fails iff some text item lacks `page_idx` or `text` |
| JsonMessenger.TextItems | data_layer/json_messenger.py:66 | the items whose type is `text`, in order |
| JsonMessenger.ItemLinesAreTextItems | data_layer/json_messenger.py:66 | the PDF lines are exactly one `[Page i]: text` line per text item, in order |
| JsonMessenger.TextItemsComplete | data_layer/json_messenger.py:66 | every text item is kept |
| JsonMessenger.VideoContextLines | data_layer/json_messenger.py:59-64 | a transcript's context splits back at newlines into one line per segment |
| JsonMessenger.PdfContextLines | data_layer/json_messenger.py:59-66 | a content list's context splits back at newlines into one line per text item |
| JsonMessenger.BuildContext | data_layer/json_messenger.py:59-66 | a transcript that is not a dictionary raises, and one without `segments` gives the empty context; an empty content list gives the empty context; a scalar content list raises |
| JsonMessenger.FolderTask | data_layer/json_messenger.py:31-49 | a folder yields a task only when it is a directory without the outline, its raw file exists and its context is non-empty; the task carries the folder name, the type and the context |
| JsonMessenger.ScanFoldersRaisedSticks | data_layer/json_messenger.py:31-49 | an exception on one folder is an exception of the whole scan |
| JsonMessenger.ScanFolder | data_layer/json_messenger.py:32-49 | one iteration of the folder loop yields exactly what `FolderTask` says for that folder: nothing, one task, or an exception |
| JsonMessenger.ScanAssetFolders | data_layer/json_messenger.py:31-49 | the folder loop over one asset directory yields the scan of its entries in listing order and ends at the first exception |
| JsonMessenger.ScanIncrements | data_layer/json_messenger.py:17-51 | the nested loops compute the scan of the video folders, then the PDF folders |
| JsonMessenger.MessengerBack | data_layer/json_messenger.py:68-78 | writes the outline into the asset's folder and returns its path; the write fails iff the folder is missing or the path is a directory; nothing else changes |
| JsonMessenger.ScanFoldersSound | data_layer/json_messenger.py:31-49 | every task comes from a listed folder that yields exactly that task |
| JsonMessenger.ScanFoldersComplete | data_layer/json_messenger.py:31-49 | every folder that yields a task has that task in the scan |
| JsonMessenger.ScanSound | data_layer/json_messenger.py:17-51 | every task is a video or PDF asset whose folder has no outline and a non-empty context |
| JsonMessenger.OutlineStopsRescan | data_layer/json_messenger.py:35-39 | after the outline of an asset is written back, a later scan yields no task for that asset and type |
| VectorSearch.Query | data_layer/vector_search.py:62-70 | a filter is used iff an asset id is given; the fetch limit is `top_k * 2` |
| VectorSearch.Boosted | data_layer/vector_search.py:78-89 | +0.15 iff the lower-cased query occurs in the lower-cased content (missing content is ""), +0.05 iff the hit is a video transcript, and nothing else |
| VectorSearch.Round4 | data_layer/vector_search.py:93 | the rounded score is the nearest multiple of 0.0001, and the even one at an exact half |
| VectorSearch.Format | data_layer/vector_search.py:91-101 | the content and metadata are copied; `timestamp` is set only for video and `page_label` only for PDF, never both |
| VectorSearch.FormatAll | data_layer/vector_search.py:77-101 | one formatted entry per hit, in order |
| VectorSearch.FormatHit | data_layer/vector_search.py:78-101 | one iteration of the hit loop builds exactly the boosted, rounded and projected record of that hit |
| VectorSearch.InsertCorrect | data_layer/vector_search.py:104 | inserting into a sorted list keeps it sorted by score, descending, and adds exactly the new entry |
| VectorSearch.InsertPermutes | data_layer/vector_search.py:104 | inserting adds exactly the new entry and starts with it or with the old head |
| VectorSearch.SortDescCorrect | data_layer/vector_search.py:104 | sorting gives a descending permutation of the entries |
| VectorSearch.SliceTo | data_layer/vector_search.py:105 | `[:k]` is a prefix of length min(k, n) for k >= 0 |
| VectorSearch.TopOfSorted | data_layer/vector_search.py:104-105 | the first `top_k` sorted records are sorted by score, descending, drawn from the input, and there are min(top_k, n) of them |
| VectorSearch.FormattedFromHits | data_layer/vector_search.py:77-105 | every record taken from the formatted list is the formatted form of one of the hits |
| VectorSearch.Search | data_layer/vector_search.py:53-105 | the results are sorted by score, descending; there are at most top_k of them, each the formatted form of one hit, taken as a sub-multiset |
| ClipWorkerPdf.Take50 | data_layer/clip_worker_pdf.py:160 | `[:50]` is a prefix of at most 50 elements, and the whole value when shorter |
| ClipWorkerPdf.ChooseOcrDir | data_layer/clip_worker_pdf.py:119-128 | `auto` when it exists, else `ocr` when it exists, else none |
| ClipWorkerPdf.FindOcrDir | data_layer/clip_worker_pdf.py:119-124 | the search loop finds exactly the folder `ChooseOcrDir` names |
| ClipWorkerPdf.ProcessContentList | data_layer/clip_worker_pdf.py:139-184 | the item loop stops at the first exception and keeps what it built before it, as the item-step function says |
| ClipWorkerPdf.ItemStep | data_layer/clip_worker_pdf.py:139-182 | once stopped nothing changes; an item that is not a dictionary stops the loop; at most one text chunk is appended and the earlier ones are kept; an item that raises leaves the results as they were |
| ClipWorkerPdf.HandleItem | data_layer/clip_worker_pdf.py:140-182 | the body of the item loop computes the item step |
| ClipWorkerPdf.StoppedStays | data_layer/clip_worker_pdf.py:136-184 | once the item loop has stopped, later items change nothing |
| ClipWorkerPdf.BatchProcess | data_layer/clip_worker_pdf.py:102-188 | the feature files written and whether the batch raised are those of the batch function; a missing root writes nothing |
| ClipWorkerPdf.DocsRaisedStays | data_layer/clip_worker_pdf.py:107-188 | once the document loop has raised, later documents change nothing |
| ClipWorkerPdf.WritesSound | data_layer/clip_worker_pdf.py:107-115 | every feature file written is `<root>/<doc>/multimodal_features.json` for a listed document folder, which had no feature file unless reprocessing was forced |
| ClipWorkerPdf.WritesGrow | data_layer/clip_worker_pdf.py:107-188 | later documents only append feature files to those already written |
| ClipWorkerPdf.WritesComplete | data_layer/clip_worker_pdf.py:107-188 | a listed document folder with an `auto` or `ocr` folder, no feature file unless forced, and reached before the batch raised, gets its feature file, holding what its item loop built even if the loop stopped on an exception |
| ClipWorkerPdf.DocStep | data_layer/clip_worker_pdf.py:107-188 | after a raise nothing changes; one document adds at most one feature file, its own, and keeps the earlier ones |
| ClipWorkerPdf.ProcessItemsBounded | data_layer/clip_worker_pdf.py:139-182 | every kept slice has at most 50 elements, and text chunks are only appended |
| ClipWorkerPdf.ItemStepBounded | data_layer/clip_worker_pdf.py:143-182 | one item keeps every slice within 50 and only appends to the text chunks |
| ClipWorkerPdf.TextStepShape | data_layer/clip_worker_pdf.py:168-182 | the text branch leaves the images alone; a string text shorter than 5 after stripping changes nothing; otherwise at most one chunk is appended, holding the item's type (default `text`), its page (default -1), the first 50 characters and the text embedding |
| ClipWorkerPdf.ImageSlicesBounded | data_layer/clip_worker_pdf.py:140-166 | the image branch leaves the text chunks alone; a missing file changes nothing; otherwise it either keeps the images or stores, under the path's basename, the item's type, its page (default -1), a caption slice of at most 50 and the image embedding |
| ClipWorkerPdf.ItemRouting | data_layer/clip_worker_pdf.py:143-168 | an image or table item with `img_path` adds no text chunk, and is keyed by the path's basename with the image embedding when the file exists, the encoder succeeds and the caption can be sliced; any other item leaves the images alone and appends a chunk of its first 50 characters iff its text is a string of at least 5 non-blank characters that the encoder takes |
| VisualWrapper.ModeAfterIff | services/reasoning_eye/visual_wrapper.py:37-42 | capture mode is on after a line prefix iff some start-marker line is followed only by lines without an end marker |
| VisualWrapper.CapturedAppend | services/reasoning_eye/visual_wrapper.py:34-44 | from a closed state, the capture of a concatenation is the concatenation of the captures |
| VisualWrapper.CapturedBlock | services/reasoning_eye/visual_wrapper.py:34-44 | a start line, marker-free body lines and an end line capture exactly the body, and the markers are never captured |
| VisualWrapper.CaptureLoop | services/reasoning_eye/visual_wrapper.py:34-44 | every line goes to the log, and the raw result is the capture of the stream |
| VisualWrapper.Command | services/reasoning_eye/visual_wrapper.py:21-24 | the command is the interpreter, `-u`, the script, then `--image` and `--prompt` with the given image and prompt (empty when absent); there is no command (the call raises) iff the parameters are not a dictionary or the image or prompt is not a string |
| VisualWrapper.Decide | services/reasoning_eye/visual_wrapper.py:50-53 | a parsed result iff the exit code is 0, the capture is non-empty and its stripped text parses; otherwise the error record |
| VisualWrapper.RunVisualInferenceAsWritten | services/reasoning_eye/visual_wrapper.py:8-56 | as written, every run returns an error record; parameters that do not make a command give the bad-parameters record |
| VisualWrapper.AsWrittenNeverParses | services/reasoning_eye/visual_wrapper.py:46-56 | as written, the function never returns a parsed result; once the process ran, it returns the closed-log error |
| VisualWrapper.AsWrittenLosesResult | services/reasoning_eye/visual_wrapper.py:46-56 | a stream with a valid captured `{}` and exit 0 still yields an error record as written, where the corrected function returns the parse |
| VisualWrapper.RunVisualInference | services/reasoning_eye/visual_wrapper.py:8-56 | the corrected wrapper returns exactly what `Decide` gives for the captured stream, and an error record when the launch raises |
| VisualWrapper.InputJson | services/reasoning_eye/visual_wrapper.py:60 | the parameters are argv[1], or `{}` when it is missing |
| VideoSlicer.Suffix | services/video_vision/video_slicer.py:138 | a last dot strictly inside the name gives the name from that dot on; otherwise the suffix is empty; a non-empty suffix ends the name, starts with its only dot and is shorter than the name |
| VideoSlicer.StemSuffix | services/video_vision/video_slicer.py:43 | the stem followed by the suffix is the file name |
| VideoSlicer.Trunc | services/video_vision/video_slicer.py:118 | `int()` on a float truncates toward zero |
| VideoSlicer.EffectiveFps | services/video_vision/video_slicer.py:100 | a non-positive frame rate becomes 25; a positive one is kept |
| VideoSlicer.ShouldProcessByStem | services/video_vision/video_slicer.py:42-53 | a video is skipped only when its standard mp4 exists and its frames folder holds a `.jpg`; two names with the same stem get the same answer |
| VideoSlicer.Slice | services/video_vision/video_slicer.py:102-131 | the frame loop raises iff the stride is 0 and there is a frame; it keeps at most one keyframe per frame |
| VideoSlicer.SliceSpaced | services/video_vision/video_slicer.py:102-131 | keyframes are sampled frames in increasing order, never the first sample; each comes more than `min_interval` after the previous one; the last keyframe time is tracked |
| VideoSlicer.SaveKeepsSpacing | services/video_vision/video_slicer.py:125-129 | saving a sampled frame that passes the interval rule keeps the spacing invariant |
| VideoSlicer.FirstFrameNotSaved | services/video_vision/video_slicer.py:102-125 | frame 0 never passes the interval rule, because before any keyframe the last keyframe time is `-min_interval` |
| VideoSlicer.SavedWhenRuleHolds | services/video_vision/video_slicer.py:118-129 | a frame becomes a keyframe iff it is sampled, a previous sample exists, the score exceeds the threshold and the time since the last keyframe exceeds `min_interval` |
| VideoSlicer.SliceFrames | services/video_vision/video_slicer.py:102-131 | the frame loop computes the slicing function, including the division by zero raised by a zero stride, and its keyframes are spaced |
| VideoSlicer.SliceRaisedStays | services/video_vision/video_slicer.py:118 | once the frame loop has raised, later frames change nothing |
| VideoSlicer.ExistingMp4NotTranscoded | services/video_vision/video_slicer.py:61-62 | an existing standard mp4 is used without transcoding, so the transcode outcome does not matter |
| VideoSlicer.SingleVideo | services/video_vision/video_slicer.py:55-134 | a video is left unsliced iff there is no standard mp4 and FFmpeg exits nonzero; once the mp4 is there it raises iff the stride is 0 and there is a frame; keyframe times are frame index / fps |
| VideoSlicer.ProcessSingleVideo | services/video_vision/video_slicer.py:83-134 | the method ends as `SingleVideo` says: no slicing after a failed transcode, an exception for any other FFmpeg error, otherwise the keyframes and their times |
| VideoSlicer.VideoFiles | services/video_vision/video_slicer.py:137-138 | only names whose lower-cased suffix is `.mp4`, `.mkv`, `.avi`, `.mov` or `.flv` are kept; a one-name listing is kept iff that name is a video file (order: `VideoFilesConcat`) |
| VideoSlicer.VideoFilesConcat | services/video_vision/video_slicer.py:137-138 | filtering a listing split in two gives the filtered parts in the same order, so the kept names appear in listing order |
| VideoSlicer.VideoFilesComplete | services/video_vision/video_slicer.py:137-138 | every video file of the listing is kept |
| VideoSlicer.RunBatch | services/video_vision/video_slicer.py:136-154 | the batch records, in order, one outcome for each video file that needs processing |
| VideoSlicer.ProcessVideos | services/video_vision/video_slicer.py:146-152 | the loop over the video files records, in order, one outcome for each file that needs processing |
| VideoSlicer.BatchStep | services/video_vision/video_slicer.py:147-152 | one iteration appends the file's outcome iff the file needs processing, and leaves the earlier outcomes as they were |
| VideoSlicer.BatchIsolated | services/video_vision/video_slicer.py:146-152 | each recorded outcome belongs to a listed video that needs processing, and is that video's own outcome |
| VideoSlicer.BatchComplete | services/video_vision/video_slicer.py:146-152 | every video that needs processing gets its outcome, whatever the videos before it did |
| AssetTypes.ParseStatus | web/frontend/lib/types.ts:2-10 | a status string reads back to itself, and falls outside the union iff it is not one of the eight names |
| Page.JsRem | web/frontend/app/page.tsx:42 | JavaScript's remainder lies in [0, 60) for non-negative seconds and is never positive for negative ones |
| Page.FormatAnchor | web/frontend/app/page.tsx:38-46 | a video anchor is written with a colon and at least four characters; any other anchor starts with `P.` |
| Page.VideoAnchorRoundTrip | web/frontend/app/page.tsx:38-43 | a non-negative video anchor is written `m:ss`; the seconds are two digits below 60, and minutes * 60 + seconds is the floor of the anchor |
| Page.NegativeVideoAnchor | web/frontend/app/page.tsx:40-43 | a negative anchor keeps its sign in both parts: -5 seconds is written `-1:-5` |
| Page.PdfAnchorRoundTrip | web/frontend/app/page.tsx:45 | a PDF anchor is written `P.` followed by the digits of its floor |
| Page.JumpPage | web/frontend/app/page.tsx:86 | the page opened is at least 1, and is the floor of the anchor from 1 up |
| Page.Jump | web/frontend/app/page.tsx:78-108 | no preview means no jump; a mounted video player seeks to the anchor; a mounted PDF viewer opens the clamped page |
| Page.NormalizeAsset | web/frontend/app/page.tsx:111-123 | id and name are `asset_id`; the status defaults to Raw; the type is `asset_type`, else pdf iff the id ends with `.pdf`, else video; progress is 100 iff Ready, else 0; it throws iff there is neither a type nor an id |
| Page.NormalizeAll | web/frontend/app/page.tsx:132 | a successful map normalises every record, in order |
| Page.NormalizeAllRaised | web/frontend/app/page.tsx:132 | the map throws iff some record throws |
| Page.HasActiveTasksIff | web/frontend/app/page.tsx:134 | active tasks exist iff some asset's status is not Ready, Raw or Failed |
| Page.NextSyncing | web/frontend/app/page.tsx:135-136 | after a refresh, polling runs iff there are active tasks |
| Page.Refresh | web/frontend/app/page.tsx:126-139 | a successful reply replaces the assets, and polling follows the active tasks; a failed reply or a throwing record leaves the page as it was |
| Page.FindAsset | web/frontend/app/page.tsx:64 | finds the first asset with the id, or reports that none has it |
| Page.SelectAsset | web/frontend/app/page.tsx:63-75 | the id becomes selected; structure and preview load iff the first asset with that id is Ready, otherwise both are cleared |
| EvidenceCard.Anchor | web/frontend/components/EvidenceCard.tsx:15 | video evidence jumps to its timestamp, or 0; PDF evidence to its page, or 1 when the page is missing or 0, so never page 0 |
| EvidenceCard.DisplayAnchor | web/frontend/components/EvidenceCard.tsx:18-25 | a video evidence shows a clock reading with a colon; any other evidence shows `P.` and a page |
| EvidenceCard.DisplayDefaults | web/frontend/components/EvidenceCard.tsx:15-25 | video evidence without a timestamp shows `0:00`; PDF evidence without a page shows `P.1` |
| EvidenceCard.DisplayVideoRoundTrip | web/frontend/components/EvidenceCard.tsx:18-24 | a non-negative video anchor shows `m:ss`; the seconds are below 60, and the parts give back the whole seconds |
| EvidenceCard.Click | web/frontend/components/EvidenceCard.tsx:30 | a click passes exactly the asset name, the anchor and the box |
| AssetCard.ParsingStates | web/frontend/components/AssetCard.tsx:18 | the parsing states are exactly recognizing, Cliping and Structuring |
| AssetCard.GetStatusConfig | web/frontend/components/AssetCard.tsx:22-28 | the first matching test in the order Uploading, Raw, parsing, Ingesting decides the badge; everything else gets STABLE_READY |
| AssetCard.LabelClasses | web/frontend/components/AssetCard.tsx:22-28 | each label names exactly one class of statuses; STABLE_READY covers Ready, Failed and unknown statuses |
| AssetCard.Click | web/frontend/components/AssetCard.tsx:34 | a click selects the asset's id iff it is Ready |
| AssetCard.PhaseText | web/frontend/components/AssetCard.tsx:49 | `Indexed` iff Ready, otherwise `Phase_Pending` |
| AssetCard.Body | web/frontend/components/AssetCard.tsx:60-78 | the progress bar shows iff the asset is parsing, ingesting or uploading, with that phase's text; Raw waits for sync; anything else is stable |
| AssetCard.ProgressMatchesActive | web/frontend/components/AssetCard.tsx:60 | for the statuses of the union, the card shows a progress bar iff the page counts the asset as an active task |
| Text.JoinSplit | data_layer/json_messenger.py:64-66 | joining the pieces of a split with the separator gives back the string |
| Text.SplitJoin | data_layer/json_messenger.py:64-66 | splitting the join of separator-free pieces gives back the pieces |
| Text.StripEmptyIffBlank | core/tools_manager.py:49 | `strip()` is empty iff the string is whitespace only |
| Text.ContainsAt | data_layer/vector_search.py:84 | `needle in hay` holds iff the needle occurs at some offset |
| Text.NatToStringValue | web/frontend/app/page.tsx:43 | the decimal rendering of a number reads back as that number |

## Left out

- Threading: the mutex, the singleton and `asyncio.to_thread` are not modelled. Calls on the gate are sequential on one object. The guard's unlocked read of the gate, followed by work, is not modelled as a race.
- External work: subprocesses, FFmpeg, OpenCV decoding and blurring, CLIP and DINOv2 inference, and Milvus. Their outcomes are inputs: exit codes, stdout lines, per-frame difference scores, embeddings, hits.
- JSON text: `json.loads`/`json.dumps` are an abstract partial parse function. Rendering a list or dictionary inside an f-string is a parameter.
- Undefined tools: `call_pdf_parser`, `call_data_manager` and `call_searcher` are called but not defined in core/tools_manager.py, so their replies are inputs.
- Logging, `time.sleep`, the elapsed-time measurement and the progress log lines of the slicer.
- Character handling: case mapping and whitespace are ASCII only, with no Unicode case folding.
- Paths: `.`, `..` and repeated separators are not normalised, and names containing `/` are not modelled.
- Python floats and JavaScript numbers are exact reals. `NaN` and infinities are not modelled.
- DataWrapper.RunSteps: a step whose log file cannot be opened or whose process cannot be started (an exception from `open` or `Popen`) also aborts the pipeline, with the exception text as message; the model has every launch end with an exit code.
- VectorSearch.SortDesc: stability of Python's sort is not proved. The result is proved sorted and a permutation.
- ClipWorkerPdf.BatchProcess: the feature files are reported as a list of (path, features) writes rather than applied to the tree, and the images dictionary is a map, so its insertion order is not kept.
- VideoSlicer.RunBatch: the incrementality check reads the tree as it was when the batch started. A second raw file with the same stem does not see the first one's output.
- VideoSlicer.ProcessSingleVideo: keyframe file names (`time_<t>.jpg` with two decimals) and the writes of the frames and the mp4 are not modelled; the result lists the keyframe indices and times.
- Page: the React state handlers other than the refresh, selection and jump logic are not modelled: upload, global sync, the polling timer, preview fetching and structure fetching. The jump URL's cache-busting timestamp and fragment are not modelled.
- PdfViewer.tsx, SystemMonitor.tsx and MarkdownRenderer.tsx are UI not modelled here, and neither are prompt_manager.py, dinov2_worker.py and search_wrapper.py, except that the records the retriever receives have the shape that search_wrapper.py prints.
- The reasoning graph's synthesis node, its workflow construction and `ask` are stubs or library wiring, and are not modelled.

## Findings

| source | as written | input that shows it | evidently intended | confidence | as-written member | corrected member |
|---|---|---|---|---|---|---|
| core/reasoning_stream.py:86 | the hit log reads `res['modality']`, but a search record (data_layer/vector_search.py:91-101) keeps its modality under `metadata`, so `KeyError` escapes the node on every non-empty hit list | one human message and a search reply with one record | read `res['metadata']['modality']` and return the hits as the retrieved context | medium (not executed): `call_searcher` is not defined, so its reply is taken to be the records search_wrapper.py prints | ReasoningStream.AcademicRetrieverAsWritten | ReasoningStream.AcademicRetriever |
| services/reasoning_eye/visual_wrapper.py:48 | the final `log_f.write` runs after the `with` block has closed the log file, so it raises `ValueError`, which the outer `except` turns into an error record | a worker printing the start marker and `{}` and exiting 0 | write the footer inside the `with` block and return the parsed result | high (not executed) | VisualWrapper.RunVisualInferenceAsWritten | VisualWrapper.RunVisualInference |

=== FILE: asset_card.dfy ===
/** The asset card of the library strip
    (web/frontend/components/AssetCard.tsx): which label, body and
    behaviour each asset status gets. */
module AssetCard {
  import opened Wrappers
  import opened Text
  import opened AssetTypes
  import Page

  predicate IsParsing(s: AssetStatus) {
    StatusName(s) in ["recognizing", "Cliping", "Structuring"]
  }

  /** The parsing states are exactly the three analysis phases. */
  lemma ParsingStates(s: AssetStatus)
    requires WellFormed(s)
    ensures IsParsing(s) <==> s == Recognizing || s == Cliping || s == Structuring
  {
  }

  /** The badge of `getStatusConfig`: its label and its colour class. */
  datatype StatusConfig = StatusConfig(caption: string, color: string)

  /** `getStatusConfig`: the first matching test, in the order Uploading,
      Raw, parsing, Ingesting, and the stable badge for everything else. */
  function GetStatusConfig(s: AssetStatus): (r: StatusConfig)
    ensures s == Uploading ==> r == StatusConfig("UPLOADING", "text-dracula-orange")
    ensures s == Raw ==> r == StatusConfig("RAW_UNSYNCED", "text-dracula-purple")
    ensures IsParsing(s) ==> r == StatusConfig(Upper(StatusName(s)), "text-dracula-yellow")
    ensures s == Ingesting ==> r == StatusConfig("INGESTING", "text-dracula-cyan")
    ensures s != Uploading && s != Raw && !IsParsing(s) && s != Ingesting ==>
      r == StatusConfig("STABLE_READY", "text-dracula-green")
  {
    if s == Uploading then StatusConfig("UPLOADING", "text-dracula-orange")
    else if s == Raw then StatusConfig("RAW_UNSYNCED", "text-dracula-purple")
    else if IsParsing(s) then StatusConfig(Upper(StatusName(s)), "text-dracula-yellow")
    else if s == Ingesting then StatusConfig("INGESTING", "text-dracula-cyan")
    else StatusConfig("STABLE_READY", "text-dracula-green")
  }

  /** Each well-formed status gets the label of its class, and the labels
      tell the classes apart; a Failed asset wears the stable badge. */
  lemma {:induction false} LabelClasses(s: AssetStatus)
    requires WellFormed(s)
    ensures var l := GetStatusConfig(s).caption;
      (l == "UPLOADING" <==> s == Uploading) &&
      (l == "RAW_UNSYNCED" <==> s == Raw) &&
      (l == "INGESTING" <==> s == Ingesting) &&
      (l == "RECOGNIZING" <==> s == Recognizing) &&
      (l == "CLIPING" <==> s == Cliping) &&
      (l == "STRUCTURING" <==> s == Structuring) &&
      (l == "STABLE_READY" <==> s == Ready || s == Failed || s.Other?)
  {
    assert Upper("recognizing") == "RECOGNIZING";
    assert Upper("Cliping") == "CLIPING";
    assert Upper("Structuring") == "STRUCTURING";
  }

  /** What a click on the card does. */
  datatype ClickEffect = NoSelect | Select(id: Option<string>)

  /** `isReady && onSelect(asset.id)`: only a Ready asset can be selected. */
  function Click(a: Asset): (r: ClickEffect)
    ensures r.Select? <==> a.status == Ready
    ensures r.Select? ==> r.id == a.id
  {
    if a.status == Ready then Select(a.id) else NoSelect
  }

  /** `Indexed` for a Ready asset, `Phase_Pending` for any other. */
  function PhaseText(s: AssetStatus): (r: string)
    ensures r == "Indexed" <==> s == Ready
    ensures r == "Phase_Pending" <==> s != Ready
  {
    if s == Ready then "Indexed" else "Phase_Pending"
  }

  /** The body of the card. */
  datatype CardBody = Progress(text: string) | WaitingForSync | AccessGranted

  /** The progress bar while parsing, ingesting or uploading, the waiting
      line for a Raw asset, the stable line otherwise. */
  function Body(s: AssetStatus): (r: CardBody)
    ensures r.Progress? <==> IsParsing(s) || s == Ingesting || s == Uploading
    ensures r.WaitingForSync? <==> s == Raw
    ensures IsParsing(s) ==> r == Progress("EXECUTING_" + Upper(StatusName(s)) + "...")
    ensures s == Uploading ==> r == Progress("STREAMING_TO_DISK...")
    ensures s == Ingesting ==> r == Progress("WRITING_TO_VECTOR_DB...")
  {
    if IsParsing(s) || s == Ingesting || s == Uploading then
      Progress(if IsParsing(s) then "EXECUTING_" + Upper(StatusName(s)) + "..."
               else if s == Uploading then "STREAMING_TO_DISK..." else "WRITING_TO_VECTOR_DB...")
    else if s == Raw then WaitingForSync
    else AccessGranted
  }

  /** For the statuses of the union, the card shows a progress bar exactly
      when the page counts the asset as an active task; an unknown status
      keeps the page polling without a bar. */
  lemma ProgressMatchesActive(s: AssetStatus)
    requires WellFormed(s)
    ensures !s.Other? ==> (Body(s).Progress? <==> Page.IsActive(s))
    ensures s.Other? ==> Page.IsActive(s) && !Body(s).Progress?
  {
  }
}

=== FILE: asset_types.dfy ===
/** The shapes the web frontend shares with the backend
    (web/frontend/lib/types.ts). */
module AssetTypes {
  import opened Wrappers

  /** `AssetStatus`. The frontend casts whatever status string the backend
      sends, so a name outside the union is kept as `Other`. */
  datatype AssetStatus =
    | Uploading | Raw | Recognizing | Cliping | Structuring | Ingesting | Ready | Failed
    | Other(name: string)

  const KnownNames: seq<string> :=
    ["Uploading", "Raw", "recognizing", "Cliping", "Structuring", "Ingesting", "Ready", "Failed"]

  /** The status string the backend sends for `s`. */
  function StatusName(s: AssetStatus): string {
    match s
    case Uploading => "Uploading"
    case Raw => "Raw"
    case Recognizing => "recognizing"
    case Cliping => "Cliping"
    case Structuring => "Structuring"
    case Ingesting => "Ingesting"
    case Ready => "Ready"
    case Failed => "Failed"
    case Other(n) => n
  }

  /** A status whose `Other` name is not one of the union's names. */
  predicate WellFormed(s: AssetStatus) {
    s.Other? ==> s.name !in KnownNames
  }

  /** The status a backend string stands for (`status as AssetStatus`). */
  function ParseStatus(n: string): (r: AssetStatus)
    ensures StatusName(r) == n
    ensures WellFormed(r)
    ensures r.Other? <==> n !in KnownNames
  {
    if n == "Uploading" then Uploading
    else if n == "Raw" then Raw
    else if n == "recognizing" then Recognizing
    else if n == "Cliping" then Cliping
    else if n == "Structuring" then Structuring
    else if n == "Ingesting" then Ingesting
    else if n == "Ready" then Ready
    else if n == "Failed" then Failed
    else Other(n)
  }

  /** Every well-formed status is read back from its name. */
  lemma ParseStatusName(s: AssetStatus)
    requires WellFormed(s)
    ensures ParseStatus(StatusName(s)) == s
  {
  }

  /** `OutlineSubPoint` and `OutlineItem`: the anchor is seconds for a
      video and a page for a PDF. */
  datatype OutlineSubPoint = OutlineSubPoint(heading: string, anchor: real, summary: string)
  datatype OutlineItem = OutlineItem(heading: string, anchor: real, summary: string, subPoints: seq<OutlineSubPoint>)

  /** `Asset`. `id` and `name` are absent when the backend record has no
      `asset_id`; `kind` is whatever truthy `asset_type` the backend sent. */
  datatype Asset = Asset(
    id: Option<string>,
    name: Option<string>,
    kind: string,
    status: AssetStatus,
    createdAt: string,
    processedPath: Option<string>,
    progress: int,
    outline: seq<OutlineItem>)

  /** The `metadata` of an `Evidence`. */
  datatype EvidenceMetadata = EvidenceMetadata(
    assetName: string,
    modality: string,
    pageLabel: Option<real>,
    timestamp: Option<real>,
    bbox: Option<string>)

  /** `Evidence`. */
  datatype Evidence = Evidence(content: string, score: real, metadata: EvidenceMetadata)
}

=== FILE: clip_worker_pdf.dfy ===
/** `CLIPWorker.batch_process` of data_layer/clip_worker_pdf.py: walks the
    MinerU output folders, routes each content-list item to the image map
    or the text-chunk list, and writes one feature file per document. The
    CLIP encoders are the parameters `embedImage` and `embedText` (None when
    the encoder raises); the feature files are reported as writes. */
module ClipWorkerPdf {
  import opened Wrappers
  import opened Text
  import opened Storage
  import opened JsonValue

  type Embedding = seq<real>

  /** An entry of `doc_results["images"]`. */
  datatype ImageFeature = ImageFeature(kind: string, pageIdx: Json, textSlice: Json, embedding: Embedding)

  /** An entry of `doc_results["text_chunks"]`. */
  datatype TextChunk = TextChunk(kind: Json, pageIdx: Json, textSlice: string, embedding: Embedding)

  /** `doc_results`. */
  datatype Features = Features(images: map<string, ImageFeature>, textChunks: seq<TextChunk>)

  const NoFeatures := Features(map[], [])
  const FeatureFileName := "multimodal_features.json"
  const SliceLength := 50
  const MinTextLength := 5

  /** The state the item loop carries: the results so far, the last image
      name bound in the batch, and whether an exception ended the loop. */
  datatype ItemState = ItemState(features: Features, lastImage: Option<string>, stopped: bool)

  /** `s[:50]`. */
  function Take50<T>(s: seq<T>): (r: seq<T>)
    ensures |r| <= SliceLength && |r| <= |s| && r == s[..|r|]
    ensures |s| <= SliceLength ==> r == s
  {
    if |s| <= SliceLength then s else s[..SliceLength]
  }

  /** `caption[:50]`, for the values that can be sliced. */
  function SliceValue(v: Json): Option<Json> {
    match v
    case JStr(s) => Some(JStr(Take50(s)))
    case JArr(items) => Some(JArr(Take50(items)))
    case _ => None
  }

  /** `os.path.join(base, rel)` for a relative path with '/' separators. */
  function JoinPath(base: Path, rel: string): Path {
    if |rel| > 0 && rel[0] == '/' then Split(rel[1..], '/') else base + Split(rel, '/')
  }

  /** `a or b or ""`. */
  function FirstTruthy(a: Json, b: Json): Json {
    if Truthy(a) then a else if Truthy(b) then b else JStr("")
  }

  /** An item that takes the image branch. */
  predicate IsImageItem(m: map<string, Json>) {
    var kind := Get(m, "type", JStr(""));
    (kind == JStr("image") || kind == JStr("table")) && "img_path" in m
  }

  /** One pass of the item loop. */
  function ItemStep(fs: Fs<Doc>, ocrDir: Path, st: ItemState, item: Json,
                    embedImage: Path -> Option<Embedding>, embedText: string -> Option<Embedding>): (r: ItemState)
    ensures st.stopped ==> r == st
    ensures !st.stopped && !item.JObj? ==> r.stopped
    // text chunks are only ever appended, one at most
    ensures |st.features.textChunks| <= |r.features.textChunks| <= |st.features.textChunks| + 1
    ensures r.features.textChunks[..|st.features.textChunks|] == st.features.textChunks
    // a stopped item leaves the results as they were
    ensures r.stopped ==> r.features == st.features
  {
    if st.stopped then st
    else if !item.JObj? then st.(stopped := true)
    else
      var m := item.fields;
      var page := Get(m, "page_idx", JInt(-1));
      var kind := Get(m, "type", JStr(""));
      if IsImageItem(m) then
        var rel := m["img_path"];
        if !rel.JStr? then st.(stopped := true)
        else
          var full := JoinPath(ocrDir, rel.s);
          if !fs.Exists(full) then st
          else match embedImage(full)
            // the handler logs `img_name`, unbound until some image of the batch succeeded
            case None => if st.lastImage.None? then st.(stopped := true) else st
            case Some(e) =>
              var name := Basename(rel.s);
              match SliceValue(Get(m, "img_caption", JStr("")))
              case None => st.(lastImage := Some(name))
              case Some(slice) =>
                ItemState(st.features.(images := st.features.images[name := ImageFeature(kind.s, page, slice, e)]), Some(name), false)
      else
        var text := FirstTruthy(Get(m, "text", JNull), Get(m, "text_content", JNull));
        if !text.JStr? then st.(stopped := true)
        else if |Strip(text.s)| < MinTextLength then st
        else match embedText(text.s)
          case None => st.(stopped := true)
          case Some(e) =>
            st.(features := st.features.(textChunks := st.features.textChunks + [TextChunk(Get(m, "type", JStr("text")), page, Take50(text.s), e)]))
  }

  /** The item loop over `items`, from `st`. */
  function ProcessItems(fs: Fs<Doc>, ocrDir: Path, st: ItemState, items: seq<Json>,
                        embedImage: Path -> Option<Embedding>, embedText: string -> Option<Embedding>): ItemState
    decreases |items|
  {
    if |items| == 0 then st
    else ItemStep(fs, ocrDir, ProcessItems(fs, ocrDir, st, items[..|items| - 1], embedImage, embedText), items[|items| - 1], embedImage, embedText)
  }

  /** The folder holding the MinerU output: `auto` if it exists, else `ocr`. */
  function ChooseOcrDir(fs: Fs<Doc>, docPath: Path): (r: Option<Path>)
    ensures r.Some? <==> fs.Exists(docPath + ["auto"]) || fs.Exists(docPath + ["ocr"])
    ensures fs.Exists(docPath + ["auto"]) ==> r == Some(docPath + ["auto"])
    ensures !fs.Exists(docPath + ["auto"]) && fs.Exists(docPath + ["ocr"]) ==> r == Some(docPath + ["ocr"])
  {
    if fs.Exists(docPath + ["auto"]) then Some(docPath + ["auto"])
    else if fs.Exists(docPath + ["ocr"]) then Some(docPath + ["ocr"])
    else None
  }

  /** The results of one document: no content list gives none; a content
      list that cannot be read or iterated stops at once. */
  function DocFeatures(fs: Fs<Doc>, ocrDir: Path, docName: string, lastImage: Option<string>,
                       embedImage: Path -> Option<Embedding>, embedText: string -> Option<Embedding>): ItemState
  {
    var start := ItemState(NoFeatures, lastImage, false);
    var contentList := ocrDir + [docName + "_content_list.json"];
    if !fs.Exists(contentList) then start
    else if !fs.IsFile(contentList) || fs.files[contentList].None? then start.(stopped := true)
    else match Iterated(fs.files[contentList].value)
      case Raised => start.(stopped := true)
      case Ok(items) => ProcessItems(fs, ocrDir, start, items, embedImage, embedText)
  }

  /** The state the document loop carries: the feature files written, the
      last image name bound, and whether an exception left the batch. */
  datatype BatchState = BatchState(writes: seq<(Path, Features)>, lastImage: Option<string>, raised: bool)

  /** One pass of the document loop. */
  function DocStep(fs: Fs<Doc>, root: Path, force: bool, bs: BatchState, docName: string,
                   embedImage: Path -> Option<Embedding>, embedText: string -> Option<Embedding>): (r: BatchState)
    ensures bs.raised ==> r == bs
    // at most one feature file is added, and it is the document's own
    ensures |bs.writes| <= |r.writes| <= |bs.writes| + 1 && r.writes[..|bs.writes|] == bs.writes
    ensures |r.writes| == |bs.writes| + 1 ==> r.writes[|bs.writes|].0 == root + [docName, FeatureFileName]
  {
    var docPath := root + [docName];
    var output := docPath + [FeatureFileName];
    if bs.raised || !fs.IsDir(docPath) || (fs.Exists(output) && !force) then bs
    else match ChooseOcrDir(fs, docPath)
      case None => bs
      case Some(ocrDir) =>
        var st := DocFeatures(fs, ocrDir, docName, bs.lastImage, embedImage, embedText);
        // writing over a directory raises out of the batch
        if fs.IsDir(output) then BatchState(bs.writes, st.lastImage, true)
        else BatchState(bs.writes + [(output, st.features)], st.lastImage, false)
  }

  /** The document loop over `names`. */
  function ProcessDocs(fs: Fs<Doc>, root: Path, force: bool, names: seq<string>,
                       embedImage: Path -> Option<Embedding>, embedText: string -> Option<Embedding>): BatchState
    decreases |names|
  {
    if |names| == 0 then BatchState([], None, false)
    else DocStep(fs, root, force, ProcessDocs(fs, root, force, names[..|names| - 1], embedImage, embedText), names[|names| - 1], embedImage, embedText)
  }

  /** `batch_process`: nothing when the root is missing; `os.listdir` of a
      file raises. */
  function Batch(fs: Fs<Doc>, root: Path, force: bool,
                 embedImage: Path -> Option<Embedding>, embedText: string -> Option<Embedding>): BatchState
  {
    if !fs.Exists(root) then BatchState([], None, false)
    else if !fs.IsDir(root) then BatchState([], None, true)
    else ProcessDocs(fs, root, force, fs.Entries(root), embedImage, embedText)
  }

  /** The item loop of one document, stopping at the first exception. */
  method ProcessContentList(fs: Fs<Doc>, ocrDir: Path, items: seq<Json>, lastImageIn: Option<string>,
                            embedImage: Path -> Option<Embedding>, embedText: string -> Option<Embedding>)
    returns (images: map<string, ImageFeature>, textChunks: seq<TextChunk>, lastImage: Option<string>, stopped: bool)
    ensures ItemState(Features(images, textChunks), lastImage, stopped)
         == ProcessItems(fs, ocrDir, ItemState(NoFeatures, lastImageIn, false), items, embedImage, embedText)
  {
    images, textChunks, lastImage, stopped := map[], [], lastImageIn, false;
    ghost var start := ItemState(NoFeatures, lastImageIn, false);
    var i := 0;
    while i < |items|
      invariant 0 <= i <= |items|
      invariant ItemState(Features(images, textChunks), lastImage, stopped) == ProcessItems(fs, ocrDir, start, items[..i], embedImage, embedText)
      invariant !stopped
    {
      assert items[..i + 1][..i] == items[..i];
      images, textChunks, lastImage, stopped := HandleItem(fs, ocrDir, images, textChunks, lastImage, items[i], embedImage, embedText);
      if stopped {
        break;
      }
      i := i + 1;
    }
    if stopped {
      StoppedStays(fs, ocrDir, items, i + 1, start, embedImage, embedText);
    } else {
      assert items[..i] == items;
    }
  }

  /** The body of the item loop for one item. */
  method HandleItem(fs: Fs<Doc>, ocrDir: Path, imagesIn: map<string, ImageFeature>, textChunksIn: seq<TextChunk>,
                    lastImageIn: Option<string>, item: Json,
                    embedImage: Path -> Option<Embedding>, embedText: string -> Option<Embedding>)
    returns (images: map<string, ImageFeature>, textChunks: seq<TextChunk>, lastImage: Option<string>, stopped: bool)
    ensures ItemState(Features(images, textChunks), lastImage, stopped)
         == ItemStep(fs, ocrDir, ItemState(Features(imagesIn, textChunksIn), lastImageIn, false), item, embedImage, embedText)
  {
    images, textChunks, lastImage, stopped := imagesIn, textChunksIn, lastImageIn, false;
    if !item.JObj? {
      return images, textChunks, lastImage, true;
    }
    var m := item.fields;
    var pageIdx := Get(m, "page_idx", JInt(-1));
    var itemType := Get(m, "type", JStr(""));
    if (itemType == JStr("image") || itemType == JStr("table")) && "img_path" in m {
      var imgRelative := m["img_path"];
      if !imgRelative.JStr? {
        return images, textChunks, lastImage, true;
      }
      var fullImgPath := JoinPath(ocrDir, imgRelative.s);
      if fs.Exists(fullImgPath) {
        var embedding := embedImage(fullImgPath);
        if embedding.None? {
          stopped := lastImage.None?;
        } else {
          var imgName := Basename(imgRelative.s);
          lastImage := Some(imgName);
          var slice := SliceValue(Get(m, "img_caption", JStr("")));
          if slice.Some? {
            images := images[imgName := ImageFeature(itemType.s, pageIdx, slice.value, embedding.value)];
          }
        }
      }
    } else {
      var text := FirstTruthy(Get(m, "text", JNull), Get(m, "text_content", JNull));
      if !text.JStr? {
        return images, textChunks, lastImage, true;
      }
      if |Strip(text.s)| >= MinTextLength {
        var embedding := embedText(text.s);
        if embedding.None? {
          return images, textChunks, lastImage, true;
        }
        textChunks := textChunks + [TextChunk(Get(m, "type", JStr("text")), pageIdx, Take50(text.s), embedding.value)];
      }
    }
  }

  /** Once the loop has stopped, later items change nothing. */
  lemma {:induction false} StoppedStays(fs: Fs<Doc>, ocrDir: Path, items: seq<Json>, i: nat, st: ItemState,
                                        embedImage: Path -> Option<Embedding>, embedText: string -> Option<Embedding>)
    requires i <= |items| && ProcessItems(fs, ocrDir, st, items[..i], embedImage, embedText).stopped
    ensures ProcessItems(fs, ocrDir, st, items, embedImage, embedText) == ProcessItems(fs, ocrDir, st, items[..i], embedImage, embedText)
    decreases |items| - i
  {
    if i < |items| {
      assert items[..|items| - 1][..i] == items[..i];
      StoppedStays(fs, ocrDir, items[..|items| - 1], i, st, embedImage, embedText);
    } else {
      assert items[..i] == items;
    }
  }

  /** The `for sub in ["auto", "ocr"]` search for the MinerU folder. */
  method FindOcrDir(fs: Fs<Doc>, docPath: Path) returns (ocrDir: Option<Path>)
    ensures ocrDir == ChooseOcrDir(fs, docPath)
  {
    var subs := ["auto", "ocr"];
    assert subs[0] == "auto" && subs[1] == "ocr";
    ocrDir := None;
    var k := 0;
    while k < |subs| && ocrDir.None?
      invariant 0 <= k <= |subs|
      invariant forall j :: 0 <= j < k && (ocrDir.None? || j < k - 1) ==> !fs.Exists(docPath + [subs[j]])
      invariant ocrDir.Some? ==> k >= 1 && ocrDir == Some(docPath + [subs[k - 1]]) && fs.Exists(ocrDir.value)
    {
      if fs.Exists(docPath + [subs[k]]) {
        ocrDir := Some(docPath + [subs[k]]);
      }
      k := k + 1;
    }
    if ocrDir.None? {
      assert k == 2;
    }
  }

  /** `batch_process`: the feature files written, in order, and whether an
      exception left the batch. */
  method BatchProcess(fs: Fs<Doc>, root: Path, force: bool,
                      embedImage: Path -> Option<Embedding>, embedText: string -> Option<Embedding>)
    returns (writes: seq<(Path, Features)>, raised: bool)
    ensures writes == Batch(fs, root, force, embedImage, embedText).writes
    ensures raised == Batch(fs, root, force, embedImage, embedText).raised
    ensures !fs.Exists(root) ==> writes == [] && !raised
  {
    writes, raised := [], false;
    if !fs.Exists(root) {
      return;
    }
    if !fs.IsDir(root) {
      raised := true;
      return;
    }
    var names := fs.Entries(root);
    var lastImage: Option<string> := None;
    var i := 0;
    while i < |names|
      invariant 0 <= i <= |names|
      invariant BatchState(writes, lastImage, raised) == ProcessDocs(fs, root, force, names[..i], embedImage, embedText)
      invariant !raised
    {
      assert names[..i + 1][..i] == names[..i];
      var docName := names[i];
      var docPath := root + [docName];
      var outputJson := docPath + [FeatureFileName];
      if fs.IsDir(docPath) && !(fs.Exists(outputJson) && !force) {
        var ocrDir := FindOcrDir(fs, docPath);
        if ocrDir.Some? {
          var contentListPath := ocrDir.value + [docName + "_content_list.json"];
          var images, textChunks, last, stopped := map[], [], lastImage, false;
          if fs.Exists(contentListPath) {
            if !fs.IsFile(contentListPath) || fs.files[contentListPath].None? {
              stopped := true;
            } else {
              var contentData := Iterated(fs.files[contentListPath].value);
              if contentData.Raised? {
                stopped := true;
              } else {
                images, textChunks, last, stopped := ProcessContentList(fs, ocrDir.value, contentData.value, lastImage, embedImage, embedText);
              }
            }
          }
          assert ItemState(Features(images, textChunks), last, stopped) == DocFeatures(fs, ocrDir.value, docName, lastImage, embedImage, embedText);
          lastImage := last;
          if fs.IsDir(outputJson) {
            raised := true;
            DocsRaisedStays(fs, root, force, names, i + 1, embedImage, embedText);
            return;
          }
          writes := writes + [(outputJson, Features(images, textChunks))];
        }
      }
      i := i + 1;
    }
    assert names[..i] == names;
  }

  /** Once the batch has raised, later documents change nothing. */
  lemma {:induction false} DocsRaisedStays(fs: Fs<Doc>, root: Path, force: bool, names: seq<string>, i: nat,
                                           embedImage: Path -> Option<Embedding>, embedText: string -> Option<Embedding>)
    requires i <= |names| && ProcessDocs(fs, root, force, names[..i], embedImage, embedText).raised
    ensures ProcessDocs(fs, root, force, names, embedImage, embedText) == ProcessDocs(fs, root, force, names[..i], embedImage, embedText)
    decreases |names| - i
  {
    if i < |names| {
      assert names[..|names| - 1][..i] == names[..i];
      DocsRaisedStays(fs, root, force, names[..|names| - 1], i, embedImage, embedText);
    } else {
      assert names[..i] == names;
    }
  }

  /** Every feature file written lies in a document folder listed under the
      root, next to an `auto` or `ocr` folder, and replaces no existing file
      unless reprocessing is forced. */
  lemma {:induction false} WritesSound(fs: Fs<Doc>, root: Path, force: bool, names: seq<string>,
                                       embedImage: Path -> Option<Embedding>, embedText: string -> Option<Embedding>)
    ensures forall w :: w in ProcessDocs(fs, root, force, names, embedImage, embedText).writes ==>
      exists name :: (name in names && w.0 == root + [name, FeatureFileName] &&
        fs.IsDir(root + [name]) && (force || !fs.Exists(w.0)) && !fs.IsDir(w.0) &&
        ChooseOcrDir(fs, root + [name]).Some?)
    decreases |names|
  {
    if |names| > 0 {
      var init := names[..|names| - 1];
      WritesSound(fs, root, force, init, embedImage, embedText);
      var name := names[|names| - 1];
      assert root + [name] + [FeatureFileName] == root + [name, FeatureFileName];
      forall w | w in ProcessDocs(fs, root, force, names, embedImage, embedText).writes
        ensures exists name :: (name in names && w.0 == root + [name, FeatureFileName] &&
          fs.IsDir(root + [name]) && (force || !fs.Exists(w.0)) && !fs.IsDir(w.0) &&
          ChooseOcrDir(fs, root + [name]).Some?)
      {
        if w !in ProcessDocs(fs, root, force, init, embedImage, embedText).writes {
          assert w.0 == root + [name, FeatureFileName];
        } else {
          var n :| n in init && w.0 == root + [n, FeatureFileName] &&
            fs.IsDir(root + [n]) && (force || !fs.Exists(w.0)) && !fs.IsDir(w.0) && ChooseOcrDir(fs, root + [n]).Some?;
          assert n in names;
        }
      }
    }
  }

  /** The documents after the first `i` only append to the writes. */
  lemma {:induction false} WritesGrow(fs: Fs<Doc>, root: Path, force: bool, names: seq<string>, i: nat,
                                      embedImage: Path -> Option<Embedding>, embedText: string -> Option<Embedding>)
    requires i <= |names|
    ensures var before := ProcessDocs(fs, root, force, names[..i], embedImage, embedText).writes;
      var after := ProcessDocs(fs, root, force, names, embedImage, embedText).writes;
      |before| <= |after| && after[..|before|] == before
    decreases |names| - i
  {
    if i < |names| {
      var init := names[..|names| - 1];
      assert init[..i] == names[..i];
      WritesGrow(fs, root, force, init, i, embedImage, embedText);
      var before := ProcessDocs(fs, root, force, names[..i], embedImage, embedText).writes;
      var mid := ProcessDocs(fs, root, force, init, embedImage, embedText).writes;
      var after := ProcessDocs(fs, root, force, names, embedImage, embedText).writes;
      assert after[..|mid|] == mid;
      assert after[..|before|] == after[..|mid|][..|before|];
    } else {
      assert names[..i] == names;
    }
  }

  /** The converse of `WritesSound`: a listed document folder that has an
      `auto` or `ocr` folder, no feature file (unless reprocessing is
      forced) and is reached before the batch raised gets its feature file
      written, holding whatever the item loop built, even when the loop
      stopped on an exception. */
  lemma WritesComplete(fs: Fs<Doc>, root: Path, force: bool, names: seq<string>, j: nat,
                       embedImage: Path -> Option<Embedding>, embedText: string -> Option<Embedding>)
    requires j < |names|
    requires var output := root + [names[j], FeatureFileName];
      fs.IsDir(root + [names[j]]) && (force || !fs.Exists(output)) && !fs.IsDir(output) &&
      ChooseOcrDir(fs, root + [names[j]]).Some? &&
      !ProcessDocs(fs, root, force, names[..j], embedImage, embedText).raised
    ensures var output := root + [names[j], FeatureFileName];
      var lastImage := ProcessDocs(fs, root, force, names[..j], embedImage, embedText).lastImage;
      var ocrDir := ChooseOcrDir(fs, root + [names[j]]).value;
      (output, DocFeatures(fs, ocrDir, names[j], lastImage, embedImage, embedText).features)
        in ProcessDocs(fs, root, force, names, embedImage, embedText).writes
  {
    var name := names[j];
    assert names[..j + 1][..j] == names[..j];
    assert names[..j + 1][j] == name;
    assert root + [name] + [FeatureFileName] == root + [name, FeatureFileName];
    var step := ProcessDocs(fs, root, force, names[..j + 1], embedImage, embedText).writes;
    WritesGrow(fs, root, force, names, j + 1, embedImage, embedText);
    var all := ProcessDocs(fs, root, force, names, embedImage, embedText).writes;
    assert step[|step| - 1] == all[|step| - 1];
  }

  /** Every slice kept is at most 50 characters (or list elements). */
  predicate SlicesBounded(f: Features) {
    (forall k :: 0 <= k < |f.textChunks| ==> |f.textChunks[k].textSlice| <= SliceLength) &&
    (forall name :: name in f.images && f.images[name].textSlice.JStr? ==> |f.images[name].textSlice.s| <= SliceLength) &&
    (forall name :: name in f.images && f.images[name].textSlice.JArr? ==> |f.images[name].textSlice.items| <= SliceLength)
  }

  /** The item loop keeps every slice within 50, and only ever appends to
      the text chunks. */
  lemma {:induction false} ProcessItemsBounded(fs: Fs<Doc>, ocrDir: Path, st: ItemState, items: seq<Json>,
                                               embedImage: Path -> Option<Embedding>, embedText: string -> Option<Embedding>)
    requires SlicesBounded(st.features)
    ensures var r := ProcessItems(fs, ocrDir, st, items, embedImage, embedText);
      SlicesBounded(r.features) && |st.features.textChunks| <= |r.features.textChunks| &&
      r.features.textChunks[..|st.features.textChunks|] == st.features.textChunks
    decreases |items|
  {
    if |items| > 0 {
      ProcessItemsBounded(fs, ocrDir, st, items[..|items| - 1], embedImage, embedText);
      var before := ProcessItems(fs, ocrDir, st, items[..|items| - 1], embedImage, embedText);
      ItemStepBounded(fs, ocrDir, before, items[|items| - 1], embedImage, embedText);
      var after := ItemStep(fs, ocrDir, before, items[|items| - 1], embedImage, embedText);
      assert after.features.textChunks[..|st.features.textChunks|]
          == after.features.textChunks[..|before.features.textChunks|][..|st.features.textChunks|];
    }
  }

  /** One item keeps every slice within 50 and only appends to the text chunks. */
  lemma ItemStepBounded(fs: Fs<Doc>, ocrDir: Path, st: ItemState, item: Json,
                        embedImage: Path -> Option<Embedding>, embedText: string -> Option<Embedding>)
    requires SlicesBounded(st.features)
    ensures var r := ItemStep(fs, ocrDir, st, item, embedImage, embedText);
      SlicesBounded(r.features) && |st.features.textChunks| <= |r.features.textChunks| &&
      r.features.textChunks[..|st.features.textChunks|] == st.features.textChunks
  {
    var r := ItemStep(fs, ocrDir, st, item, embedImage, embedText);
    if !st.stopped && item.JObj? {
      if IsImageItem(item.fields) {
        assert r.features.textChunks == st.features.textChunks;
        ImageSlicesBounded(fs, ocrDir, st, item.fields, embedImage, embedText);
      } else {
        TextStepShape(fs, ocrDir, st, item.fields, embedImage, embedText);
      }
    }
  }

  /** The text branch leaves the images alone and appends at most one chunk,
      whose slice is the first 50 characters of the text. A string text
      shorter than 5 after stripping changes nothing; the chunk appended
      carries the item's type (`text` when absent) and its page (-1 when
      absent). */
  lemma TextStepShape(fs: Fs<Doc>, ocrDir: Path, st: ItemState, m: map<string, Json>,
                      embedImage: Path -> Option<Embedding>, embedText: string -> Option<Embedding>)
    requires SlicesBounded(st.features) && !st.stopped && !IsImageItem(m)
    ensures var r := ItemStep(fs, ocrDir, st, JObj(m), embedImage, embedText);
      r.features.images == st.features.images &&
      (r.features.textChunks == st.features.textChunks ||
       (|r.features.textChunks| == |st.features.textChunks| + 1 &&
        r.features.textChunks[..|st.features.textChunks|] == st.features.textChunks &&
        |r.features.textChunks[|st.features.textChunks|].textSlice| <= SliceLength)) &&
      SlicesBounded(r.features)
    ensures var r := ItemStep(fs, ocrDir, st, JObj(m), embedImage, embedText);
      var text := FirstTruthy(Get(m, "text", JNull), Get(m, "text_content", JNull));
      (text.JStr? && |Strip(text.s)| < MinTextLength ==> r == st) &&
      (|r.features.textChunks| == |st.features.textChunks| + 1 ==>
        text.JStr? && embedText(text.s).Some? &&
        r.features.textChunks[|st.features.textChunks|]
          == TextChunk(Get(m, "type", JStr("text")), Get(m, "page_idx", JInt(-1)), Take50(text.s), embedText(text.s).value))
  {
    var r := ItemStep(fs, ocrDir, st, JObj(m), embedImage, embedText);
    if r.features.textChunks != st.features.textChunks {
      assert r.features.textChunks[..|st.features.textChunks|] == st.features.textChunks;
    }
  }

  /** The image branch stores a slice of at most 50. It leaves the text
      chunks alone and either keeps the images or stores, under the path's
      basename, the item's type, its page (-1 when absent), the caption
      slice and the image embedding; a missing file changes nothing. */
  lemma ImageSlicesBounded(fs: Fs<Doc>, ocrDir: Path, st: ItemState, m: map<string, Json>,
                           embedImage: Path -> Option<Embedding>, embedText: string -> Option<Embedding>)
    requires SlicesBounded(st.features) && !st.stopped && IsImageItem(m)
    ensures SlicesBounded(ItemStep(fs, ocrDir, st, JObj(m), embedImage, embedText).features)
    ensures m["img_path"].JStr? && !fs.Exists(JoinPath(ocrDir, m["img_path"].s)) ==>
      ItemStep(fs, ocrDir, st, JObj(m), embedImage, embedText) == st
    ensures var r := ItemStep(fs, ocrDir, st, JObj(m), embedImage, embedText);
      var rel := m["img_path"];
      r.features.textChunks == st.features.textChunks &&
      (r.features.images == st.features.images ||
       (rel.JStr? && fs.Exists(JoinPath(ocrDir, rel.s)) && embedImage(JoinPath(ocrDir, rel.s)).Some? &&
        SliceValue(Get(m, "img_caption", JStr(""))).Some? &&
        r.features.images == st.features.images[Basename(rel.s) :=
          ImageFeature(Get(m, "type", JStr("")).s, Get(m, "page_idx", JInt(-1)),
                       SliceValue(Get(m, "img_caption", JStr(""))).value, embedImage(JoinPath(ocrDir, rel.s)).value)]))
  {
    var caption := Get(m, "img_caption", JStr(""));
    var slice := SliceValue(caption);
    assert slice.Some? && slice.value.JStr? ==> |slice.value.s| <= SliceLength;
    assert slice.Some? && slice.value.JArr? ==> |slice.value.items| <= SliceLength;
  }

  /** How one item is routed. An image or table item with an `img_path`
      never adds a text chunk, and adds the image under its path's basename
      when the file exists, the encoder succeeds and the caption can be
      sliced. Any other item never touches the images, and adds one chunk,
      holding the first 50 characters of its text, exactly when its text is
      a string of at least 5 non-blank characters that the encoder takes. */
  lemma ItemRouting(fs: Fs<Doc>, ocrDir: Path, st: ItemState, m: map<string, Json>,
                    embedImage: Path -> Option<Embedding>, embedText: string -> Option<Embedding>)
    requires !st.stopped
    ensures var r := ItemStep(fs, ocrDir, st, JObj(m), embedImage, embedText);
      (IsImageItem(m) ==> r.features.textChunks == st.features.textChunks) &&
      (IsImageItem(m) && m["img_path"].JStr? && fs.Exists(JoinPath(ocrDir, m["img_path"].s)) &&
       embedImage(JoinPath(ocrDir, m["img_path"].s)).Some? && SliceValue(Get(m, "img_caption", JStr(""))).Some? ==>
         Basename(m["img_path"].s) in r.features.images &&
         r.features.images[Basename(m["img_path"].s)].embedding == embedImage(JoinPath(ocrDir, m["img_path"].s)).value &&
         !r.stopped) &&
      (!IsImageItem(m) ==> r.features.images == st.features.images) &&
      (!IsImageItem(m) ==>
        var text := FirstTruthy(Get(m, "text", JNull), Get(m, "text_content", JNull));
        (|r.features.textChunks| == |st.features.textChunks| + 1 <==>
          text.JStr? && |Strip(text.s)| >= MinTextLength && embedText(text.s).Some?) &&
        (|r.features.textChunks| == |st.features.textChunks| + 1 ==>
          r.features.textChunks[|st.features.textChunks|].textSlice == Take50(text.s)))
  {
  }
}

=== FILE: common.dfy ===
/** Option and attempt types shared by every module of the model. */
module Wrappers {

  /** The outcome of a Python step that may raise: its value, or the fact
      that it raised an exception which the caller sees. */
  datatype Attempt<+T> = Ok(value: T) | Raised

  /** A value that may be absent: Python's `None`, a missing dictionary key,
      or a JavaScript `undefined`. */
  datatype Option<+T> = None | Some(value: T) {

    /** The value, or `default` when absent (Python's `d.get(k, default)`). */
    function GetOr(default: T): (r: T)
      ensures Some? ==> r == value
      ensures None? ==> r == default
    {
      match this
      case Some(v) => v
      case None => default
    }
  }
}

/** String operations used by the source, restricted to what the model needs.
    Strings are sequences of characters; only ASCII case mapping and ASCII
    whitespace are modelled. */
module Text {

  /** Python's `str.isspace` on the ASCII range. */
  predicate IsSpace(c: char) {
    c == ' ' || (9 <= c as int <= 13) || (28 <= c as int <= 31)
  }

  /** True when every character is whitespace, i.e. `s.strip()` is empty. */
  predicate IsBlank(s: string) {
    forall i :: 0 <= i < |s| ==> IsSpace(s[i])
  }

  /** Python's `s.lstrip()`. */
  function StripLeft(s: string): (r: string)
    ensures |r| <= |s| && r == s[|s| - |r|..]
    ensures r == [] || !IsSpace(r[0])
    ensures forall i :: 0 <= i < |s| - |r| ==> IsSpace(s[i])
  {
    if |s| > 0 && IsSpace(s[0]) then StripLeft(s[1..]) else s
  }

  /** Python's `s.rstrip()`. */
  function StripRight(s: string): (r: string)
    ensures |r| <= |s| && r == s[..|r|]
    ensures r == [] || !IsSpace(r[|r| - 1])
    ensures forall i :: |r| <= i < |s| ==> IsSpace(s[i])
  {
    if |s| > 0 && IsSpace(s[|s| - 1]) then StripRight(s[..|s| - 1]) else s
  }

  /** Python's `s.strip()`. */
  function Strip(s: string): string {
    StripRight(StripLeft(s))
  }

  /** `s.strip()` is empty exactly when `s` is blank. */
  lemma StripEmptyIffBlank(s: string)
    ensures Strip(s) == [] <==> IsBlank(s)
  {
    var l := StripLeft(s);
    if |l| > 0 {
      assert s[|s| - |l|] == l[0] && !IsSpace(l[0]);
    }
  }

  /** Python's `s.split(sep)` for a one-character separator. */
  function Split(s: string, sep: char): (r: seq<string>)
    ensures |r| >= 1
  {
    if |s| == 0 then [""]
    else if s[0] == sep then [""] + Split(s[1..], sep)
    else PrependToFirst(s[0], Split(s[1..], sep))
  }

  /** `parts` with `ch` put in front of its first piece. */
  function PrependToFirst(ch: char, parts: seq<string>): (r: seq<string>)
    requires |parts| >= 1
    ensures |r| == |parts|
  {
    [[ch] + parts[0]] + parts[1..]
  }

  lemma PrependToFirstConcat(ch: char, a: seq<string>, b: seq<string>)
    requires |a| >= 1
    ensures PrependToFirst(ch, a + b) == PrependToFirst(ch, a) + b
  {
    assert (a + b)[0] == a[0];
    assert (a + b)[1..] == a[1..] + b;
  }

  /** Python's `sep.join(parts)`. */
  function Join(parts: seq<string>, sep: string): string {
    if |parts| == 0 then ""
    else if |parts| == 1 then parts[0]
    else parts[0] + sep + Join(parts[1..], sep)
  }

  lemma JoinPrependToFirst(ch: char, parts: seq<string>, sep: string)
    requires |parts| >= 1
    ensures Join(PrependToFirst(ch, parts), sep) == [ch] + Join(parts, sep)
  {
    var r := PrependToFirst(ch, parts);
    assert r[1..] == parts[1..];
  }

  /** Joining the pieces of a split with the separator gives back the string. */
  lemma {:induction false} JoinSplit(s: string, sep: char)
    ensures Join(Split(s, sep), [sep]) == s
  {
    if |s| > 0 {
      JoinSplit(s[1..], sep);
      assert s == [s[0]] + s[1..];
      if s[0] != sep {
        JoinPrependToFirst(s[0], Split(s[1..], sep), [sep]);
      }
    }
  }

  /** Splitting at one separator splits the two sides independently. */
  lemma {:induction false} SplitConcat(a: string, b: string, c: char)
    ensures Split(a + [c] + b, c) == Split(a, c) + Split(b, c)
    decreases |a|
  {
    var s := a + [c] + b;
    if |a| == 0 {
      assert s == [c] + b;
      assert s[1..] == b;
    } else {
      SplitConcat(a[1..], b, c);
      SplitConcatStep(a, b, c);
    }
  }

  /** The inductive step of `SplitConcat`: the first character of `a` is
      handled the same way on both sides. */
  lemma SplitConcatStep(a: string, b: string, c: char)
    requires |a| > 0 && Split(a[1..] + [c] + b, c) == Split(a[1..], c) + Split(b, c)
    ensures Split(a + [c] + b, c) == Split(a, c) + Split(b, c)
  {
    var s := a + [c] + b;
    assert s[0] == a[0] && s[1..] == a[1..] + [c] + b;
    if a[0] == c {
      SplitAfterSeparator(a, b, c);
    } else {
      SplitAfterOther(a, b, c);
    }
  }

  lemma SplitAfterSeparator(a: string, b: string, c: char)
    requires |a| > 0 && a[0] == c
    requires Split(a + [c] + b, c) == [""] + Split(a[1..] + [c] + b, c)
    requires Split(a[1..] + [c] + b, c) == Split(a[1..], c) + Split(b, c)
    ensures Split(a + [c] + b, c) == Split(a, c) + Split(b, c)
  {
    assert Split(a, c) == [""] + Split(a[1..], c);
    AppendAssoc([""], Split(a[1..], c), Split(b, c));
  }

  lemma AppendAssoc<T>(x: seq<T>, y: seq<T>, z: seq<T>)
    ensures x + (y + z) == (x + y) + z
  {
  }

  lemma SplitAfterOther(a: string, b: string, c: char)
    requires |a| > 0 && a[0] != c
    requires Split(a + [c] + b, c) == PrependToFirst(a[0], Split(a[1..] + [c] + b, c))
    requires Split(a[1..] + [c] + b, c) == Split(a[1..], c) + Split(b, c)
    ensures Split(a + [c] + b, c) == Split(a, c) + Split(b, c)
  {
    assert Split(a, c) == PrependToFirst(a[0], Split(a[1..], c));
    PrependToFirstConcat(a[0], Split(a[1..], c), Split(b, c));
  }

  /** A string without the separator is one piece. */
  lemma {:induction false} SplitWithoutSeparator(s: string, c: char)
    requires c !in s
    ensures Split(s, c) == [s]
    decreases |s|
  {
    if |s| > 0 {
      SplitWithoutSeparator(s[1..], c);
      assert s == [s[0]] + s[1..];
    }
  }

  /** Splitting the join of separator-free pieces gives the pieces back. */
  lemma {:induction false} SplitJoin(parts: seq<string>, c: char)
    requires |parts| >= 1 && forall k :: 0 <= k < |parts| ==> c !in parts[k]
    ensures Split(Join(parts, [c]), c) == parts
    decreases |parts|
  {
    SplitWithoutSeparator(parts[0], c);
    if |parts| > 1 {
      SplitJoin(parts[1..], c);
      SplitConcat(parts[0], Join(parts[1..], [c]), c);
      assert parts == [parts[0]] + parts[1..];
    }
  }

  /** `needle` is a prefix of `hay`. */
  predicate IsPrefix(needle: string, hay: string) {
    |needle| <= |hay| && hay[..|needle|] == needle
  }

  /** Python's `needle in hay` on strings. */
  predicate Contains(hay: string, needle: string)
    decreases |hay|
  {
    IsPrefix(needle, hay) || (|hay| > 0 && Contains(hay[1..], needle))
  }

  /** `needle` occurs in `hay` at offset `i`. */
  predicate OccursAt(hay: string, needle: string, i: int) {
    0 <= i && i + |needle| <= |hay| && hay[i..i + |needle|] == needle
  }

  /** `Contains` holds exactly when `needle` occurs at some offset of `hay`. */
  lemma {:induction false} ContainsAt(hay: string, needle: string)
    ensures Contains(hay, needle) <==> exists i :: OccursAt(hay, needle, i)
  {
    if IsPrefix(needle, hay) {
      assert OccursAt(hay, needle, 0);
    } else if |hay| > 0 {
      ContainsAt(hay[1..], needle);
      if Contains(hay[1..], needle) {
        var i :| OccursAt(hay[1..], needle, i);
        assert hay[i + 1..i + 1 + |needle|] == hay[1..][i..i + |needle|];
        assert OccursAt(hay, needle, i + 1);
      } else {
        forall i | OccursAt(hay, needle, i) ensures false {
          if i == 0 {
            assert false;
          }
          OccursShift(hay, needle, i);
        }
      }
    }
  }

  /** An occurrence past the first character is an occurrence in the tail. */
  lemma OccursShift(hay: string, needle: string, i: int)
    requires i >= 1 && OccursAt(hay, needle, i)
    ensures OccursAt(hay[1..], needle, i - 1)
  {
    var t := hay[1..];
    forall k | 0 <= k < |needle|
      ensures t[i - 1..i - 1 + |needle|][k] == needle[k]
    {
      assert t[i - 1 + k] == hay[i + k];
      assert hay[i..i + |needle|][k] == hay[i + k];
    }
  }

  /** Every string contains the empty string. */
  lemma ContainsEmpty(hay: string)
    ensures Contains(hay, "")
  {
    assert IsPrefix("", hay);
  }

  /** `s.endswith(suffix)`. */
  predicate EndsWith(s: string, suffix: string) {
    |suffix| <= |s| && s[|s| - |suffix|..] == suffix
  }

  function LowerChar(c: char): char {
    if 'A' <= c <= 'Z' then (c as int + 32) as char else c
  }

  function UpperChar(c: char): char {
    if 'a' <= c <= 'z' then (c as int - 32) as char else c
  }

  /** `s.lower()` / `s.toLowerCase()` on ASCII letters. */
  function Lower(s: string): (r: string)
    ensures |r| == |s| && forall i :: 0 <= i < |s| ==> r[i] == LowerChar(s[i])
  {
    seq(|s|, i requires 0 <= i < |s| => LowerChar(s[i]))
  }

  /** `s.upper()` / `s.toUpperCase()` on ASCII letters. */
  function Upper(s: string): (r: string)
    ensures |r| == |s| && forall i :: 0 <= i < |s| ==> r[i] == UpperChar(s[i])
  {
    seq(|s|, i requires 0 <= i < |s| => UpperChar(s[i]))
  }

  function DigitChar(d: nat): char
    requires d < 10
  {
    ('0' as int + d) as char
  }

  predicate IsDigit(c: char) {
    '0' <= c <= '9'
  }

  /** Decimal rendering of a natural number, without leading zeros. */
  function NatToString(n: nat): (r: string)
    ensures |r| >= 1 && forall i :: 0 <= i < |r| ==> IsDigit(r[i])
    ensures n < 10 <==> |r| == 1
  {
    if n < 10 then [DigitChar(n)] else NatToString(n / 10) + [DigitChar(n % 10)]
  }

  /** Value of a string of decimal digits. */
  function DigitsValue(s: string): nat
    requires forall i :: 0 <= i < |s| ==> IsDigit(s[i])
  {
    if |s| == 0 then 0
    else
      assert IsDigit(s[|s| - 1]);
      10 * DigitsValue(s[..|s| - 1]) + (s[|s| - 1] as int - '0' as int)
  }

  /** Reading back the decimal rendering gives the number. */
  lemma {:induction false} NatToStringValue(n: nat)
    ensures DigitsValue(NatToString(n)) == n
  {
    if n >= 10 {
      NatToStringValue(n / 10);
      var r := NatToString(n);
      assert r[..|r| - 1] == NatToString(n / 10);
    }
  }

  /** Decimal rendering of an integer, as JavaScript's `toString` and
      Python's `str` write integers. */
  function IntToString(n: int): string {
    if n < 0 then "-" + NatToString(-n) else NatToString(n)
  }

  /** JavaScript's `s.padStart(2, '0')`. */
  function PadStart2(s: string): (r: string)
    ensures |r| == if |s| >= 2 then |s| else 2
    ensures EndsWith(r, s)
  {
    if |s| >= 2 then s else if |s| == 1 then "0" + s else "00"
  }

  /** Python's `os.path.basename`: the part after the last '/'. */
  function Basename(p: string): (r: string)
    ensures '/' !in r && EndsWith(p, r)
    ensures |r| == |p| || (|r| < |p| && p[|p| - |r| - 1] == '/')
  {
    if |p| == 0 then p
    else if p[|p| - 1] == '/' then ""
    else
      var b := Basename(p[..|p| - 1]);
      EndsWithSnoc(p, b);
      b + [p[|p| - 1]]
  }

  /** A suffix of all but the last character, extended by that character,
      is a suffix. */
  lemma EndsWithSnoc(p: string, b: string)
    requires |p| > 0 && EndsWith(p[..|p| - 1], b)
    ensures EndsWith(p, b + [p[|p| - 1]])
  {
    var q := p[..|p| - 1];
    assert p[|p| - (|b| + 1)..] == q[|q| - |b|..] + [p[|p| - 1]];
  }

  /** Python's `os.path.join(base, rel)` (and pathlib's `/`) for two components. */
  function PathJoin(base: string, rel: string): (r: string)
    ensures EndsWith(r, rel)
    ensures |rel| > 0 && rel[0] == '/' ==> r == rel
  {
    if |rel| > 0 && rel[0] == '/' then rel
    else if base == "" || base[|base| - 1] == '/' then base + rel
    else base + "/" + rel
  }
}

=== FILE: data_wrapper.dfy ===
/** `DataManager` of data_layer/data_wrapper.py: the batch ingestion
    pipeline runs a fixed sequence of worker scripts and aborts at the first
    one that exits with a nonzero code. The child process is abstracted as a
    function from the command line to its exit code. */
module DataWrapper {
  import opened Text

  /** One pipeline step: its display name, script and extra arguments. */
  datatype Step = Step(name: string, script: string, args: seq<string>)

  /** The dictionary `run_ingestion_pipeline` returns. */
  datatype Outcome = Success | Aborted(message: string)

  const PdfStep := Step("PDF Vectorization", "data_layer/clip_worker_pdf.py", [])
  const VideoStep := Step("Video Vectorization", "data_layer/clip_worker_video.py", [])

  /** The database step, with `--force_reset` iff a reset is asked for. */
  function DbStep(forceReset: bool): (s: Step)
    ensures s.script == "data_layer/milvus_ingestor.py"
    ensures s.args == if forceReset then ["--force_reset"] else []
  {
    Step("Database Ingestion", "data_layer/milvus_ingestor.py", if forceReset then ["--force_reset"] else [])
  }

  /** The steps run for a target type, in order. */
  function PlannedSteps(targetType: string, forceReset: bool): seq<Step> {
    (if targetType == "pdf" || targetType == "all" then [PdfStep] else [])
    + (if targetType == "video" || targetType == "all" then [VideoStep] else [])
    + [DbStep(forceReset)]
  }

  /** `[python, str(root / script)]` followed by the step's arguments. */
  function Command(pythonExe: string, root: string, s: Step): (cmd: seq<string>)
    ensures |cmd| == 2 + |s.args| && cmd[0] == pythonExe && cmd[2..] == s.args
  {
    [pythonExe, PathJoin(root, s.script)] + s.args
  }

  /** What a run of the pipeline returns, with the commands it launched. */
  datatype Run = Run(outcome: Outcome, launched: seq<seq<string>>)

  /** The message of the abort caused by step `s`. */
  function FailureMessage(s: Step): string {
    "Step failed: " + s.name
  }

  /** Runs `steps` in order until one exits nonzero. */
  function RunSteps(pythonExe: string, root: string, steps: seq<Step>, exitCode: seq<string> -> int): (r: Run)
    ensures |r.launched| <= |steps|
    decreases |steps|
  {
    if |steps| == 0 then Run(Success, [])
    else
      var cmd := Command(pythonExe, root, steps[0]);
      if exitCode(cmd) != 0 then Run(Aborted(FailureMessage(steps[0])), [cmd])
      else
        var rest := RunSteps(pythonExe, root, steps[1..], exitCode);
        Run(rest.outcome, [cmd] + rest.launched)
  }

  /** The launched commands are those of the first planned steps, in order. */
  lemma {:induction false} RunStepsLaunchesPrefix(pythonExe: string, root: string, steps: seq<Step>, exitCode: seq<string> -> int)
    ensures var r := RunSteps(pythonExe, root, steps, exitCode);
      forall k :: 0 <= k < |r.launched| ==> r.launched[k] == Command(pythonExe, root, steps[k])
    decreases |steps|
  {
    if |steps| > 0 && exitCode(Command(pythonExe, root, steps[0])) == 0 {
      RunStepsLaunchesPrefix(pythonExe, root, steps[1..], exitCode);
    }
  }

  /** The pipeline succeeds iff every step exits 0, and then it has launched
      every step. */
  lemma {:induction false} RunStepsSuccess(pythonExe: string, root: string, steps: seq<Step>, exitCode: seq<string> -> int)
    ensures var r := RunSteps(pythonExe, root, steps, exitCode);
      (r.outcome.Success? <==> forall k :: 0 <= k < |steps| ==> exitCode(Command(pythonExe, root, steps[k])) == 0) &&
      (r.outcome.Success? ==> |r.launched| == |steps|)
    decreases |steps|
  {
    if |steps| > 0 && exitCode(Command(pythonExe, root, steps[0])) == 0 {
      RunStepsSuccess(pythonExe, root, steps[1..], exitCode);
      assert forall k :: 0 < k < |steps| ==> steps[k] == steps[1..][k - 1];
    }
  }

  /** An abort comes from the last launched step, which exited nonzero,
      after every earlier step exited 0. */
  lemma RunStepsAbort(pythonExe: string, root: string, steps: seq<Step>, exitCode: seq<string> -> int)
    ensures var r := RunSteps(pythonExe, root, steps, exitCode);
      r.outcome.Aborted? ==>
        |r.launched| >= 1 &&
        exitCode(r.launched[|r.launched| - 1]) != 0 &&
        r.outcome.message == FailureMessage(steps[|r.launched| - 1]) &&
        forall k :: 0 <= k < |r.launched| - 1 ==> exitCode(r.launched[k]) == 0
  {
    var r := RunSteps(pythonExe, root, steps, exitCode);
    if r.outcome.Aborted? {
      AbortedAtLastStep(pythonExe, root, steps, exitCode);
      RunStepsLaunchesPrefix(pythonExe, root, steps, exitCode);
      var n := |r.launched|;
      assert r.launched[n - 1] == Command(pythonExe, root, steps[n - 1]);
      forall k | 0 <= k < n - 1 ensures exitCode(r.launched[k]) == 0 {
        assert r.launched[k] == Command(pythonExe, root, steps[k]);
      }
    }
  }

  /** The abort, stated on the planned steps: step `n - 1` exited nonzero
      after steps `0 .. n - 2` exited 0, where `n` commands were launched. */
  lemma {:induction false} AbortedAtLastStep(pythonExe: string, root: string, steps: seq<Step>, exitCode: seq<string> -> int)
    ensures var r := RunSteps(pythonExe, root, steps, exitCode);
      r.outcome.Aborted? ==>
        1 <= |r.launched| <= |steps| &&
        exitCode(Command(pythonExe, root, steps[|r.launched| - 1])) != 0 &&
        r.outcome.message == FailureMessage(steps[|r.launched| - 1]) &&
        forall k :: 0 <= k < |r.launched| - 1 ==> exitCode(Command(pythonExe, root, steps[k])) == 0
    decreases |steps|
  {
    if |steps| > 0 && exitCode(Command(pythonExe, root, steps[0])) == 0 {
      var tail := steps[1..];
      var rest := RunSteps(pythonExe, root, tail, exitCode);
      var r := RunSteps(pythonExe, root, steps, exitCode);
      assert r == Run(rest.outcome, [Command(pythonExe, root, steps[0])] + rest.launched);
      if r.outcome.Aborted? {
        AbortedAtLastStep(pythonExe, root, tail, exitCode);
        var n := |rest.launched|;
        assert |r.launched| == n + 1;
        assert steps[n] == tail[n - 1];
        forall k | 0 <= k < n ensures exitCode(Command(pythonExe, root, steps[k])) == 0 {
          if k > 0 {
            assert steps[k] == tail[k - 1];
          }
        }
      }
    }
  }

  /** `_execute_step`: builds the command, launches it and reports whether
      it failed. */
  method ExecuteStep(pythonExe: string, root: string, s: Step, exitCode: seq<string> -> int)
    returns (cmd: seq<string>, failed: bool)
    ensures cmd == Command(pythonExe, root, s)
    ensures failed <==> exitCode(cmd) != 0
  {
    cmd := [pythonExe, PathJoin(root, s.script)];
    if |s.args| > 0 {
      cmd := cmd + s.args;
    }
    failed := exitCode(cmd) != 0;
  }

  /** `run_ingestion_pipeline`: the outcome and the launched commands are
      those of running the planned steps in order. */
  method RunIngestionPipeline(pythonExe: string, root: string, targetType: string, forceReset: bool,
                              exitCode: seq<string> -> int)
    returns (outcome: Outcome, launched: seq<seq<string>>)
    ensures Run(outcome, launched) == RunSteps(pythonExe, root, PlannedSteps(targetType, forceReset), exitCode)
  {
    launched := [];
    var cmd, failed;
    ghost var plan := PlannedSteps(targetType, forceReset);
    ghost var rest := plan;
    if targetType == "pdf" || targetType == "all" {
      cmd, failed := ExecuteStep(pythonExe, root, PdfStep, exitCode);
      assert rest[0] == PdfStep;
      StepDone(pythonExe, root, plan, rest, launched, exitCode);
      launched := launched + [cmd];
      if failed {
        return Aborted(FailureMessage(PdfStep)), launched;
      }
      rest := rest[1..];
    }
    if targetType == "video" || targetType == "all" {
      cmd, failed := ExecuteStep(pythonExe, root, VideoStep, exitCode);
      assert rest[0] == VideoStep;
      StepDone(pythonExe, root, plan, rest, launched, exitCode);
      launched := launched + [cmd];
      if failed {
        return Aborted(FailureMessage(VideoStep)), launched;
      }
      rest := rest[1..];
    }
    var ingestArgs := if forceReset then ["--force_reset"] else [];
    var dbStep := Step("Database Ingestion", "data_layer/milvus_ingestor.py", ingestArgs);
    cmd, failed := ExecuteStep(pythonExe, root, dbStep, exitCode);
    assert rest == [dbStep];
    StepDone(pythonExe, root, plan, rest, launched, exitCode);
    launched := launched + [cmd];
    if failed {
      return Aborted(FailureMessage(dbStep)), launched;
    }
    assert rest[1..] == [];
    return Success, launched;
  }

  /** Running `plan` has launched `launched` and will go on as running `rest`. */
  ghost predicate Pending(pythonExe: string, root: string, plan: seq<Step>, rest: seq<Step>,
                          launched: seq<seq<string>>, exitCode: seq<string> -> int) {
    var r := RunSteps(pythonExe, root, rest, exitCode);
    RunSteps(pythonExe, root, plan, exitCode) == Run(r.outcome, launched + r.launched)
  }

  /** Launching the next pending step either aborts the run there or leaves
      the remaining steps pending. */
  lemma StepDone(pythonExe: string, root: string, plan: seq<Step>, rest: seq<Step>,
                 launched: seq<seq<string>>, exitCode: seq<string> -> int)
    requires |rest| > 0 && Pending(pythonExe, root, plan, rest, launched, exitCode)
    ensures var cmd := Command(pythonExe, root, rest[0]);
      if exitCode(cmd) != 0
      then RunSteps(pythonExe, root, plan, exitCode) == Run(Aborted(FailureMessage(rest[0])), launched + [cmd])
      else Pending(pythonExe, root, plan, rest[1..], launched + [cmd], exitCode)
  {
    var cmd := Command(pythonExe, root, rest[0]);
    if exitCode(cmd) == 0 {
      var r := RunSteps(pythonExe, root, rest[1..], exitCode);
      assert launched + ([cmd] + r.launched) == (launched + [cmd]) + r.launched;
    }
  }

  /** The vectorisation steps run iff the target asks for them, the database
      step always runs last, and PDF comes before video. */
  lemma {:induction false} PlanShape(targetType: string, forceReset: bool)
    ensures var p := PlannedSteps(targetType, forceReset);
      (PdfStep in p <==> targetType == "pdf" || targetType == "all") &&
      (VideoStep in p <==> targetType == "video" || targetType == "all") &&
      p[|p| - 1] == DbStep(forceReset) &&
      (forall k :: 0 <= k < |p| - 1 ==> p[k] != DbStep(forceReset) && p[k].args == []) &&
      (targetType == "all" ==> p == [PdfStep, VideoStep, DbStep(forceReset)])
  {
    var p := PlannedSteps(targetType, forceReset);
    assert DbStep(forceReset).name != PdfStep.name && DbStep(forceReset).name != VideoStep.name;
    assert PdfStep != VideoStep by { assert PdfStep.name[0] != VideoStep.name[0]; }
    if targetType == "pdf" || targetType == "all" {
      assert p[0] == PdfStep;
    }
  }

  /** With every step exiting 0 the pipeline succeeds, having launched every
      planned step. */
  lemma AllCleanSucceeds(pythonExe: string, root: string, targetType: string, forceReset: bool, exitCode: seq<string> -> int)
    requires forall cmd :: exitCode(cmd) == 0
    ensures var r := RunSteps(pythonExe, root, PlannedSteps(targetType, forceReset), exitCode);
      r.outcome == Success && |r.launched| == |PlannedSteps(targetType, forceReset)|
  {
    RunStepsSuccess(pythonExe, root, PlannedSteps(targetType, forceReset), exitCode);
  }

  /** A failing PDF step stops the pipeline before the video and database steps. */
  lemma PdfFailureStopsEverything(pythonExe: string, root: string, forceReset: bool, exitCode: seq<string> -> int)
    requires exitCode(Command(pythonExe, root, PdfStep)) != 0
    ensures RunSteps(pythonExe, root, PlannedSteps("all", forceReset), exitCode)
         == Run(Aborted("Step failed: PDF Vectorization"), [Command(pythonExe, root, PdfStep)])
  {
    var p := PlannedSteps("all", forceReset);
    assert p[0] == PdfStep;
    assert FailureMessage(PdfStep) == "Step failed: PDF Vectorization";
  }
}

=== FILE: evidence_card.dfy ===
/** The evidence card of the chat panel
    (web/frontend/components/EvidenceCard.tsx): the anchor a piece of
    evidence jumps to and the way it is shown. */
module EvidenceCard {
  import opened Wrappers
  import opened Text
  import opened AssetTypes
  import Page

  predicate IsVideo(m: EvidenceMetadata) {
    m.modality == "video"
  }

  /** JavaScript truthiness of an optional number (`NaN` is not modelled). */
  predicate NumTruthy(v: Option<real>) {
    v.Some? && v.value != 0.0
  }

  /** The jump anchor: `timestamp || 0` for a video, `page_label || 1`
      otherwise, so a PDF anchor is never the page 0. */
  function Anchor(m: EvidenceMetadata): (r: real)
    ensures IsVideo(m) && NumTruthy(m.timestamp) ==> r == m.timestamp.value
    ensures IsVideo(m) && !NumTruthy(m.timestamp) ==> r == 0.0
    ensures !IsVideo(m) && NumTruthy(m.pageLabel) ==> r == m.pageLabel.value
    ensures !IsVideo(m) && !NumTruthy(m.pageLabel) ==> r == 1.0
    ensures !IsVideo(m) ==> r != 0.0
  {
    if IsVideo(m) then (if NumTruthy(m.timestamp) then m.timestamp.value else 0.0)
    else if NumTruthy(m.pageLabel) then m.pageLabel.value else 1.0
  }

  /** `formatDisplayAnchor(anchor)`: the page's anchor format, chosen by
      the evidence's modality. */
  function DisplayAnchor(m: EvidenceMetadata): (r: string)
    ensures IsVideo(m) ==> |r| >= 4 && ':' in r
    ensures !IsVideo(m) ==> |r| >= 3 && r[..2] == "P."
  {
    Page.FormatAnchor(Anchor(m), if IsVideo(m) then "video" else "pdf")
  }

  /** A video evidence without a timestamp shows `0:00`; a PDF evidence
      without a page shows `P.1`. */
  lemma DisplayDefaults(m: EvidenceMetadata)
    ensures IsVideo(m) && !NumTruthy(m.timestamp) ==> DisplayAnchor(m) == "0:00"
    ensures !IsVideo(m) && !NumTruthy(m.pageLabel) ==> DisplayAnchor(m) == "P.1"
  {
    assert (0.0).Floor == 0 && (1.0).Floor == 1;
    assert Page.JsRem(0, 60) == 0;
    assert NatToString(0) == "0" && NatToString(1) == "1";
  }

  /** A video evidence with a non-negative timestamp shows `m:ss`, whose
      minutes and seconds give back its whole seconds. */
  lemma {:induction false} DisplayVideoRoundTrip(m: EvidenceMetadata)
    requires IsVideo(m) && (m.timestamp.Some? ==> m.timestamp.value >= 0.0)
    ensures Page.IsClock(DisplayAnchor(m)) && Page.ClockSeconds(DisplayAnchor(m)) == Anchor(m).Floor
  {
    Page.VideoAnchorRoundTrip(Anchor(m));
  }

  /** The arguments a click passes to `onJump`. */
  datatype JumpArgs = JumpArgs(assetName: string, anchor: real, bbox: Option<string>)

  /** The card's click: the asset name, the anchor and the box, unchanged. */
  function Click(e: Evidence): (r: JumpArgs)
    ensures r.assetName == e.metadata.assetName && r.bbox == e.metadata.bbox
    ensures r.anchor == Anchor(e.metadata)
    ensures !IsVideo(e.metadata) ==> r.anchor != 0.0
  {
    JumpArgs(e.metadata.assetName, Anchor(e.metadata), e.metadata.bbox)
  }
}

=== FILE: ingestion_stream.dfy ===
/** Targeted ingestion of core/ingestion_stream.py: pick the asset id, take
    the gate, run the preparation workers for the asset type, index, and
    release the gate on every path after a successful acquire. The workers'
    replies are inputs. */
module IngestionStream {
  import opened Wrappers
  import opened SystemState

  /** A reply dictionary of a worker, reduced to its string-valued fields. */
  type Reply = map<string, string>

  /** The parameter dictionary of a request, reduced to its string-valued fields. */
  type Params = map<string, string>

  /** `d.get(key)` is truthy: present and not the empty string. */
  predicate Truthy(d: Params, key: string) {
    key in d && d[key] != ""
  }

  /** `reply.get("status") == "error"`. */
  predicate IsError(r: Reply) {
    "status" in r && r["status"] == "error"
  }

  /** `params.get("asset_id") or params.get("video_id") or params.get("pdf_id")`. */
  function AssetId(params: Params): (r: Option<string>)
    ensures r.None? <==> !Truthy(params, "asset_id") && !Truthy(params, "video_id") && !Truthy(params, "pdf_id")
    ensures r.Some? ==> r.value != ""
    ensures Truthy(params, "asset_id") ==> r == Some(params["asset_id"])
    ensures !Truthy(params, "asset_id") && Truthy(params, "video_id") ==> r == Some(params["video_id"])
    ensures !Truthy(params, "asset_id") && !Truthy(params, "video_id") && Truthy(params, "pdf_id") ==>
      r == Some(params["pdf_id"])
  {
    if Truthy(params, "asset_id") then Some(params["asset_id"])
    else if Truthy(params, "video_id") then Some(params["video_id"])
    else if Truthy(params, "pdf_id") then Some(params["pdf_id"])
    else None
  }

  /** The worker calls the pipeline makes, with their arguments. */
  datatype ToolCall =
    | VideoSlicerCall(params: Params)
    | WhisperCall(whisperParams: map<string, Option<string>>)
    | PdfParserCall(params: Params)
    | DataManagerCall(target: string, assetId: string)

  /** A worker call returns a reply or raises. */
  datatype ToolOutcome = Returned(reply: Reply) | ToolRaised

  /** Why a run ended without the indexer's reply. */
  datatype Failure =
    | MissingAssetId
    | Busy
    | UnsupportedType(assetType: string)
    | SlicerError(details: Option<string>)
    | WhisperError(details: Option<string>)
    | ParserError(details: Option<string>)
    | WorkerRaised

  /** The pipeline's answer: the indexer's reply unchanged, or an error record. */
  datatype Answer = Indexed(reply: Reply) | Failed(failure: Failure)

  /** The whole run as a value: the answer and the calls made, in order. */
  datatype Run = Run(answer: Answer, calls: seq<ToolCall>)

  /** `{"audio_id": params.get("video_id")}`. */
  function WhisperParams(params: Params): map<string, Option<string>> {
    map["audio_id" := if "video_id" in params then Some(params["video_id"]) else None]
  }

  /** `_dispatch_video_workflow`: slicer, then whisper only if the slicer did
      not report an error. `None` means both steps passed. */
  function VideoWorkflow(params: Params, tools: ToolCall -> ToolOutcome): Run {
    var slicer := VideoSlicerCall(params);
    match tools(slicer)
    case ToolRaised => Run(Failed(WorkerRaised), [slicer])
    case Returned(r) =>
      if IsError(r) then Run(Failed(SlicerError(if "details" in r then Some(r["details"]) else None)), [slicer])
      else
        var whisper := WhisperCall(WhisperParams(params));
        match tools(whisper)
        case ToolRaised => Run(Failed(WorkerRaised), [slicer, whisper])
        case Returned(w) =>
          if IsError(w) then Run(Failed(WhisperError(if "details" in w then Some(w["details"]) else None)), [slicer, whisper])
          else Run(Indexed(map[]), [slicer, whisper])
  }

  /** `_dispatch_pdf_workflow`: the parser alone. */
  function PdfWorkflow(params: Params, tools: ToolCall -> ToolOutcome): Run {
    var parser := PdfParserCall(params);
    match tools(parser)
    case ToolRaised => Run(Failed(WorkerRaised), [parser])
    case Returned(r) =>
      if IsError(r) then Run(Failed(ParserError(if "details" in r then Some(r["details"]) else None)), [parser])
      else Run(Indexed(map[]), [parser])
  }

  /** The answer the indexing call gives: its reply unchanged, or a raise
      turned into an error record. */
  function IndexAnswer(o: ToolOutcome): (a: Answer)
    ensures a.Indexed? <==> o.Returned?
    ensures a.Indexed? ==> a.reply == o.reply
  {
    match o
    case ToolRaised => Failed(WorkerRaised)
    case Returned(r) => Indexed(r)
  }

  /** What happens between a successful acquire and the release: preparation
      for the type, then indexing if every preparation step passed. */
  function Guarded(assetType: string, params: Params, id: string, tools: ToolCall -> ToolOutcome): (r: Run)
    ensures assetType != "video" && assetType != "pdf" ==> r == Run(Failed(UnsupportedType(assetType)), [])
    ensures forall k :: 0 <= k < |r.calls| - 1 ==> tools(r.calls[k]).Returned? && !IsError(tools(r.calls[k]).reply)
    ensures r.answer.Indexed? ==>
      |r.calls| > 0 && r.calls[|r.calls| - 1] == DataManagerCall(assetType, id) &&
      tools(DataManagerCall(assetType, id)) == Returned(r.answer.reply)
  {
    var prep :=
      if assetType == "video" then VideoWorkflow(params, tools)
      else if assetType == "pdf" then PdfWorkflow(params, tools)
      else Run(Failed(UnsupportedType(assetType)), []);
    if prep.answer.Failed? then prep
    else
      var index := DataManagerCall(assetType, id);
      Run(IndexAnswer(tools(index)), prep.calls + [index])
  }

  /** `run_pipeline` as a value, given whether the gate was idle. */
  function Pipeline(assetType: string, params: Params, gateIdle: bool, tools: ToolCall -> ToolOutcome): (r: Run)
    ensures AssetId(params).None? || !gateIdle ==> r.answer.Failed? && r.calls == []
    ensures r.answer.Indexed? ==> AssetId(params).Some? && gateIdle && (assetType == "video" || assetType == "pdf")
  {
    match AssetId(params)
    case None => Run(Failed(MissingAssetId), [])
    case Some(id) => if !gateIdle then Run(Failed(Busy), []) else Guarded(assetType, params, id, tools)
  }

  /** The data manager is called only as the last call, after every
      preparation call returned a non-error reply, and its reply is returned
      unchanged. */
  lemma IndexingLast(assetType: string, params: Params, gateIdle: bool, tools: ToolCall -> ToolOutcome)
    ensures var r := Pipeline(assetType, params, gateIdle, tools);
      (forall k :: 0 <= k < |r.calls| && r.calls[k].DataManagerCall? ==>
        k == |r.calls| - 1 && r.calls[k] == DataManagerCall(assetType, AssetId(params).value)) &&
      (forall k :: 0 <= k < |r.calls| - 1 ==> tools(r.calls[k]).Returned? && !IsError(tools(r.calls[k]).reply)) &&
      (r.answer.Indexed? ==>
         |r.calls| > 0 && r.calls[|r.calls| - 1].DataManagerCall? &&
         tools(r.calls[|r.calls| - 1]) == Returned(r.answer.reply))
  {
  }

  /** Denied or missing-id runs call no worker; an unsupported type calls none and never indexes. */
  lemma NoWorkWithoutGate(assetType: string, params: Params, gateIdle: bool, tools: ToolCall -> ToolOutcome)
    ensures AssetId(params).None? ==> Pipeline(assetType, params, gateIdle, tools) == Run(Failed(MissingAssetId), [])
    ensures AssetId(params).Some? && !gateIdle ==> Pipeline(assetType, params, gateIdle, tools) == Run(Failed(Busy), [])
    ensures AssetId(params).Some? && gateIdle && assetType != "video" && assetType != "pdf" ==>
      Pipeline(assetType, params, gateIdle, tools) == Run(Failed(UnsupportedType(assetType)), [])
  {
  }

  /** For video the slicer runs first on the request's parameters; whisper
      runs second, only after a non-error slicer reply, with exactly
      `{audio_id: params.video_id}`. */
  lemma VideoOrder(params: Params, tools: ToolCall -> ToolOutcome)
    requires AssetId(params).Some?
    ensures var r := Pipeline("video", params, true, tools);
      |r.calls| >= 1 && r.calls[0] == VideoSlicerCall(params) &&
      (|r.calls| >= 2 <==> tools(VideoSlicerCall(params)).Returned? && !IsError(tools(VideoSlicerCall(params)).reply)) &&
      (|r.calls| >= 2 ==> r.calls[1] == WhisperCall(map["audio_id" := if "video_id" in params then Some(params["video_id"]) else None]))
  {
  }

  /** Preparation that passes leads to indexing: after a non-error parser
      reply (pdf), or non-error slicer and whisper replies (video), the data
      manager is called last with the type and the id, and the answer is its
      outcome. */
  lemma PreparedThenIndexed(params: Params, tools: ToolCall -> ToolOutcome)
    requires AssetId(params).Some?
    ensures var parser := tools(PdfParserCall(params));
      parser.Returned? && !IsError(parser.reply) ==>
        var r := Pipeline("pdf", params, true, tools);
        r.calls == [PdfParserCall(params), DataManagerCall("pdf", AssetId(params).value)] &&
        r.answer == IndexAnswer(tools(DataManagerCall("pdf", AssetId(params).value)))
    ensures var slicer := tools(VideoSlicerCall(params));
      var whisper := tools(WhisperCall(WhisperParams(params)));
      slicer.Returned? && !IsError(slicer.reply) && whisper.Returned? && !IsError(whisper.reply) ==>
        var r := Pipeline("video", params, true, tools);
        r.calls == [VideoSlicerCall(params), WhisperCall(WhisperParams(params)), DataManagerCall("video", AssetId(params).value)] &&
        r.answer == IndexAnswer(tools(DataManagerCall("video", AssetId(params).value)))
  {
  }

  /** A PDF parser error aborts before indexing. */
  lemma PdfParserErrorAborts(params: Params, tools: ToolCall -> ToolOutcome)
    requires AssetId(params).Some?
    requires tools(PdfParserCall(params)).Returned? && IsError(tools(PdfParserCall(params)).reply)
    ensures Pipeline("pdf", params, true, tools).calls == [PdfParserCall(params)]
    ensures Pipeline("pdf", params, true, tools).answer.Failed?
  {
  }

  /** `IngestionStream.run_pipeline` over the shared gate. The gate is
      released exactly once after a successful acquire, and left untouched
      when the id is missing or the acquire is denied. */
  method RunPipeline(gate: SystemStateManager, assetType: string, params: Params, tools: ToolCall -> ToolOutcome)
    returns (answer: Answer, calls: seq<ToolCall>)
    modifies gate
    ensures Run(answer, calls) == Pipeline(assetType, params, old(gate.status) == Idle, tools)
    ensures AssetId(params).Some? && old(gate.status) == Idle ==>
      gate.Snapshot() == Initial && gate.releases == old(gate.releases) + 1
    ensures AssetId(params).None? || old(gate.status) != Idle ==>
      gate.Snapshot() == old(gate.Snapshot()) && gate.releases == old(gate.releases)
  {
    var id := AssetId(params);
    if id.None? {
      return Failed(MissingAssetId), [];
    }
    var acquired := gate.AcquireIngestionLock(id.value);
    if !acquired {
      return Failed(Busy), [];
    }
    // try: the guarded section; finally: release
    var run := Guarded(assetType, params, id.value, tools);
    answer, calls := run.answer, run.calls;
    gate.ReleaseLock();
  }
}

=== FILE: json_messenger.dfy ===
/** `JsonMessenger` of data_layer/json_messenger.py: finds processed assets
    that still lack a summary outline, builds the text context the summariser
    reads, and writes the outline back. The file tree is a `Storage.Fs` whose
    files hold parsed JSON documents. */
module JsonMessenger {
  import opened Wrappers
  import opened Text
  import opened Storage
  import opened JsonValue

  /** One entry of the list `scan_increments` returns. */
  datatype PendingTask = PendingTask(assetId: string, assetType: string, context: string)

  const OutlineName := "summary_outline.json"

  /** The asset types, in scan order. */
  const ScanOrder: seq<string> := ["video", "pdf"]

  /** The folder holding an asset type's processed assets: `video` for
      video, `magic-pdf` for anything else. */
  function AssetDir(storageRoot: Path, assetType: string): (p: Path)
    ensures |p| == |storageRoot| + 1 && p[..|storageRoot|] == storageRoot
    ensures p[|storageRoot|] == "video" <==> assetType == "video"
  {
    storageRoot + [if assetType == "video" then "video" else "magic-pdf"]
  }

  /** `_locate_raw_file`: the transcript for video, the OCR content list otherwise. */
  function LocateRawFile(folder: Path, assetId: string, assetType: string): (p: Path)
    ensures |p| > |folder| && p[..|folder|] == folder
    ensures assetType == "video" ==> p == folder + ["transcript.json"]
    ensures assetType != "video" ==> p == folder + ["ocr", assetId + "_content_list.json"]
  {
    if assetType == "video" then folder + ["transcript.json"] else folder + ["ocr", assetId + "_content_list.json"]
  }

  /** `f"{v}"` for a JSON value; `repr` renders a list or dict. */
  function Str(v: Json, repr: Json -> string): string {
    match v
    case JNull => "None"
    case JBool(b) => if b then "True" else "False"
    case JInt(i) => IntToString(i)
    case JFloat(r) => r
    case JStr(s) => s
    case _ => repr(v)
  }

  /** The records a `for` loop over `v` yields. Every record must be a
      dict: iterating a non-empty dict or string yields strings and
      iterating a scalar fails, and the subscript or `.get` that follows
      raises on anything but a dict. */
  function Records(v: Json): (r: Attempt<seq<map<string, Json>>>)
    ensures r.Ok? && v.JArr? ==> |r.value| == |v.items| && forall k :: 0 <= k < |v.items| ==> v.items[k] == JObj(r.value[k])
    ensures r.Ok? && !v.JArr? ==> r.value == []
  {
    match v
    case JArr(items) =>
      if forall k :: 0 <= k < |items| ==> items[k].JObj?
      then Ok(seq(|items|, k requires 0 <= k < |items| => items[k].fields))
      else Raised
    case JObj(m) => if |m| == 0 then Ok([]) else Raised
    case JStr(s) => if |s| == 0 then Ok([]) else Raised
    case _ => Raised
  }

  /** `f"[{s['start']}s]: {s['text']}"`. */
  function SegmentLine(s: map<string, Json>, repr: Json -> string): string
    requires "start" in s && "text" in s
  {
    "[" + Str(s["start"], repr) + "s]: " + Str(s["text"], repr)
  }

  /** `f"[Page {i['page_idx']}]: {i['text']}"`. */
  function ItemLine(i: map<string, Json>, repr: Json -> string): string
    requires "page_idx" in i && "text" in i
  {
    "[Page " + Str(i["page_idx"], repr) + "]: " + Str(i["text"], repr)
  }

  predicate IsTextItem(i: map<string, Json>) {
    "type" in i && i["type"] == JStr("text")
  }

  /** One line per segment, in order; a segment without `start` or `text` raises. */
  function SegmentLines(segs: seq<map<string, Json>>, repr: Json -> string): (r: Attempt<seq<string>>)
    ensures r.Ok? <==> forall k :: 0 <= k < |segs| ==> "start" in segs[k] && "text" in segs[k]
    ensures r.Ok? ==> |r.value| == |segs| && forall k :: 0 <= k < |segs| ==> r.value[k] == SegmentLine(segs[k], repr)
  {
    if |segs| == 0 then Ok([])
    else if !("start" in segs[0] && "text" in segs[0]) then Raised
    else match SegmentLines(segs[1..], repr)
      case Raised => Raised
      case Ok(rest) => Ok([SegmentLine(segs[0], repr)] + rest)
  }

  /** One line per text item, in order; other items are passed over; a text
      item without `page_idx` or `text` raises. */
  function ItemLines(items: seq<map<string, Json>>, repr: Json -> string): (r: Attempt<seq<string>>)
    ensures r.Ok? <==> forall k :: 0 <= k < |items| && IsTextItem(items[k]) ==> "page_idx" in items[k] && "text" in items[k]
    ensures r.Ok? ==> |r.value| <= |items|
  {
    if |items| == 0 then Ok([])
    else if !IsTextItem(items[0]) then ItemLines(items[1..], repr)
    else if !("page_idx" in items[0] && "text" in items[0]) then Raised
    else match ItemLines(items[1..], repr)
      case Raised => Raised
      case Ok(rest) => Ok([ItemLine(items[0], repr)] + rest)
  }

  /** The text items of `items`, in order. */
  function TextItems(items: seq<map<string, Json>>): (r: seq<map<string, Json>>)
    ensures |r| <= |items| && forall k :: 0 <= k < |r| ==> IsTextItem(r[k]) && r[k] in items
  {
    if |items| == 0 then []
    else if IsTextItem(items[0]) then [items[0]] + TextItems(items[1..])
    else TextItems(items[1..])
  }

  /** The PDF lines are exactly one line per text item, in order. */
  lemma {:induction false} ItemLinesAreTextItems(items: seq<map<string, Json>>, repr: Json -> string)
    requires ItemLines(items, repr).Ok?
    ensures var lines := ItemLines(items, repr).value; var texts := TextItems(items);
      |lines| == |texts| && forall k :: 0 <= k < |texts| ==> "page_idx" in texts[k] && "text" in texts[k] && lines[k] == ItemLine(texts[k], repr)
  {
    if |items| > 0 {
      ItemLinesAreTextItems(items[1..], repr);
    }
  }

  /** `_build_context` on the parsed raw file. A transcript must be a dict
      and without `segments` gives the empty context; an empty content list
      gives the empty context, and a scalar cannot be iterated. */
  function BuildContext(data: Json, assetType: string, repr: Json -> string): (r: Attempt<string>)
    ensures assetType == "video" && !data.JObj? ==> r.Raised?
    ensures assetType == "video" && data.JObj? && "segments" !in data.fields ==> r == Ok("")
    ensures assetType != "video" && data == JArr([]) ==> r == Ok("")
    ensures assetType != "video" && !(data.JArr? || data.JObj? || data.JStr?) ==> r.Raised?
  {
    if assetType == "video" then
      if !data.JObj? then Raised
      else
        var segments := if "segments" in data.fields then data.fields["segments"] else JArr([]);
        match Records(segments)
        case Raised => Raised
        case Ok(segs) =>
          match SegmentLines(segs, repr)
          case Raised => Raised
          case Ok(lines) => Ok(Join(lines, "\n"))
    else
      match Records(data)
      case Raised => Raised
      case Ok(items) =>
        match ItemLines(items, repr)
        case Raised => Raised
        case Ok(lines) => Ok(Join(lines, "\n"))
  }

  /** A video transcript's context splits back into one line per segment,
      `[start s]: text`, when no rendered field holds a newline. */
  lemma VideoContextLines(segments: seq<Json>, other: map<string, Json>, repr: Json -> string)
    requires |segments| > 0
    requires forall k :: 0 <= k < |segments| ==> segments[k].JObj? && "start" in segments[k].fields && "text" in segments[k].fields
    requires forall k :: 0 <= k < |segments| ==> '\n' !in SegmentLine(segments[k].fields, repr)
    ensures var c := BuildContext(JObj(other["segments" := JArr(segments)]), "video", repr);
      c.Ok? && Split(c.value, '\n') == seq(|segments|, k requires 0 <= k < |segments| => SegmentLine(segments[k].fields, repr))
  {
    var segs := Records(JArr(segments)).value;
    var lines := SegmentLines(segs, repr).value;
    SplitJoin(lines, '\n');
  }

  /** A content list's context splits back into one line per text item,
      `[Page i]: text`, when no rendered field holds a newline. */
  lemma PdfContextLines(items: seq<Json>, repr: Json -> string)
    requires forall k :: 0 <= k < |items| ==> items[k].JObj?
    requires var texts := TextItems(Records(JArr(items)).value);
      |texts| > 0 && forall k :: 0 <= k < |texts| ==> "page_idx" in texts[k] && "text" in texts[k] && '\n' !in ItemLine(texts[k], repr)
    ensures var c := BuildContext(JArr(items), "pdf", repr); var texts := TextItems(Records(JArr(items)).value);
      c.Ok? && Split(c.value, '\n') == seq(|texts|, k requires 0 <= k < |texts| => ItemLine(texts[k], repr))
  {
    var recs := Records(JArr(items)).value;
    var texts := TextItems(recs);
    assert ItemLines(recs, repr).Ok? by {
      forall k | 0 <= k < |recs| && IsTextItem(recs[k]) ensures "page_idx" in recs[k] && "text" in recs[k] {
        TextItemsComplete(recs, k);
      }
    }
    var lines := ItemLines(recs, repr).value;
    ItemLinesAreTextItems(recs, repr);
    assert lines == seq(|texts|, k requires 0 <= k < |texts| => ItemLine(texts[k], repr));
    assert BuildContext(JArr(items), "pdf", repr) == Ok(Join(lines, "\n"));
    SplitJoin(lines, '\n');
  }

  /** Every text item is kept by `TextItems`. */
  lemma {:induction false} TextItemsComplete(items: seq<map<string, Json>>, k: int)
    requires 0 <= k < |items| && IsTextItem(items[k])
    ensures items[k] in TextItems(items)
  {
    if k > 0 {
      TextItemsComplete(items[1..], k - 1);
    }
  }

  /** The task one asset folder yields, if any. */
  function FolderTask(fs: Fs<Doc>, base: Path, name: string, assetType: string, repr: Json -> string): (r: Attempt<Option<PendingTask>>)
    ensures r.Ok? && r.value.Some? ==>
      var folder := base + [name]; var raw := LocateRawFile(folder, name, assetType);
      fs.IsDir(folder) && !fs.Exists(folder + [OutlineName]) && fs.IsFile(raw) && fs.files[raw].Some? &&
      BuildContext(fs.files[raw].value, assetType, repr) == Ok(r.value.value.context) &&
      r.value.value.context != "" && r.value.value.assetId == name && r.value.value.assetType == assetType
    ensures r.Raised? ==> fs.IsDir(base + [name]) && !fs.Exists(base + [name] + [OutlineName])
  {
    var folder := base + [name];
    if !fs.IsDir(folder) || fs.Exists(folder + [OutlineName]) then Ok(None)
    else
      var raw := LocateRawFile(folder, name, assetType);
      if !fs.Exists(raw) then Ok(None)
      else if !fs.IsFile(raw) || fs.files[raw].None? then Raised
      else match BuildContext(fs.files[raw].value, assetType, repr)
        case Raised => Raised
        case Ok(context) => if context == "" then Ok(None) else Ok(Some(PendingTask(name, assetType, context)))
  }

  /** The tasks of the folders `names` under `base`, in order; the first
      folder that raises ends the scan. */
  function ScanFolders(fs: Fs<Doc>, base: Path, assetType: string, names: seq<string>, repr: Json -> string): Attempt<seq<PendingTask>>
    decreases |names|
  {
    if |names| == 0 then Ok([])
    else match ScanFolders(fs, base, assetType, names[..|names| - 1], repr)
      case Raised => Raised
      case Ok(tasks) =>
        match FolderTask(fs, base, names[|names| - 1], assetType, repr)
        case Raised => Raised
        case Ok(t) => Ok(tasks + (if t.Some? then [t.value] else []))
  }

  /** The tasks of one asset type; a missing folder yields none. */
  function ScanType(fs: Fs<Doc>, storageRoot: Path, assetType: string, repr: Json -> string): Attempt<seq<PendingTask>> {
    var base := AssetDir(storageRoot, assetType);
    if !fs.Exists(base) then Ok([])
    else if !fs.IsDir(base) then Raised
    else ScanFolders(fs, base, assetType, fs.Entries(base), repr)
  }

  /** The tasks of the asset types `types`, in order. */
  function ScanTypes(fs: Fs<Doc>, storageRoot: Path, types: seq<string>, repr: Json -> string): Attempt<seq<PendingTask>>
    decreases |types|
  {
    if |types| == 0 then Ok([])
    else match ScanTypes(fs, storageRoot, types[..|types| - 1], repr)
      case Raised => Raised
      case Ok(tasks) =>
        match ScanType(fs, storageRoot, types[|types| - 1], repr)
        case Raised => Raised
        case Ok(more) => Ok(tasks + more)
  }

  /** A raise in a prefix of the folders is a raise of the whole scan. */
  lemma {:induction false} ScanFoldersRaisedSticks(fs: Fs<Doc>, base: Path, assetType: string, names: seq<string>, i: nat, repr: Json -> string)
    requires i <= |names| && ScanFolders(fs, base, assetType, names[..i], repr).Raised?
    ensures ScanFolders(fs, base, assetType, names, repr).Raised?
    decreases |names| - i
  {
    if i < |names| {
      assert names[..|names| - 1][..i] == names[..i];
      ScanFoldersRaisedSticks(fs, base, assetType, names[..|names| - 1], i, repr);
    } else {
      assert names[..i] == names;
    }
  }

  /** `scan_increments`: the video assets, then the PDF assets, each folder
      giving a task when it has no outline, its raw file exists and the
      context built from it is non-empty. */
  method ScanIncrements(fs: Fs<Doc>, storageRoot: Path, repr: Json -> string) returns (r: Attempt<seq<PendingTask>>)
    ensures r == ScanTypes(fs, storageRoot, ScanOrder, repr)
  {
    var pending: seq<PendingTask> := [];
    var scanMap := [("video", storageRoot + ["video"]), ("pdf", storageRoot + ["magic-pdf"])];
    for t := 0 to 2
      invariant ScanTypes(fs, storageRoot, ScanOrder[..t], repr) == Ok(pending)
    {
      var (assetType, basePath) := scanMap[t];
      assert ScanOrder[..t + 1][..t] == ScanOrder[..t] && ScanOrder[t] == assetType;
      assert basePath == AssetDir(storageRoot, assetType);
      if !fs.Exists(basePath) {
        assert pending + [] == pending;
        continue;
      }
      if !fs.IsDir(basePath) {
        ScanTypesRaisedSticks(fs, storageRoot, t + 1, repr);
        return Raised;
      }
      var found := ScanAssetFolders(fs, basePath, assetType, fs.Entries(basePath), repr);
      if found.Raised? {
        ScanTypesRaisedSticks(fs, storageRoot, t + 1, repr);
        return Raised;
      }
      pending := pending + found.value;
    }
    assert ScanOrder[..2] == ScanOrder;
    return Ok(pending);
  }

  /** The folder loop of `scan_increments` over the entries of one asset
      directory; an exception on any folder ends the scan. */
  method ScanAssetFolders(fs: Fs<Doc>, basePath: Path, assetType: string, names: seq<string>, repr: Json -> string)
    returns (r: Attempt<seq<PendingTask>>)
    ensures r == ScanFolders(fs, basePath, assetType, names, repr)
  {
    var pending: seq<PendingTask> := [];
    for i := 0 to |names|
      invariant ScanFolders(fs, basePath, assetType, names[..i], repr) == Ok(pending)
    {
      assert names[..i + 1][..i] == names[..i] && names[..i + 1][i] == names[i];
      var task := ScanFolder(fs, basePath, names[i], assetType, repr);
      if task.Raised? {
        ScanFoldersRaisedSticks(fs, basePath, assetType, names, i + 1, repr);
        return Raised;
      }
      if task.value.Some? {
        pending := pending + [task.value.value];
      } else {
        assert pending + [] == pending;
      }
    }
    assert names[..|names|] == names;
    return Ok(pending);
  }

  /** One iteration of the folder loop of `scan_increments`: skips a
      non-directory or an already outlined folder, reads the raw file if it
      exists, and yields a task when its context is non-empty. */
  method ScanFolder(fs: Fs<Doc>, basePath: Path, assetId: string, assetType: string, repr: Json -> string)
    returns (task: Attempt<Option<PendingTask>>)
    ensures task == FolderTask(fs, basePath, assetId, assetType, repr)
  {
    var folder := basePath + [assetId];
    if !fs.IsDir(folder) {
      return Ok(None);
    }
    var outlineFile := folder + [OutlineName];
    if fs.Exists(outlineFile) {
      return Ok(None);
    }
    var rawFile := LocateRawFile(folder, assetId, assetType);
    if !fs.Exists(rawFile) {
      return Ok(None);
    }
    if !fs.IsFile(rawFile) || fs.files[rawFile].None? {
      return Raised;
    }
    var context := BuildContext(fs.files[rawFile].value, assetType, repr);
    if context.Raised? {
      return Raised;
    }
    if context.value != "" {
      return Ok(Some(PendingTask(assetId, assetType, context.value)));
    }
    return Ok(None);
  }

  /** A raise while scanning the first asset types is a raise of the whole scan. */
  lemma ScanTypesRaisedSticks(fs: Fs<Doc>, storageRoot: Path, t: nat, repr: Json -> string)
    requires 1 <= t <= 2 && ScanType(fs, storageRoot, ScanOrder[t - 1], repr).Raised?
    requires ScanTypes(fs, storageRoot, ScanOrder[..t - 1], repr).Ok?
    ensures ScanTypes(fs, storageRoot, ScanOrder, repr).Raised?
  {
    assert ScanOrder[..t][..t - 1] == ScanOrder[..t - 1];
    if t == 1 {
      assert ScanOrder[..2][..1] == ScanOrder[..1];
    }
    assert ScanOrder[..2] == ScanOrder;
  }

  /** `messenger_back`: writes `content` as the outline of the asset and
      returns the outline's path; a folder that does not exist raises. */
  method MessengerBack(disk: Disk<Doc>, storageRoot: Path, assetId: string, assetType: string, content: Json)
    returns (r: Attempt<Path>)
    modifies disk
    ensures r.Ok? <==> old(disk.fs).Write(AssetDir(storageRoot, assetType) + [assetId, OutlineName], Some(content)).Some?
    ensures r.Ok? ==> r.value == AssetDir(storageRoot, assetType) + [assetId, OutlineName]
    ensures disk.fs == old(disk.fs).Write(AssetDir(storageRoot, assetType) + [assetId, OutlineName], Some(content)).GetOr(old(disk.fs))
  {
    var base := if assetType == "video" then storageRoot + ["video", assetId] else storageRoot + ["magic-pdf", assetId];
    var outputPath := base + [OutlineName];
    assert outputPath == AssetDir(storageRoot, assetType) + [assetId, OutlineName];
    var ok := disk.WriteFile(outputPath, Some(content));
    if ok {
      r := Ok(outputPath);
    } else {
      r := Raised;
    }
  }

  /** Every task of a folder scan comes from one of the folders, under
      `base`, with its asset type, an absent outline and a non-empty context. */
  lemma {:induction false} ScanFoldersSound(fs: Fs<Doc>, base: Path, assetType: string, names: seq<string>, repr: Json -> string)
    requires ScanFolders(fs, base, assetType, names, repr).Ok?
    ensures forall t :: t in ScanFolders(fs, base, assetType, names, repr).value ==>
      t.assetId in names && t.assetType == assetType && fs.IsDir(base + [t.assetId]) &&
      !fs.Exists(base + [t.assetId] + [OutlineName]) && t.context != ""
    decreases |names|
  {
    if |names| > 0 {
      ScanFoldersSound(fs, base, assetType, names[..|names| - 1], repr);
    }
  }

  /** Every folder that would yield a task does yield it. */
  lemma {:induction false} ScanFoldersComplete(fs: Fs<Doc>, base: Path, assetType: string, names: seq<string>, k: int, repr: Json -> string)
    requires ScanFolders(fs, base, assetType, names, repr).Ok?
    requires 0 <= k < |names| && FolderTask(fs, base, names[k], assetType, repr).Ok? && FolderTask(fs, base, names[k], assetType, repr).value.Some?
    ensures FolderTask(fs, base, names[k], assetType, repr).value.value in ScanFolders(fs, base, assetType, names, repr).value
    decreases |names|
  {
    if k < |names| - 1 {
      ScanFoldersComplete(fs, base, assetType, names[..|names| - 1], k, repr);
    }
  }

  /** Every task of a scan is a video or PDF asset whose folder has no
      outline. */
  lemma ScanSound(fs: Fs<Doc>, storageRoot: Path, repr: Json -> string)
    requires ScanTypes(fs, storageRoot, ScanOrder, repr).Ok?
    ensures forall t :: t in ScanTypes(fs, storageRoot, ScanOrder, repr).value ==>
      (t.assetType == "video" || t.assetType == "pdf") && t.context != "" &&
      fs.IsDir(AssetDir(storageRoot, t.assetType) + [t.assetId]) &&
      !fs.Exists(AssetDir(storageRoot, t.assetType) + [t.assetId] + [OutlineName])
  {
    assert ScanOrder[..1] == ["video"] && ScanOrder[..2] == ScanOrder && ScanOrder[..2][..1] == ScanOrder[..1];
    var base0 := AssetDir(storageRoot, "video");
    var base1 := AssetDir(storageRoot, "pdf");
    if fs.IsDir(base0) {
      ScanFoldersSound(fs, base0, "video", fs.Entries(base0), repr);
    }
    if fs.IsDir(base1) {
      ScanFoldersSound(fs, base1, "pdf", fs.Entries(base1), repr);
    }
  }

  /** Once the outline of an asset is written back, a later scan yields no
      task for that asset in that folder. */
  lemma OutlineStopsRescan(fs: Fs<Doc>, storageRoot: Path, assetId: string, assetType: string, content: Json, repr: Json -> string)
    requires fs.Write(AssetDir(storageRoot, assetType) + [assetId, OutlineName], Some(content)).Some?
    ensures var after := fs.Write(AssetDir(storageRoot, assetType) + [assetId, OutlineName], Some(content)).value;
      var scan := ScanTypes(after, storageRoot, ScanOrder, repr);
      scan.Ok? ==> forall t :: t in scan.value && t.assetId == assetId ==> AssetDir(storageRoot, t.assetType) != AssetDir(storageRoot, assetType)
  {
    var p := AssetDir(storageRoot, assetType) + [assetId, OutlineName];
    var after := fs.Write(p, Some(content)).value;
    var scan := ScanTypes(after, storageRoot, ScanOrder, repr);
    if scan.Ok? {
      ScanSound(after, storageRoot, repr);
      assert after.Exists(p);
      forall t | t in scan.value && t.assetId == assetId ensures AssetDir(storageRoot, t.assetType) != AssetDir(storageRoot, assetType) {
        var q := AssetDir(storageRoot, t.assetType) + [t.assetId] + [OutlineName];
        assert q != p;
        assert q[..|q| - 2] == AssetDir(storageRoot, t.assetType) && p[..|p| - 2] == AssetDir(storageRoot, assetType);
      }
    }
  }
}

=== FILE: page.dfy ===
/** The pure helpers of the main page (web/frontend/app/page.tsx): anchor
    formatting, the PDF page a jump opens, normalising the backend's asset
    records, the active-task test that drives polling, and asset selection. */
module Page {
  import opened Wrappers
  import opened Text
  import opened AssetTypes

  /** JavaScript's `a % b` on integers: the remainder takes the sign of `a`. */
  function JsRem(a: int, b: int): (r: int)
    requires b != 0
    ensures a >= 0 ==> 0 <= r < if b > 0 then b else -b
    ensures a < 0 ==> r <= 0
  {
    var m := if b > 0 then b else -b;
    if a >= 0 then a % m else -((-a) % m)
  }

  /** `formatAnchor`: `m:ss` for a video, `P.n` otherwise. */
  function FormatAnchor(anchor: real, kind: string): (r: string)
    ensures kind == "video" ==> |r| >= 4 && ':' in r
    ensures kind != "video" ==> |r| >= 3 && r[..2] == "P."
  {
    if kind == "video" then
      var totalSeconds := anchor.Floor;
      var minutes := totalSeconds / 60;
      var seconds := JsRem(totalSeconds, 60);
      IntToString(minutes) + ":" + PadStart2(IntToString(seconds))
    else "P." + IntToString(anchor.Floor)
  }

  /** The two digits written for a number below 100, padded with a zero. */
  lemma TwoDigits(s: nat)
    requires s < 100
    ensures var d := PadStart2(NatToString(s));
      |d| == 2 && IsDigit(d[0]) && IsDigit(d[1]) && DigitsValue(d) == s
  {
    var d := PadStart2(NatToString(s));
    if s < 10 {
      assert d == ['0', DigitChar(s)];
      assert d[..1] == "0";
      assert DigitsValue("0") == 0 by {
        assert "0"[..0] == "";
      }
      assert DigitsValue(d) == 10 * DigitsValue(d[..1]) + (d[1] as int - '0' as int);
    } else {
      NatToStringValue(s);
      assert NatToString(s) == NatToString(s / 10) + [DigitChar(s % 10)];
    }
  }

  /** `m:ss`: digits, a colon, then two digits of seconds below 60. */
  predicate IsClock(r: string) {
    |r| >= 4 && r[|r| - 3] == ':' &&
    (forall i :: 0 <= i < |r| && i != |r| - 3 ==> IsDigit(r[i])) &&
    DigitsValue(r[|r| - 2..]) < 60
  }

  /** The whole seconds a clock reading stands for. */
  function ClockSeconds(r: string): int
    requires IsClock(r)
  {
    DigitsValue(r[..|r| - 3]) * 60 + DigitsValue(r[|r| - 2..])
  }

  /** A non-negative video anchor reads back as minutes, a colon and two
      digits of seconds below 60, which together give its whole seconds. */
  lemma {:induction false} VideoAnchorRoundTrip(anchor: real)
    requires anchor >= 0.0
    ensures IsClock(FormatAnchor(anchor, "video"))
    ensures ClockSeconds(FormatAnchor(anchor, "video")) == anchor.Floor
  {
    var t := anchor.Floor;
    var m, s := t / 60, t % 60;
    assert 0 <= m && 0 <= s < 60;
    assert JsRem(t, 60) == s;
    var ms := NatToString(m);
    var ss := PadStart2(NatToString(s));
    TwoDigits(s);
    NatToStringValue(m);
    ClockShape(ms, ss);
    var clock := ms + ":" + ss;
    assert IsClock(clock) && ClockSeconds(clock) == m * 60 + s;
    assert FormatAnchor(anchor, "video") == clock;
    assert m * 60 + s == t;
  }

  /** Where the parts of `minutes:ss` sit in the joined string. */
  lemma ClockShape(ms: string, ss: string)
    requires |ms| >= 1 && |ss| == 2
    requires (forall i :: 0 <= i < |ms| ==> IsDigit(ms[i])) && IsDigit(ss[0]) && IsDigit(ss[1])
    ensures var r := ms + ":" + ss;
      |r| >= 4 && r[|r| - 3] == ':' && r[..|r| - 3] == ms && r[|r| - 2..] == ss &&
      (forall i :: 0 <= i < |r| && i != |r| - 3 ==> IsDigit(r[i]))
  {
    var r := ms + ":" + ss;
    forall i | 0 <= i < |r| && i != |r| - 3
      ensures IsDigit(r[i])
    {
      if i < |ms| {
        assert r[i] == ms[i];
      } else {
        assert r[i] == ss[i - |ms| - 1];
      }
    }
  }

  /** A negative video anchor keeps the sign in both parts, as JavaScript's
      remainder does: -5 seconds is written `-1:-5`. */
  lemma NegativeVideoAnchor()
    ensures FormatAnchor(-5.0, "video") == "-1:-5"
  {
    assert (-5.0).Floor == -5;
    assert JsRem(-5, 60) == -5;
    assert NatToString(5) == "5";
    assert NatToString(1) == "1";
  }

  /** A non-negative PDF anchor is written `P.` and its whole page number. */
  lemma PdfAnchorRoundTrip(anchor: real, kind: string)
    requires anchor >= 0.0 && kind != "video"
    ensures var r := FormatAnchor(anchor, kind);
      |r| >= 3 && r[..2] == "P." &&
      (forall i :: 2 <= i < |r| ==> IsDigit(r[i])) &&
      DigitsValue(r[2..]) == anchor.Floor
  {
    var r := FormatAnchor(anchor, kind);
    NatToStringValue(anchor.Floor);
    assert r[2..] == NatToString(anchor.Floor);
  }

  /** The page a PDF jump opens: `Math.max(1, Math.floor(anchor))`. */
  function JumpPage(anchor: real): (r: int)
    ensures r >= 1
    ensures anchor >= 1.0 ==> r == anchor.Floor
    ensures anchor < 1.0 ==> r == 1
  {
    if anchor.Floor > 1 then anchor.Floor else 1
  }

  /** The media on show: `previewData`. */
  datatype Preview = Preview(url: string, kind: string)

  /** What `handleJump` does. */
  datatype JumpAction = NoJump | Seek(time: real) | OpenPage(page: int)

  /** `handleJump`: a video seeks to the anchor; a PDF opens the clamped
      page; without a preview or a mounted player nothing happens. */
  function Jump(preview: Option<Preview>, anchor: real, videoMounted: bool, pdfMounted: bool): (r: JumpAction)
    ensures preview.None? ==> r == NoJump
    ensures r.Seek? <==> preview.Some? && preview.value.kind == "video" && videoMounted
    ensures r.Seek? ==> r.time == anchor
    ensures r.OpenPage? <==> preview.Some? && preview.value.kind == "pdf" && pdfMounted
    ensures r.OpenPage? ==> r.page >= 1 && (anchor >= 1.0 ==> r.page == anchor.Floor)
  {
    if preview.None? then NoJump
    else if preview.value.kind == "video" && videoMounted then Seek(anchor)
    else if preview.value.kind == "pdf" && pdfMounted then OpenPage(JumpPage(anchor))
    else NoJump
  }

  /** One record of the backend's status map, with the fields the page
      reads; each is absent or a string. */
  datatype BackendAsset = BackendAsset(
    assetId: Option<string>,
    assetType: Option<string>,
    status: Option<string>,
    createdAt: Option<string>,
    processedPath: Option<string>)

  /** JavaScript truthiness of an optional string. */
  predicate Truthy(v: Option<string>) {
    v.Some? && v.value != ""
  }

  /** `a || b` on optional strings. */
  function Or(a: Option<string>, b: string): (r: string)
    ensures Truthy(a) ==> r == a.value
    ensures !Truthy(a) ==> r == b
  {
    if Truthy(a) then a.value else b
  }

  /** `normalizeAsset`; `now` is `new Date().toISOString()`. Without a
      truthy `asset_type` the id's extension decides the type, and a record
      without `asset_id` then throws. */
  function NormalizeAsset(b: BackendAsset, now: string): (r: Attempt<Asset>)
    ensures r.Raised? <==> !Truthy(b.assetType) && b.assetId.None?
    ensures r.Ok? ==> r.value.id == b.assetId && r.value.name == b.assetId
    ensures r.Ok? ==> StatusName(r.value.status) == Or(b.status, "Raw")
    ensures r.Ok? && !Truthy(b.status) ==> r.value.status == Raw
    ensures r.Ok? ==> (r.value.progress == 100 <==> r.value.status == Ready)
    ensures r.Ok? ==> (r.value.progress == 0 <==> r.value.status != Ready)
    ensures r.Ok? && Truthy(b.assetType) ==> r.value.kind == b.assetType.value
    ensures r.Ok? && !Truthy(b.assetType) ==>
      (r.value.kind == "pdf" <==> EndsWith(b.assetId.value, ".pdf")) &&
      (r.value.kind == "video" <==> !EndsWith(b.assetId.value, ".pdf"))
    ensures r.Ok? ==> r.value.createdAt == Or(b.createdAt, now)
    ensures r.Ok? ==> r.value.processedPath == b.processedPath && r.value.outline == []
  {
    if !Truthy(b.assetType) && b.assetId.None? then Raised
    else
      var status := ParseStatus(Or(b.status, "Raw"));
      var kind := if Truthy(b.assetType) then b.assetType.value
                  else if EndsWith(b.assetId.value, ".pdf") then "pdf" else "video";
      Ok(Asset(b.assetId, b.assetId, kind, status, Or(b.createdAt, now), b.processedPath,
               if status == Ready then 100 else 0, []))
  }

  /** `Object.values(data).map(normalizeAsset)`: the first record that
      throws aborts the whole map. */
  function NormalizeAll(records: seq<BackendAsset>, now: string): (r: Attempt<seq<Asset>>)
    ensures r.Ok? ==> |r.value| == |records|
    ensures r.Ok? ==> forall k :: 0 <= k < |records| ==> NormalizeAsset(records[k], now) == Ok(r.value[k])
  {
    if |records| == 0 then Ok([])
    else
      var init := NormalizeAll(records[..|records| - 1], now);
      var last := NormalizeAsset(records[|records| - 1], now);
      if init.Raised? || last.Raised? then Raised
      else
        var r := init.value + [last.value];
        assert forall k :: 0 <= k < |records| - 1 ==> records[k] == records[..|records| - 1][k] && r[k] == init.value[k];
        Ok(r)
  }

  /** The map fails exactly when some record throws. */
  lemma {:induction false} NormalizeAllRaised(records: seq<BackendAsset>, now: string)
    ensures NormalizeAll(records, now).Raised? <==> exists k :: 0 <= k < |records| && NormalizeAsset(records[k], now).Raised?
  {
    if |records| > 0 {
      var init := records[..|records| - 1];
      NormalizeAllRaised(init, now);
      if exists k :: 0 <= k < |init| && NormalizeAsset(init[k], now).Raised? {
        var k :| 0 <= k < |init| && NormalizeAsset(init[k], now).Raised?;
        assert records[k] == init[k];
      }
      if exists k :: 0 <= k < |records| && NormalizeAsset(records[k], now).Raised? {
        var k :| 0 <= k < |records| && NormalizeAsset(records[k], now).Raised?;
        if k < |init| {
          assert init[k] == records[k];
        }
      }
    }
  }

  /** A status that still has work running: not Ready, Raw or Failed. */
  predicate IsActive(s: AssetStatus) {
    !(s == Ready || s == Raw || s == Failed)
  }

  /** `updatedAssets.some(a => !['Ready', 'Raw', 'Failed'].includes(a.status))`. */
  function HasActiveTasks(assets: seq<Asset>): bool {
    if |assets| == 0 then false
    else HasActiveTasks(assets[..|assets| - 1]) || IsActive(assets[|assets| - 1].status)
  }

  /** Active tasks exist exactly when some asset has an active status. */
  lemma {:induction false} HasActiveTasksIff(assets: seq<Asset>)
    ensures HasActiveTasks(assets) <==> exists k :: 0 <= k < |assets| && IsActive(assets[k].status)
  {
    if |assets| > 0 {
      var init := assets[..|assets| - 1];
      HasActiveTasksIff(init);
      if exists k :: 0 <= k < |init| && IsActive(init[k].status) {
        var k :| 0 <= k < |init| && IsActive(init[k].status);
        assert assets[k] == init[k];
      }
      if exists k :: 0 <= k < |assets| && IsActive(assets[k].status) {
        var k :| 0 <= k < |assets| && IsActive(assets[k].status);
        if k < |init| {
          assert init[k] == assets[k];
        }
      }
    }
  }

  /** The polling flag after a refresh (the two `setIsSyncing` guards). */
  function NextSyncing(active: bool, syncing: bool): (r: bool)
    ensures r == active
  {
    if !active && syncing then false
    else if active && !syncing then true
    else syncing
  }

  /** The page state a status refresh touches. */
  datatype PageAssets = PageAssets(assets: seq<Asset>, syncing: bool)

  /** The `status` field and the records of the backend's status reply. */
  datatype StatusReply = StatusReply(status: string, records: seq<BackendAsset>)

  /** `refreshAssetStatuses`: a successful reply replaces the assets and
      polling runs exactly while some task is active; a failed reply or a
      record that throws leaves the page as it was. */
  function Refresh(page: PageAssets, reply: StatusReply, now: string): (r: PageAssets)
    ensures reply.status != "success" ==> r == page
    ensures NormalizeAll(reply.records, now).Raised? ==> r == page
    ensures reply.status == "success" && NormalizeAll(reply.records, now).Ok? ==>
      r.assets == NormalizeAll(reply.records, now).value && (r.syncing <==> HasActiveTasks(r.assets))
  {
    if reply.status != "success" then page
    else
      match NormalizeAll(reply.records, now)
      case Raised => page
      case Ok(updated) => PageAssets(updated, NextSyncing(HasActiveTasks(updated), page.syncing))
  }

  /** `assets.find(a => a.id === id)`: the index of the first match. */
  function FindAsset(assets: seq<Asset>, id: string): (r: Option<nat>)
    ensures r.Some? ==>
      (r.value < |assets| && assets[r.value].id == Some(id) &&
       forall j :: 0 <= j < r.value ==> assets[j].id != Some(id))
    ensures r.None? ==> forall j :: 0 <= j < |assets| ==> assets[j].id != Some(id)
  {
    if |assets| == 0 then None
    else if assets[0].id == Some(id) then Some(0)
    else
      var rest := FindAsset(assets[1..], id);
      if rest.Some? then Some(rest.value + 1) else None
  }

  /** What selecting an asset asks for. */
  datatype SelectAction = LoadStructureAndPreview | ClearPreviewAndOutline

  /** `handleSelectAsset`: the asset becomes selected; its structure and
      preview load only when it is Ready, otherwise both are cleared. */
  function SelectAsset(assets: seq<Asset>, id: string): (r: (string, SelectAction))
    ensures r.0 == id
    ensures r.1 == LoadStructureAndPreview <==>
      exists k :: 0 <= k < |assets| && assets[k].id == Some(id) && assets[k].status == Ready &&
        forall j :: 0 <= j < k ==> assets[j].id != Some(id)
  {
    var found := FindAsset(assets, id);
    if found.Some? && assets[found.value].status == Ready then (id, LoadStructureAndPreview)
    else (id, ClearPreviewAndOutline)
  }
}

=== FILE: reasoning_stream.dfy ===
/** The two workflow nodes of core/reasoning_stream.py that have bodies:
    the sentinel guard and the retriever. Each reads the agent state and
    returns a partial update; the search worker's reply is an input. */
module ReasoningStream {
  import opened Wrappers
  import opened SystemState
  import VectorSearch

  /** A chat message; only its author kind and text matter here. */
  datatype Message = HumanMessage(content: string) | AIMessage(content: string)

  /** The fields of `AgentState` the two nodes read. */
  datatype AgentState = AgentState(messages: seq<Message>, currentAssetId: Option<string>)

  /** The reply the guard posts when the gate is not idle. */
  const LockedNotice: string := "SYSTEM_STATUS_LOCKED"

  /** `node_sentinel_guard`: reads the gate, never changes it, and returns
      the messages to append. */
  method SentinelGuard(gate: SystemStateManager) returns (messages: seq<Message>)
    ensures !QueryAllowed(gate.Snapshot()) <==> messages == [AIMessage(LockedNotice)]
    ensures QueryAllowed(gate.Snapshot()) <==> messages == []
  {
    var allowed := gate.IsQueryAllowed();
    if !allowed {
      messages := [AIMessage(LockedNotice)];
    } else {
      messages := [];
    }
  }

  /** The call the retriever makes: `call_searcher(query, asset_id, top_k)`. */
  datatype SearchRequest = SearchRequest(query: string, assetId: Option<string>, topK: int)

  /** What the search worker hands back: a hit list (the records that
      `VectorSearch.Search` builds and data_layer/search_wrapper.py prints),
      a dictionary (an error record or anything else), or nothing. */
  datatype SearchReply =
    | HitList(hits: seq<VectorSearch.Ranked>)
    | DictReply(fields: map<string, string>)
    | NoReply

  /** The retriever's state update, or the exception it lets escape. */
  datatype RetrieverUpdate = RetrievedContext(context: seq<VectorSearch.Ranked>) | NodeRaised

  /** The number of hits the retriever asks for. */
  const RetrieverTopK: int := 5

  /** The request the retriever builds from the state, if it gets that far
      (`state["messages"][-1]` raises on an empty history). */
  function RetrieverRequest(state: AgentState): Option<SearchRequest> {
    if |state.messages| == 0 then None
    else Some(SearchRequest(state.messages[|state.messages| - 1].content, state.currentAssetId, RetrieverTopK))
  }

  /** The top-level keys of one search record (`score`, `content`, `metadata`). */
  const RecordKeys: set<string> := {"score", "content", "metadata"}

  /** The keys of a search record's `metadata` dictionary. */
  const MetadataKeys: set<string> := {"asset_id", "modality", "type", "timestamp", "page_label"}

  /** A subscript chain `res[path[0]]` or `res[path[0]][path[1]]` finds a
      value in a search record, instead of raising `KeyError`. */
  predicate Resolves(path: seq<string>) {
    (|path| == 1 && path[0] in RecordKeys) ||
    (|path| == 2 && path[0] == "metadata" && path[1] in MetadataKeys)
  }

  /** `node_academic_retriever`, with the subscript chain its hit log uses to
      read the modality. An empty or error reply gives an empty context; a
      non-empty hit list is passed on unless the log line of its first hit
      raises; any other dictionary makes `search_results[:3]` raise. */
  function Retrieve(state: AgentState, search: SearchRequest -> SearchReply, modalityPath: seq<string>): RetrieverUpdate {
    match RetrieverRequest(state)
    case None => NodeRaised
    case Some(req) =>
      match search(req)
      case NoReply => RetrievedContext([])
      case HitList(hits) =>
        if hits == [] then RetrievedContext([])
        else if Resolves(modalityPath) && Resolves(["score"]) then RetrievedContext(hits)
        else NodeRaised
      case DictReply(d) =>
        if d == map[] || ("status" in d && d["status"] == "error") then RetrievedContext([])
        else NodeRaised
  }

  /** The retriever as written: the hit log reads `res['modality']`, a key
      that search records only carry inside `metadata`, so every non-empty
      hit list raises and no hit is ever handed on. */
  function AcademicRetrieverAsWritten(state: AgentState, search: SearchRequest -> SearchReply): (r: RetrieverUpdate)
    ensures |state.messages| == 0 ==> r == NodeRaised
    ensures r.RetrievedContext? ==> r.context == []
    ensures |state.messages| > 0 ==>
      var reply := search(RetrieverRequest(state).value);
      reply.HitList? && reply.hits != [] ==> r == NodeRaised
  {
    Retrieve(state, search, ["modality"])
  }

  /** The retriever with the hit log reading `res['metadata']['modality']`:
      an empty history raises; with a history it raises only on a non-empty
      dictionary that is not an error record; a non-empty context is exactly
      the hit list the worker returned. */
  function AcademicRetriever(state: AgentState, search: SearchRequest -> SearchReply): (r: RetrieverUpdate)
    ensures |state.messages| == 0 ==> r == NodeRaised
    ensures r.NodeRaised? && |state.messages| > 0 ==>
      var reply := search(RetrieverRequest(state).value);
      reply.DictReply? && reply.fields != map[] && !("status" in reply.fields && reply.fields["status"] == "error")
    ensures r.RetrievedContext? && r.context != [] ==> search(RetrieverRequest(state).value) == HitList(r.context)
  {
    Retrieve(state, search, ["metadata", "modality"])
  }

  /** The two retrievers differ exactly on a non-empty hit list, which the
      corrected one hands on and the one as written raises on. */
  lemma RetrieverAsWrittenDiffers(state: AgentState, search: SearchRequest -> SearchReply)
    ensures AcademicRetrieverAsWritten(state, search) != AcademicRetriever(state, search) <==>
      |state.messages| > 0 && search(RetrieverRequest(state).value).HitList? &&
      search(RetrieverRequest(state).value).hits != []
    ensures AcademicRetrieverAsWritten(state, search) != AcademicRetriever(state, search) ==>
      AcademicRetrieverAsWritten(state, search) == NodeRaised &&
      AcademicRetriever(state, search) == RetrievedContext(search(RetrieverRequest(state).value).hits)
  {
  }

  /** A concrete run: one question, one video hit. As written the node
      raises; corrected, the hit becomes the retrieved context. */
  lemma AsWrittenDropsHit()
    ensures var hit := VectorSearch.Ranked(9000, "DDL", VectorSearch.Metadata(Some("lec1"), Some("video"), Some("transcript_context"), Some(12.0), None));
      var state := AgentState([HumanMessage("DDL")], Some("lec1"));
      var search := (req: SearchRequest) => HitList([hit]);
      AcademicRetrieverAsWritten(state, search) == NodeRaised &&
      AcademicRetriever(state, search) == RetrievedContext([hit])
  {
  }

  /** The retriever consults the search worker once, with the last message's
      text, the state's asset id and top_k = 5: two workers that agree on that
      request give the same update. */
  lemma RetrieverAsksOnce(state: AgentState, s1: SearchRequest -> SearchReply, s2: SearchRequest -> SearchReply)
    requires |state.messages| > 0
    requires var req := SearchRequest(state.messages[|state.messages| - 1].content, state.currentAssetId, 5);
      s1(req) == s2(req)
    ensures AcademicRetriever(state, s1) == AcademicRetriever(state, s2)
  {
  }

  /** Success and failure branches: empty hits, no reply and error records
      give `retrieved_context = []`; a hit list is returned as is. */
  lemma RetrieverBranches(state: AgentState, search: SearchRequest -> SearchReply)
    requires RetrieverRequest(state).Some?
    ensures var reply := search(RetrieverRequest(state).value);
      (reply.HitList? ==> AcademicRetriever(state, search) == RetrievedContext(reply.hits)) &&
      (reply.NoReply? ==> AcademicRetriever(state, search) == RetrievedContext([])) &&
      (reply.DictReply? && "status" in reply.fields && reply.fields["status"] == "error" ==>
         AcademicRetriever(state, search) == RetrievedContext([]))
    ensures AcademicRetriever(state, search).RetrievedContext? && AcademicRetriever(state, search).context != [] ==>
      search(RetrieverRequest(state).value) == HitList(AcademicRetriever(state, search).context)
  {
  }
}

=== FILE: storage.dfy ===
/** The file tree that the workers scan and write, as seen through
    `pathlib`: a path is a sequence of components, a directory lists its
    entries in the order `iterdir` yields them, and a file holds one value. */
module Storage {
  import opened Wrappers

  type Path = seq<string>

  datatype Fs<C> = Fs(dirs: map<Path, seq<string>>, files: map<Path, C>) {
    /** `Path.is_dir()`. */
    predicate IsDir(p: Path) {
      p in dirs
    }

    /** `Path.exists()`: a file or a directory. */
    predicate Exists(p: Path) {
      p in dirs || p in files
    }

    /** A regular file whose contents can be read. */
    predicate IsFile(p: Path) {
      p in files && p !in dirs
    }

    /** `Path.iterdir()` names, in order; nothing for a non-directory. */
    function Entries(p: Path): seq<string> {
      if p in dirs then dirs[p] else []
    }

    /** `open(p, 'w')` followed by a write of `c`: fails when the parent is
        not a directory or `p` is one; otherwise `p` holds `c`, its name is
        listed in the parent, and no other path changes. */
    function Write(p: Path, c: C): (r: Option<Fs<C>>)
      ensures r.Some? <==> |p| > 0 && IsDir(p[..|p| - 1]) && !IsDir(p)
      ensures r.Some? ==> r.value.IsFile(p) && r.value.files[p] == c
      ensures r.Some? ==> p[|p| - 1] in r.value.Entries(p[..|p| - 1])
      ensures r.Some? ==> r.value.dirs.Keys == dirs.Keys
      ensures r.Some? ==> forall q :: q != p ==> (q in r.value.files <==> q in files) && (q in files ==> r.value.files[q] == files[q])
    {
      if |p| > 0 && IsDir(p[..|p| - 1]) && !IsDir(p) then
        var parent := p[..|p| - 1];
        var name := p[|p| - 1];
        var listing := if name in dirs[parent] then dirs[parent] else dirs[parent] + [name];
        Some(Fs(dirs[parent := listing], files[p := c]))
      else None
    }
  }

  /** The file tree as mutable state. */
  class Disk<C> {
    var fs: Fs<C>

    constructor (initial: Fs<C>)
      ensures fs == initial
    {
      fs := initial;
    }

    /** Writes `c` to `p`; reports whether the write was possible. */
    method WriteFile(p: Path, c: C) returns (ok: bool)
      modifies this
      ensures ok <==> old(fs).Write(p, c).Some?
      ensures fs == if ok then old(fs).Write(p, c).value else old(fs)
    {
      var r := fs.Write(p, c);
      if r.Some? {
        fs := r.value;
        ok := true;
      } else {
        ok := false;
      }
    }
  }

  /** A write leaves every other path's existence as it was. */
  lemma WriteKeepsOthers<C>(fs: Fs<C>, p: Path, c: C, q: Path)
    requires fs.Write(p, c).Some? && q != p
    ensures fs.Write(p, c).value.Exists(q) <==> fs.Exists(q)
    ensures fs.Write(p, c).value.IsDir(q) <==> fs.IsDir(q)
  {
  }
}

/** JSON documents as the workers read them. */
module JsonValue {
  import opened Wrappers

  /** A JSON value as `json.load` returns it. A float keeps the text Python
      prints for it. */
  datatype Json = JNull | JBool(b: bool) | JInt(i: int) | JFloat(repr: string) | JStr(s: string)
                | JArr(items: seq<Json>) | JObj(fields: map<string, Json>)

  /** A file's contents: the parsed document, or None when it is not JSON. */
  type Doc = Option<Json>

  /** Python truthiness of a JSON value. */
  predicate Truthy(v: Json) {
    match v
    case JNull => false
    case JBool(b) => b
    case JInt(i) => i != 0
    case JFloat(r) => r != "0.0" && r != "-0.0"
    case JStr(s) => s != ""
    case JArr(items) => items != []
    case JObj(fields) => fields != map[]
  }

  /** `d.get(k, default)`. */
  function Get(d: map<string, Json>, k: string, default: Json): (r: Json)
    ensures k in d ==> r == d[k]
    ensures k !in d ==> r == default
  {
    if k in d then d[k] else default
  }

  /** The values a `for` loop over `v` yields, or Raised when `v` is not
      iterable. A string yields its characters and a dict its keys; only
      the first key of a non-empty dict is given, as an empty string, since
      the loops here stop at the first element that is not a dict. */
  function Iterated(v: Json): (r: Attempt<seq<Json>>)
    ensures v.JArr? ==> r == Ok(v.items)
    ensures r.Ok? && !v.JArr? ==> forall k :: 0 <= k < |r.value| ==> r.value[k].JStr?
    ensures r.Raised? <==> !(v.JArr? || v.JStr? || v.JObj?)
  {
    match v
    case JArr(items) => Ok(items)
    case JStr(s) => Ok(seq(|s|, k requires 0 <= k < |s| => JStr([s[k]])))
    case JObj(m) => if |m| == 0 then Ok([]) else Ok([JStr("")])
    case _ => Raised
  }
}

=== FILE: system_state.dfy ===
/** The resource gate of core/system_state.py: one process-wide occupancy
    status and the id of the task holding it. */
module SystemState {
  import opened Wrappers

  /** The four statuses the source declares. */
  datatype SystemStatus = Idle | Ingesting | Querying | Error

  /** The gate's whole state as a value. */
  datatype Gate = Gate(status: SystemStatus, taskId: Option<string>)

  /** The state a freshly created manager starts in. */
  const Initial: Gate := Gate(Idle, None)

  /** Test-and-set: an idle gate is taken for `id`; any other gate is left as it is. */
  function Acquire(g: Gate, id: string): (r: (bool, Gate))
    ensures r.0 <==> g.status == Idle
    ensures r.0 ==> r.1 == Gate(Ingesting, Some(id))
    ensures !r.0 ==> r.1 == g
  {
    if g.status == Idle then (true, Gate(Ingesting, Some(id))) else (false, g)
  }

  /** Unconditional release, whoever holds the gate and whatever its status. */
  function Release(g: Gate): (r: Gate)
    ensures r == Initial
  {
    Gate(Idle, None)
  }

  /** The reasoning side's admission pre-check. */
  predicate QueryAllowed(g: Gate) {
    g.status == Idle
  }

  /** The states reachable from `Initial`: idle with no task, or ingesting for one. */
  predicate Reachable(g: Gate) {
    (g.status == Idle && g.taskId == None) || (g.status == Ingesting && g.taskId.Some?)
  }

  /** A call a client can make on the gate. */
  datatype Call = AcquireCall(id: string) | ReleaseCall | QueryCall

  /** The gate after one call. */
  function Step(g: Gate, c: Call): Gate {
    match c
    case AcquireCall(id) => Acquire(g, id).1
    case ReleaseCall => Release(g)
    case QueryCall => g
  }

  /** The gate after a sequence of calls made one after the other. */
  function Run(g: Gate, calls: seq<Call>): Gate
    decreases |calls|
  {
    if |calls| == 0 then g else Run(Step(g, calls[0]), calls[1..])
  }

  /** Whether each acquire in `calls` succeeds, in order, starting from `g`. */
  function AcquireAnswers(g: Gate, calls: seq<Call>): seq<bool>
    decreases |calls|
  {
    if |calls| == 0 then []
    else match calls[0]
      case AcquireCall(id) => [Acquire(g, id).0] + AcquireAnswers(Acquire(g, id).1, calls[1..])
      case ReleaseCall => AcquireAnswers(Release(g), calls[1..])
      case QueryCall => AcquireAnswers(g, calls[1..])
  }

  /** Every status reachable by any sequence of calls is IDLE or INGESTING:
      QUERYING and ERROR are never produced. */
  lemma {:induction false} OnlyIdleOrIngestingReachable(g: Gate, calls: seq<Call>)
    requires Reachable(g)
    ensures Reachable(Run(g, calls))
    ensures Run(g, calls).status != Querying && Run(g, calls).status != Error
    decreases |calls|
  {
    if |calls| > 0 {
      OnlyIdleOrIngestingReachable(Step(g, calls[0]), calls[1..]);
    }
  }

  /** Mutual exclusion: once the gate is held, every acquire fails until a
      release, and the holder's task id stays in place. */
  lemma {:induction false} HeldGateRefusesAcquires(g: Gate, calls: seq<Call>)
    requires g.status != Idle
    requires forall k :: 0 <= k < |calls| ==> !calls[k].ReleaseCall?
    ensures forall k :: 0 <= k < |AcquireAnswers(g, calls)| ==> !AcquireAnswers(g, calls)[k]
    ensures Run(g, calls) == g
    decreases |calls|
  {
    if |calls| > 0 {
      assert !calls[0].ReleaseCall?;
      HeldGateRefusesAcquires(g, calls[1..]);
    }
  }

  /** After a successful acquire, a second acquire is refused, and after a
      release it succeeds again. */
  lemma AcquireReleaseAcquire(g: Gate, a: string, b: string)
    requires Acquire(g, a).0
    ensures !Acquire(Acquire(g, a).1, b).0
    ensures Acquire(Release(Acquire(g, a).1), b) == (true, Gate(Ingesting, Some(b)))
  {
  }

  /** The gate object itself, whose methods update its two fields in place. */
  class SystemStateManager {
    var status: SystemStatus
    var taskId: Option<string>
    /** Number of releases performed so far; lets callers state "released exactly once". */
    ghost var releases: nat

    /** The manager's state as a value. */
    function Snapshot(): Gate
      reads this
    {
      Gate(status, taskId)
    }

    /** A first instantiation is IDLE with no task id. */
    constructor ()
      ensures Snapshot() == Initial && releases == 0
    {
      status := Idle;
      taskId := None;
      releases := 0;
    }

    method AcquireIngestionLock(id: string) returns (acquired: bool)
      modifies this
      ensures (acquired, Snapshot()) == Acquire(old(Snapshot()), id)
      ensures acquired <==> old(status) == Idle
      ensures releases == old(releases)
    {
      if status == Idle {
        status := Ingesting;
        taskId := Some(id);
        acquired := true;
      } else {
        acquired := false;
      }
    }

    method ReleaseLock()
      modifies this
      ensures Snapshot() == Release(old(Snapshot())) == Initial
      ensures releases == old(releases) + 1
    {
      status := Idle;
      taskId := None;
      releases := releases + 1;
    }

    /** Reads the gate without changing it. */
    method IsQueryAllowed() returns (allowed: bool)
      ensures allowed <==> QueryAllowed(Snapshot())
      ensures allowed <==> status == Idle
    {
      allowed := status == Idle;
    }
  }
}

=== FILE: tools_manager.dfy ===
/** The out-of-process dispatch of core/tools_manager.py: resolve a worker's
    interpreter, run it once, and turn its outcome into one result record,
    never raising (only the visual wrapper's log line can raise, before any
    dispatch). The child process and JSON parsing are inputs. */
module ToolsManager {
  import opened Wrappers
  import opened Text

  /** A JSON value placed in a worker's parameter dictionary. */
  datatype ParamValue = Null | Str(s: string) | Num(n: int) | Obj(fields: map<string, ParamValue>)

  type Params = map<string, ParamValue>

  /** The manager's configuration: interpreter path per environment key, the
      paths that exist on disk, and the project root. */
  datatype Config = Config(envs: map<string, string>, existing: set<string>, baseDir: string)

  /** One child-process launch: interpreter, script, and the parameter
      dictionary serialised into the single argument. */
  datatype Invocation = Invocation(exe: string, script: string, params: Params)

  /** What running the child gives back, or that launching it raised. */
  datatype Launch = Exited(returncode: int, stdout: string, stderr: string) | LaunchRaised

  /** The error records the dispatcher returns instead of raising. */
  datatype DispatchError =
    | EnvInvalid(envKey: string)      // environment key unset or interpreter missing
    | SubprocessFailed(details: string) // nonzero exit; details are the child's stderr
    | NoValidJson                     // exit 0 but no non-blank stdout line
    | DispatchFault                   // parsing the last line, or the launch, raised

  /** A dispatch result: the parsed last line, or an error record. */
  datatype Reply<J> = Parsed(value: J) | Failure(error: DispatchError)

  /** The reply and the child process launched to get it, if any. */
  datatype Dispatched<J> = Dispatched(reply: Reply<J>, launched: Option<Invocation>)

  /** The environment key names an existing interpreter. */
  predicate EnvUsable(cfg: Config, envKey: string) {
    envKey in cfg.envs && cfg.envs[envKey] != "" && cfg.envs[envKey] in cfg.existing
  }

  /** The lines kept by `[l for l in lines if l.strip()]`, in order
      (`l.strip()` is non-empty exactly when `l` is not blank: `StripEmptyIffBlank`). */
  function NonBlank(lines: seq<string>): (r: seq<string>)
    ensures |r| <= |lines|
    ensures forall k :: 0 <= k < |r| ==> !IsBlank(r[k])
  {
    if |lines| == 0 then []
    else if !IsBlank(lines[0]) then [lines[0]] + NonBlank(lines[1..])
    else NonBlank(lines[1..])
  }

  /** The line `_dispatch_raw` parses: the last non-blank line of the
      stripped stdout split on newlines. */
  function ResultLine(stdout: string): (r: Option<string>)
    ensures r.Some? ==> !IsBlank(r.value)
  {
    var kept := NonBlank(Split(Strip(stdout), '\n'));
    if |kept| == 0 then None else Some(kept[|kept| - 1])
  }

  /** The kept lines are empty exactly when every line is blank; otherwise the
      last kept line is a non-blank line of the input after which every line
      is blank. */
  lemma {:induction false} LastNonBlankLine(lines: seq<string>)
    ensures NonBlank(lines) == [] <==> forall i :: 0 <= i < |lines| ==> IsBlank(lines[i])
    ensures NonBlank(lines) != [] ==>
      exists i :: 0 <= i < |lines| && lines[i] == NonBlank(lines)[|NonBlank(lines)| - 1]
        && !IsBlank(lines[i]) && forall j :: i < j < |lines| ==> IsBlank(lines[j])
  {
    if |lines| > 0 {
      LastNonBlankLine(lines[1..]);
      var rest := NonBlank(lines[1..]);
      if rest != [] {
        var i :| 0 <= i < |lines| - 1 && lines[1..][i] == rest[|rest| - 1]
          && !IsBlank(lines[1..][i]) && forall j :: i < j < |lines| - 1 ==> IsBlank(lines[1..][j]);
        assert lines[i + 1] == lines[1..][i];
        forall j | i + 1 < j < |lines| ensures IsBlank(lines[j]) {
          assert lines[j] == lines[1..][j - 1];
        }
      } else {
        forall j | 0 < j < |lines| ensures IsBlank(lines[j]) {
          assert lines[j] == lines[1..][j - 1];
        }
      }
    }
  }

  /** `_dispatch_raw(env_key, script_rel_path, params)`. */
  function Dispatch<J>(cfg: Config, envKey: string, scriptRel: string, params: Option<Params>,
                       run: Invocation -> Launch, parse: string -> Option<J>): (r: Dispatched<J>)
    // no usable interpreter: an error record, and no process is run
    ensures !EnvUsable(cfg, envKey) <==> r.launched == None
    ensures !EnvUsable(cfg, envKey) ==> r.reply == Failure(EnvInvalid(envKey))
    // otherwise one launch, absent parameters sent as {}
    ensures EnvUsable(cfg, envKey) ==>
      r.launched == Some(Invocation(cfg.envs[envKey], PathJoin(cfg.baseDir, scriptRel), params.GetOr(map[])))
    ensures r.launched.Some? && run(r.launched.value).Exited? && run(r.launched.value).returncode != 0 ==>
      r.reply == Failure(SubprocessFailed(run(r.launched.value).stderr))
    ensures r.launched.Some? && run(r.launched.value).LaunchRaised? ==> r.reply == Failure(DispatchFault)
    // a clean exit with no non-blank stdout line, or whose last line does not parse
    ensures (r.launched.Some? && run(r.launched.value).Exited? && run(r.launched.value).returncode == 0 &&
             ResultLine(run(r.launched.value).stdout).None?) ==> r.reply == Failure(NoValidJson)
    ensures (r.launched.Some? && run(r.launched.value).Exited? && run(r.launched.value).returncode == 0 &&
             ResultLine(run(r.launched.value).stdout).Some? &&
             parse(ResultLine(run(r.launched.value).stdout).value).None?) ==> r.reply == Failure(DispatchFault)
    // a parsed reply is always the parse of the last non-blank stdout line of a clean exit
    ensures r.reply.Parsed? <==>
      r.launched.Some? && run(r.launched.value).Exited? && run(r.launched.value).returncode == 0 &&
      ResultLine(run(r.launched.value).stdout).Some? &&
      parse(ResultLine(run(r.launched.value).stdout).value).Some?
    ensures r.reply.Parsed? ==>
      Some(r.reply.value) == parse(ResultLine(run(r.launched.value).stdout).value)
  {
    if !EnvUsable(cfg, envKey) then Dispatched(Failure(EnvInvalid(envKey)), None)
    else
      var inv := Invocation(cfg.envs[envKey], PathJoin(cfg.baseDir, scriptRel), params.GetOr(map[]));
      var reply := match run(inv)
        case LaunchRaised => Failure(DispatchFault)
        case Exited(code, out, err) =>
          if code != 0 then Failure(SubprocessFailed(err))
          else match ResultLine(out)
            case None => Failure(NoValidJson)
            case Some(line) =>
              match parse(line)
              case None => Failure(DispatchFault)
              case Some(v) => Parsed(v);
      Dispatched(reply, Some(inv))
  }

  lemma {:induction false} NonBlankConcat(a: seq<string>, b: seq<string>)
    ensures NonBlank(a + b) == NonBlank(a) + NonBlank(b)
    decreases |a|
  {
    if |a| == 0 {
      assert a + b == b;
    } else {
      NonBlankConcat(a[1..], b);
      assert (a + b)[1..] == a[1..] + b;
    }
  }

  /** Left-stripping stops at the first non-blank character. */
  lemma {:induction false} StripLeftConcat(p: string, q: string)
    requires |q| > 0 && !IsSpace(q[0])
    ensures IsBlank(p) ==> StripLeft(p + q) == q
    ensures !IsBlank(p) ==> StripLeft(p + q) == StripLeft(p) + q
    decreases |p|
  {
    if |p| == 0 {
      assert p + q == q;
    } else {
      assert (p + q)[0] == p[0];
      assert (p + q)[1..] == p[1..] + q;
      StripLeftConcat(p[1..], q);
      if IsSpace(p[0]) {
        assert IsBlank(p[1..]) ==> IsBlank(p) by {
          if IsBlank(p[1..]) {
            forall i | 0 <= i < |p| ensures IsSpace(p[i]) {
              if i > 0 { assert p[i] == p[1..][i - 1]; }
            }
          }
        }
        assert IsBlank(p) ==> IsBlank(p[1..]) by {
          if IsBlank(p) {
            forall i | 0 <= i < |p| - 1 ensures IsSpace(p[1..][i]) {
              assert p[1..][i] == p[i + 1];
            }
          }
        }
      }
    }
  }

  lemma TrailingNewlineStripped(x: string)
    requires |x| > 0 && !IsSpace(x[|x| - 1])
    ensures StripRight(x + "\n") == x
  {
    assert (x + "\n")[..|x|] == x;
  }

  /** A line that is neither blank nor split is kept whole. */
  lemma LineKept(line: string)
    requires '\n' !in line && !IsBlank(line)
    ensures NonBlank(Split(line, '\n')) == [line]
  {
    SplitWithoutSeparator(line, '\n');
    assert NonBlank([line][1..]) == [];
  }

  lemma LastPieceKept(w: string, line: string)
    requires '\n' !in line && !IsBlank(line)
    ensures NonBlank(Split(w + "\n" + line, '\n')) == NonBlank(Split(w, '\n')) + [line]
  {
    assert w + "\n" + line == w + ['\n'] + line;
    SplitConcat(w, line, '\n');
    NonBlankConcat(Split(w, '\n'), Split(line, '\n'));
    LineKept(line);
  }

  /** Whatever a worker logs first, a final non-blank line that carries no
      surrounding whitespace is the line that is parsed. */
  lemma LastLineWins(logs: string, line: string)
    requires |line| > 0 && '\n' !in line && !IsSpace(line[0]) && !IsSpace(line[|line| - 1])
    ensures ResultLine(logs + "\n" + line + "\n") == Some(line)
  {
    var head := logs + "\n";
    var tail := line + "\n";
    assert logs + "\n" + line + "\n" == head + tail;
    assert !IsBlank(line) by { assert !IsSpace(line[0]); }
    var body := StrippedOutput(head, line);
    var kept := NonBlank(Split(body, '\n'));
    assert |kept| > 0 && kept[|kept| - 1] == line;
  }

  /** The last line kept from `body` is `line`. */
  predicate LastKeptIs(body: string, line: string) {
    var kept := NonBlank(Split(body, '\n'));
    |kept| > 0 && kept[|kept| - 1] == line
  }

  /** The stripped output of `head + line + "\n"`, and its kept lines ending in `line`. */
  lemma StrippedOutput(head: string, line: string) returns (body: string)
    requires |line| > 0 && '\n' !in line && !IsSpace(line[0]) && !IsSpace(line[|line| - 1])
    requires |head| > 0 && head[|head| - 1] == '\n'
    ensures Strip(head + (line + "\n")) == body
    ensures LastKeptIs(body, line)
  {
    assert !IsBlank(line) by { assert !IsSpace(line[0]); }
    var left := LeftStripped(head, line);
    if IsBlank(head) {
      body := StrippedLineOnly(line);
    } else {
      body := StrippedAfterLogs(StripLeft(head), line);
    }
  }

  /** Left-stripping `head + line + "\n"` removes at most the blank prefix of `head`. */
  lemma LeftStripped(head: string, line: string) returns (left: string)
    requires |line| > 0 && !IsSpace(line[0])
    ensures left == StripLeft(head + (line + "\n"))
    ensures IsBlank(head) ==> left == line + "\n"
    ensures !IsBlank(head) ==> left == StripLeft(head) + (line + "\n")
  {
    var tail := line + "\n";
    assert tail[0] == line[0];
    StripLeftConcat(head, tail);
    left := StripLeft(head + tail);
  }

  lemma StrippedLineOnly(line: string) returns (body: string)
    requires '\n' !in line && !IsBlank(line) && |line| > 0 && !IsSpace(line[|line| - 1])
    ensures StripRight(line + "\n") == body
    ensures LastKeptIs(body, line)
  {
    TrailingNewlineStripped(line);
    LineKept(line);
    body := line;
  }

  lemma StrippedAfterLogs(u: string, line: string) returns (body: string)
    requires |line| > 0 && '\n' !in line && !IsBlank(line) && !IsSpace(line[|line| - 1])
    requires |u| > 0 && u[|u| - 1] == '\n'
    ensures StripRight(u + (line + "\n")) == body
    ensures LastKeptIs(body, line)
  {
    var w := u[..|u| - 1];
    body := w + "\n" + line;
    assert u + (line + "\n") == body + "\n";
    assert body[|body| - 1] == line[|line| - 1];
    TrailingNewlineStripped(body);
    LastPieceKept(w, line);
  }

  /** The worked example of the protocol: two log lines, then the result. */
  lemma LogLinesIgnored()
    ensures ResultLine("log1\nlog2\n{}\n") == Some("{}")
  {
    assert "log1\nlog2\n{}\n" == "log1\nlog2" + "\n" + "{}" + "\n";
    LastLineWins("log1\nlog2", "{}");
  }

  /** The worker entry points: each one names one fixed environment key and
      script, with a fixed parameter shape. */
  datatype Expert =
    | VisualEye(image: ParamValue, prompt: ParamValue)
    | WhisperNode(audioId: ParamValue)
    | PdfExpert(pdfId: ParamValue)
    | Sandbox(expression: ParamValue, mode: ParamValue)
    | VideoSlicer(videoPath: ParamValue)

  /** `call_sandbox`'s default mode. */
  const DefaultSandboxMode: ParamValue := Str("eval")

  /** The (environment key, script path) pair each wrapper dispatches to. */
  function Route(e: Expert): (string, string) {
    match e
    case VisualEye(_, _) => ("visual_reasoning_env", "services/reasoning_eye/visual_wrapper.py")
    case WhisperNode(_) => ("audio_processing_env", "data_layer/audio_pro/audio_wrapper.py")
    case PdfExpert(_) => ("pdf_processing_env", "data_layer/pdf_pro/pdf_wrapper.py")
    case Sandbox(_, _) => ("scientific_env", "services/sandbox/sandbox_wrapper.py")
    case VideoSlicer(_) => ("video_vision_env", "data_layer/video_pro/video_wrapper.py")
  }

  /** The parameter dictionary each wrapper builds from its arguments. */
  function ExpertParams(e: Expert): Params {
    match e
    case VisualEye(image, prompt) => map["image" := image, "prompt" := prompt]
    case WhisperNode(a) => map["audio_id" := a]
    case PdfExpert(p) => map["pdf_id" := p]
    case Sandbox(x, m) => map["expression" := x, "mode" := m]
    case VideoSlicer(v) => map["video_path" := v]
  }

  /** `call_visual_eye` logs `os.path.basename(image_path)` before it
      dispatches, which raises `TypeError` out of the wrapper when the image
      is not a string; the other wrappers log nothing that can raise. */
  predicate WrapperRaises(e: Expert) {
    e.VisualEye? && !e.image.Str?
  }

  /** `call_visual_eye`, `call_whisper_node`, `call_pdf_expert`, `call_sandbox`,
      `call_video_slicer`: `None` when the wrapper raises before dispatching. */
  function CallExpert<J>(cfg: Config, e: Expert, run: Invocation -> Launch, parse: string -> Option<J>): (r: Option<Dispatched<J>>)
    ensures r.None? <==> e.VisualEye? && !e.image.Str?
    ensures r.Some? ==> (r.value.launched.Some? <==> EnvUsable(cfg, Route(e).0))
    ensures r.Some? ==> r.value == Dispatch(cfg, Route(e).0, Route(e).1, Some(ExpertParams(e)), run, parse)
    ensures r.Some? && r.value.launched.Some? ==>
      r.value.launched.value.script == PathJoin(cfg.baseDir, Route(e).1) && r.value.launched.value.params == ExpertParams(e)
    ensures r.Some? && r.value.launched.None? ==> r.value.reply == Failure(EnvInvalid(Route(e).0))
  {
    if WrapperRaises(e) then None
    else Some(Dispatch(cfg, Route(e).0, Route(e).1, Some(ExpertParams(e)), run, parse))
  }

  /** `call_sandbox(expression)` without a mode sends `"mode": "eval"` to the
      sandbox worker, next to the expression (`CallExpert` launches with
      these parameters). */
  lemma SandboxDefaultMode(expression: ParamValue)
    ensures var e := Sandbox(expression, DefaultSandboxMode);
      ExpertParams(e) == map["expression" := expression, "mode" := Str("eval")] &&
      Route(e) == ("scientific_env", "services/sandbox/sandbox_wrapper.py")
  {
  }

  /** Two wrappers of the same kind share the route and the parameter keys. */
  lemma RoutesByKind(a: Expert, b: Expert)
    ensures (a.VisualEye? == b.VisualEye? && a.WhisperNode? == b.WhisperNode? && a.PdfExpert? == b.PdfExpert?
             && a.Sandbox? == b.Sandbox?) ==> Route(a) == Route(b) && ExpertParams(a).Keys == ExpertParams(b).Keys
  {
  }

  /** Two wrappers of different kinds never share an environment key or a
      script. */
  lemma RoutesDistinct(a: Expert, b: Expert)
    ensures Route(a) == Route(b) || (Route(a).0 != Route(b).0 && Route(a).1 != Route(b).1)
  {
  }
}

=== FILE: vector_search.dfy ===
/** The re-ranking half of `AcademicSearcher.search` in
    data_layer/vector_search.py. The query embedding and the Milvus hit list
    are inputs; what is modelled is the filter, the over-fetch limit, the
    score boosts, the metadata projection, the sort and the top-k slice. */
module VectorSearch {
  import opened Wrappers
  import opened Text

  /** One Milvus hit: its similarity score and the requested output fields. */
  datatype Hit = Hit(score: real, assetName: Option<string>, modality: Option<string>,
                     contentType: Option<string>, contentRef: Option<string>, timestamp: Option<real>)

  /** The metadata record of one result. */
  datatype Metadata = Metadata(assetId: Option<string>, modality: Option<string>, kind: Option<string>,
                               timestamp: Option<real>, pageLabel: Option<real>)

  /** One formatted result; `score` is `round(score, 4)` in units of 1e-4. */
  datatype Ranked = Ranked(score: int, content: string, metadata: Metadata)

  /** The parameters of the Milvus search call that the post-processing depends on. */
  datatype MilvusQuery = MilvusQuery(filter: Option<string>, limit: int)

  /** The boost for a hit whose text contains the query. */
  const SubstringBoost: real := 0.15
  /** The boost for a video transcript hit. */
  const TranscriptBoost: real := 0.05

  /** The filter expression and over-fetch limit of the search call: a filter
      iff an asset id is given, and twice `top_k` hits. */
  function Query(assetId: Option<string>, topK: int): (q: MilvusQuery)
    ensures q.filter.Some? <==> assetId.Some? && assetId.value != ""
    ensures q.limit == topK * 2
  {
    MilvusQuery(if assetId.Some? && assetId.value != "" then Some("asset_name == \"" + assetId.value + "\"") else None,
                topK * 2)
  }

  /** `hit.entity.get("content_ref") or ""`. */
  function Content(h: Hit): string {
    h.contentRef.GetOr("")
  }

  /** A video transcript hit, which earns the transcript boost. */
  predicate IsTranscript(h: Hit) {
    h.modality == Some("video") && h.contentType == Some("transcript_context")
  }

  /** The boosted score before rounding. */
  function Boosted(queryLower: string, h: Hit): (r: real)
    ensures h.score <= r <= h.score + SubstringBoost + TranscriptBoost
    ensures Contains(Lower(Content(h)), queryLower) <==> r - h.score >= SubstringBoost
    ensures IsTranscript(h) <==> (r - h.score == TranscriptBoost || r - h.score == SubstringBoost + TranscriptBoost)
    // and nothing else moves the score
    ensures !Contains(Lower(Content(h)), queryLower) && !IsTranscript(h) ==> r == h.score
    ensures Contains(Lower(Content(h)), queryLower) && !IsTranscript(h) ==> r == h.score + SubstringBoost
  {
    var s := h.score;
    var s := if Contains(Lower(Content(h)), queryLower) then s + SubstringBoost else s;
    if IsTranscript(h) then s + TranscriptBoost else s
  }

  /** Python's `round(x, 4)` in units of 1e-4: the nearest integer to
      `x * 10000`, ties to even. */
  function Round4(x: real): (n: int)
    ensures (n as real) - 0.5 <= x * 10000.0 <= (n as real) + 0.5
    ensures x * 10000.0 - (n as real) == 0.5 || (n as real) - x * 10000.0 == 0.5 ==> n % 2 == 0
  {
    var y := x * 10000.0;
    var f := y.Floor;
    var d := y - f as real;
    if d < 0.5 then f else if d > 0.5 then f + 1 else if f % 2 == 0 then f else f + 1
  }

  /** The record built for one hit. */
  function Format(queryLower: string, h: Hit): (r: Ranked)
    ensures r.content == Content(h)
    ensures r.metadata.assetId == h.assetName && r.metadata.modality == h.modality && r.metadata.kind == h.contentType
    ensures r.metadata.timestamp == (if h.modality == Some("video") then h.timestamp else None)
    ensures r.metadata.pageLabel == (if h.modality == Some("pdf") then h.timestamp else None)
    ensures r.metadata.timestamp.None? || r.metadata.pageLabel.None?
  {
    Ranked(Round4(Boosted(queryLower, h)), Content(h),
           Metadata(h.assetName, h.modality, h.contentType,
                    if h.modality == Some("video") then h.timestamp else None,
                    if h.modality == Some("pdf") then h.timestamp else None))
  }

  /** The formatted records of every hit, in hit order. */
  function FormatAll(queryLower: string, hits: seq<Hit>): (r: seq<Ranked>)
    ensures |r| == |hits| && forall k :: 0 <= k < |hits| ==> r[k] == Format(queryLower, hits[k])
  {
    seq(|hits|, k requires 0 <= k < |hits| => Format(queryLower, hits[k]))
  }

  predicate SortedDesc(s: seq<Ranked>) {
    forall i, j :: 0 <= i < j < |s| ==> s[i].score >= s[j].score
  }

  /** Puts `x` before the first element it does not rank below. */
  function Insert(x: Ranked, s: seq<Ranked>): seq<Ranked> {
    if |s| == 0 || x.score >= s[0].score then [x] + s else [s[0]] + Insert(x, s[1..])
  }

  /** `sorted(results, key=score, reverse=True)`: a stable insertion sort. */
  function SortDesc(s: seq<Ranked>): seq<Ranked> {
    if |s| == 0 then [] else Insert(s[0], SortDesc(s[1..]))
  }

  lemma {:induction false} InsertCorrect(x: Ranked, s: seq<Ranked>)
    requires SortedDesc(s)
    ensures SortedDesc(Insert(x, s))
    ensures multiset(Insert(x, s)) == multiset(s) + multiset{x}
    ensures |Insert(x, s)| == |s| + 1
    ensures Insert(x, s)[0] == x || (|s| > 0 && Insert(x, s)[0] == s[0])
  {
    InsertPermutes(x, s);
    if |s| > 0 {
      HeadDominates(s);
      if x.score < s[0].score {
        var t := Insert(x, s[1..]);
        InsertCorrect(x, s[1..]);
        assert Insert(x, s) == [s[0]] + t;
        forall y | y in t ensures s[0].score >= y.score {
          InsertPermutes(x, s[1..]);
          assert y in multiset(t);
        }
        ConsSorted(s[0], t);
      } else {
        assert Insert(x, s) == [x] + s;
        ConsSorted(x, s);
      }
    }
  }

  /** Inserting adds exactly `x`, and the result starts with `x` or with the old head. */
  lemma {:induction false} InsertPermutes(x: Ranked, s: seq<Ranked>)
    ensures multiset(Insert(x, s)) == multiset(s) + multiset{x}
    ensures |Insert(x, s)| == |s| + 1
    ensures Insert(x, s)[0] == x || (|s| > 0 && Insert(x, s)[0] == s[0])
  {
    if |s| > 0 && x.score < s[0].score {
      InsertPermutes(x, s[1..]);
      assert s == [s[0]] + s[1..];
      assert Insert(x, s) == [s[0]] + Insert(x, s[1..]);
    }
  }

  /** The head of a non-increasing sequence ranks at least as high as every element. */
  lemma HeadDominates(s: seq<Ranked>)
    requires |s| > 0 && SortedDesc(s)
    ensures forall y :: y in s ==> s[0].score >= y.score
  {
    forall y | y in s ensures s[0].score >= y.score {
      var k :| 0 <= k < |s| && s[k] == y;
    }
  }

  /** A head that ranks above every element of a non-increasing tail keeps it non-increasing. */
  lemma ConsSorted(h: Ranked, t: seq<Ranked>)
    requires SortedDesc(t) && forall y :: y in t ==> h.score >= y.score
    ensures SortedDesc([h] + t)
  {
    forall i, j | 0 <= i < j < |[h] + t| ensures ([h] + t)[i].score >= ([h] + t)[j].score {
      assert ([h] + t)[j] == t[j - 1];
      if i > 0 {
        assert ([h] + t)[i] == t[i - 1];
      }
    }
  }

  /** The sort gives a non-increasing permutation of its input. */
  lemma {:induction false} SortDescCorrect(s: seq<Ranked>)
    ensures SortedDesc(SortDesc(s))
    ensures multiset(SortDesc(s)) == multiset(s)
    ensures |SortDesc(s)| == |s|
  {
    if |s| > 0 {
      SortDescCorrect(s[1..]);
      InsertCorrect(s[0], SortDesc(s[1..]));
      assert s == [s[0]] + s[1..];
    }
  }

  /** Python's `lst[:k]`, negative `k` counting from the end. */
  function SliceTo<T>(s: seq<T>, k: int): (r: seq<T>)
    ensures k >= 0 ==> |r| == if k <= |s| then k else |s|
    ensures |r| <= |s| && r == s[..|r|]
  {
    if k >= 0 then (if k <= |s| then s[..k] else s)
    else if -k <= |s| then s[..|s| + k] else []
  }

  /** The search post-processing: boost and project every hit, sort by score
      descending, keep the first `top_k`. */
  method Search(query: string, topK: int, hits: seq<Hit>) returns (results: seq<Ranked>)
    ensures results == SliceTo(SortDesc(FormatAll(Lower(query), hits)), topK)
    ensures SortedDesc(results)
    ensures topK >= 0 ==> |results| == if topK <= |hits| then topK else |hits|
    ensures multiset(results) <= multiset(FormatAll(Lower(query), hits))
    ensures forall r :: r in results ==> exists k :: 0 <= k < |hits| && r == Format(Lower(query), hits[k])
  {
    var formatted: seq<Ranked> := [];
    var queryLower := Lower(query);
    for i := 0 to |hits|
      invariant |formatted| == i
      invariant forall k :: 0 <= k < i ==> formatted[k] == Format(queryLower, hits[k])
    {
      var record := FormatHit(queryLower, hits[i]);
      formatted := formatted + [record];
    }
    assert formatted == FormatAll(queryLower, hits);
    var sorted := SortDesc(formatted);
    results := SliceTo(sorted, topK);
    TopOfSorted(formatted, topK);
    FormattedFromHits(queryLower, hits, results);
  }

  /** One iteration of the search loop: the boosted, projected record of a hit. */
  method FormatHit(queryLower: string, hit: Hit) returns (record: Ranked)
    ensures record == Format(queryLower, hit)
  {
    var content := Content(hit);
    var score := hit.score;
    if Contains(Lower(content), queryLower) {
      score := score + SubstringBoost;
    }
    if hit.modality == Some("video") && hit.contentType == Some("transcript_context") {
      score := score + TranscriptBoost;
    }
    var metadata := Metadata(hit.assetName, hit.modality, hit.contentType,
                             if hit.modality == Some("video") then hit.timestamp else None,
                             if hit.modality == Some("pdf") then hit.timestamp else None);
    record := Ranked(Round4(score), content, metadata);
  }

  /** The first `k` records of the sorted list are sorted and drawn from the input. */
  lemma TopOfSorted(s: seq<Ranked>, k: int)
    ensures SortedDesc(SliceTo(SortDesc(s), k))
    ensures multiset(SliceTo(SortDesc(s), k)) <= multiset(s)
    ensures k >= 0 ==> |SliceTo(SortDesc(s), k)| == if k <= |s| then k else |s|
  {
    var sorted := SortDesc(s);
    SortDescCorrect(s);
    var top := SliceTo(sorted, k);
    assert sorted == top + sorted[|top|..];
    assert multiset(sorted) == multiset(top) + multiset(sorted[|top|..]);
    forall i, j | 0 <= i < j < |top| ensures top[i].score >= top[j].score {
      assert top[i] == sorted[i] && top[j] == sorted[j];
    }
  }

  /** Records drawn from the formatted hits are formatted hits. */
  lemma FormattedFromHits(queryLower: string, hits: seq<Hit>, results: seq<Ranked>)
    requires multiset(results) <= multiset(FormatAll(queryLower, hits))
    ensures forall r :: r in results ==> exists k :: 0 <= k < |hits| && r == Format(queryLower, hits[k])
  {
    var formatted := FormatAll(queryLower, hits);
    forall r | r in results ensures exists k :: 0 <= k < |hits| && r == Format(queryLower, hits[k]) {
      assert r in multiset(results);
      assert r in multiset(formatted);
      var k :| 0 <= k < |formatted| && formatted[k] == r;
    }
  }
}

=== FILE: video_slicer.dfy ===
/** `VideoSlicer` of services/video_vision/video_slicer.py: picks the raw
    videos to process, transcodes each to a standard mp4 once, and keeps as
    keyframes the sampled frames that differ enough from the previous
    sample and come late enough after the previous keyframe. FFmpeg's
    outcome, the frame rate, the decoded frames and the difference score
    of two frames are inputs. */
module VideoSlicer {
  import opened Wrappers
  import opened Text
  import opened Storage
  import opened JsonValue

  const ValidExtensions: seq<string> := [".mp4", ".mkv", ".avi", ".mov", ".flv"]
  const DefaultFps: real := 25.0

  /** The `slicer` section of the video configuration. */
  datatype SlicerConfig = SlicerConfig(sampleRate: real, frameDiffThreshold: real, minInterval: real)

  /** How the FFmpeg run ends: success, a nonzero exit (`CalledProcessError`),
      or any other exception. */
  datatype Transcode = Transcoded | TranscodeFailed | TranscodeRaised

  /** What the outside world gives for one video. */
  datatype VideoInput<G> = VideoInput(transcode: Transcode, fps: real, frames: seq<G>)

  /** How `process_single_video` ends, as `run_batch` sees it. */
  datatype VideoOutcome = NotTranscoded | Keyframes(frames: seq<nat>, times: seq<real>) | VideoRaised

  /** `name.rfind('.')`. */
  function LastDot(name: string): (r: int)
    ensures -1 <= r < |name|
    ensures r >= 0 ==> name[r] == '.' && forall k :: r < k < |name| ==> name[k] != '.'
    ensures r == -1 ==> forall k :: 0 <= k < |name| ==> name[k] != '.'
  {
    if |name| == 0 then -1
    else if name[|name| - 1] == '.' then |name| - 1
    else LastDot(name[..|name| - 1])
  }

  /** `Path.suffix`: from the last dot, unless the dot leads or ends the name. */
  function Suffix(name: string): (r: string)
    ensures r == "" || (|r| >= 2 && r[0] == '.' && '.' !in r[1..] && |r| < |name|)
    ensures r != "" ==> r == name[|name| - |r|..]
    ensures 0 < LastDot(name) < |name| - 1 ==> r == name[LastDot(name)..]
  {
    var i := LastDot(name);
    if 0 < i < |name| - 1 then name[i..] else ""
  }

  /** `Path.stem`: the name without its suffix. */
  function Stem(name: string): (r: string)
    ensures |r| <= |name|
  {
    var i := LastDot(name);
    if 0 < i < |name| - 1 then name[..i] else name
  }

  /** The stem and the suffix make up the name. */
  lemma StemSuffix(name: string)
    ensures Stem(name) + Suffix(name) == name
  {
    var i := LastDot(name);
    if 0 < i < |name| - 1 {
      assert name[..i] + name[i..] == name;
    }
  }

  /** The batch keeps a file iff its lower-cased suffix is a video extension. */
  predicate IsVideoFile(name: string) {
    Lower(Suffix(name)) in ValidExtensions
  }

  /** A video is skipped only when its standard mp4 and a frames folder
      holding a `.jpg` both exist; the answer depends on the name only
      through its stem, so `a.mp4` and `a.mkv` share one output folder. */
  lemma ShouldProcessByStem(fs: Fs<Doc>, processedDir: Path, a: string, b: string)
    ensures !ShouldProcess(fs, processedDir, a) ==>
      fs.Exists(processedDir + [Stem(a), Stem(a) + ".standard.mp4"]) &&
      exists k :: 0 <= k < |fs.Entries(processedDir + [Stem(a), "frames"])| &&
        EndsWith(fs.Entries(processedDir + [Stem(a), "frames"])[k], ".jpg")
    ensures Stem(a) == Stem(b) ==> ShouldProcess(fs, processedDir, a) == ShouldProcess(fs, processedDir, b)
  {
    var folder := processedDir + [Stem(a)];
    assert folder + [Stem(a) + ".standard.mp4"] == processedDir + [Stem(a), Stem(a) + ".standard.mp4"];
    assert folder + ["frames"] == processedDir + [Stem(a), "frames"];
  }

  /** A name matches `*.jpg`. */
  predicate IsJpg(name: string) {
    EndsWith(name, ".jpg")
  }

  /** `_should_process`: false iff the standard mp4 exists, the frames
      folder exists, and it holds at least one `.jpg`. */
  predicate ShouldProcess(fs: Fs<Doc>, processedDir: Path, name: string) {
    var folder := processedDir + [Stem(name)];
    var frames := folder + ["frames"];
    !(fs.Exists(folder + [Stem(name) + ".standard.mp4"]) && fs.Exists(frames) && HasJpg(fs.Entries(frames)))
  }

  /** `any(folder.glob("*.jpg"))` over the names of a folder. */
  predicate HasJpg(names: seq<string>) {
    exists k :: 0 <= k < |names| && IsJpg(names[k])
  }

  /** Python's `int()` on a float: truncation toward zero. */
  function Trunc(x: real): (r: int)
    ensures x >= 0.0 ==> r as real <= x < r as real + 1.0
    ensures x < 0.0 ==> r as real - 1.0 < x <= r as real
  {
    if x >= 0.0 then x.Floor else -((-x).Floor)
  }

  /** `int(fps / sample_rate)`; 0 stands for the division by zero raised by
      a zero sample rate or by `count % 0`. */
  function Stride(fps: real, sampleRate: real): int {
    if sampleRate == 0.0 then 0 else Trunc(fps / sampleRate)
  }

  /** `cap.get(CAP_PROP_FPS)`, with 25 in place of a non-positive rate. */
  function EffectiveFps(fps: real): (r: real)
    ensures r > 0.0
    ensures fps > 0.0 ==> r == fps
    ensures fps <= 0.0 ==> r == DefaultFps
  {
    if fps <= 0.0 then DefaultFps else fps
  }

  /** The state of the frame loop: the last sampled frame, the time of the
      last keyframe, the keyframes so far, and whether the loop raised. */
  datatype Slicing<G> = Slicing(prev: Option<G>, lastSaved: real, saved: seq<nat>, raised: bool)

  /** The frame loop over `frames`. */
  function Slice<G>(frames: seq<G>, fps: real, stride: int, cfg: SlicerConfig, score: (G, G) -> real): (r: Slicing<G>)
    requires fps > 0.0
    // `count % 0` raises on the first frame, and nothing else raises
    ensures r.raised <==> stride == 0 && |frames| > 0
    ensures |r.saved| <= |frames|
    decreases |frames|
  {
    if |frames| == 0 then Slicing(None, -cfg.minInterval, [], false)
    else
      var count := |frames| - 1;
      var st := Slice(frames[..count], fps, stride, cfg, score);
      if st.raised then st
      else if stride == 0 then st.(raised := true)
      else if count % stride != 0 then st
      else
        var gray := frames[count];
        var timestamp := count as real / fps;
        if st.prev.Some? && score(st.prev.value, gray) > cfg.frameDiffThreshold && timestamp - st.lastSaved > cfg.minInterval
        then Slicing(Some(gray), timestamp, st.saved + [count], false)
        else st.(prev := Some(gray))
  }

  /** Keyframes are sampled frames (never the first sample), in increasing
      order, each more than `min_interval` after the previous one, and
      `lastSaved` is the time of the last of them. */
  predicate KeyframesSpaced(saved: seq<nat>, lastSaved: real, fps: real, stride: int, cfg: SlicerConfig)
    requires fps > 0.0
  {
    (forall k :: 0 <= k < |saved| ==> stride != 0 && saved[k] % stride == 0 && saved[k] > 0) &&
    (forall k :: 0 < k < |saved| ==>
       (saved[k - 1] < saved[k] && saved[k] as real / fps - saved[k - 1] as real / fps > cfg.minInterval)) &&
    (|saved| == 0 ==> lastSaved == -cfg.minInterval) &&
    (|saved| > 0 ==> lastSaved == saved[|saved| - 1] as real / fps)
  }

  /** The loop state after `n` frames: keyframes spaced and below `n`, and
      none before the first sample. */
  predicate SpacedState<G>(st: Slicing<G>, n: int, fps: real, stride: int, cfg: SlicerConfig)
    requires fps > 0.0
  {
    KeyframesSpaced(st.saved, st.lastSaved, fps, stride, cfg) &&
    (forall k :: 0 <= k < |st.saved| ==> st.saved[k] < n) &&
    (st.prev.None? ==> st.saved == [])
  }

  /** The frame loop only keeps keyframes that satisfy the spacing rule. */
  lemma {:induction false} SliceSpaced<G>(frames: seq<G>, fps: real, stride: int, cfg: SlicerConfig, score: (G, G) -> real)
    requires fps > 0.0
    ensures SpacedState(Slice(frames, fps, stride, cfg, score), |frames|, fps, stride, cfg)
    decreases |frames|
  {
    if |frames| > 0 {
      SliceSpaced(frames[..|frames| - 1], fps, stride, cfg, score);
      SliceStepSpaced(frames, fps, stride, cfg, score);
    }
  }

  /** One step of the frame loop keeps the keyframes spaced. */
  lemma SliceStepSpaced<G>(frames: seq<G>, fps: real, stride: int, cfg: SlicerConfig, score: (G, G) -> real)
    requires fps > 0.0 && |frames| > 0
    requires SpacedState(Slice(frames[..|frames| - 1], fps, stride, cfg, score), |frames| - 1, fps, stride, cfg)
    ensures SpacedState(Slice(frames, fps, stride, cfg, score), |frames|, fps, stride, cfg)
  {
    var count := |frames| - 1;
    var st := Slice(frames[..count], fps, stride, cfg, score);
    var next := Slice(frames, fps, stride, cfg, score);
    if !st.raised && stride != 0 && count % stride == 0 {
      var timestamp := count as real / fps;
      if st.prev.Some? && score(st.prev.value, frames[count]) > cfg.frameDiffThreshold && timestamp - st.lastSaved > cfg.minInterval {
        assert next == Slicing(Some(frames[count]), timestamp, st.saved + [count], false);
        SaveStepSpaced(st, next, count, fps, stride, cfg);
      } else {
        assert next == st.(prev := Some(frames[count]));
        UnsavedStepSpaced(st, next, count, fps, stride, cfg);
      }
    } else {
      assert next.saved == st.saved && next.lastSaved == st.lastSaved && next.prev == st.prev;
      UnsavedStepSpaced(st, next, count, fps, stride, cfg);
    }
  }

  /** A step that saves nothing keeps the state spaced. */
  lemma UnsavedStepSpaced<G>(st: Slicing<G>, next: Slicing<G>, count: nat, fps: real, stride: int, cfg: SlicerConfig)
    requires fps > 0.0 && SpacedState(st, count, fps, stride, cfg)
    requires next.saved == st.saved && next.lastSaved == st.lastSaved && (next.prev.None? ==> st.prev.None?)
    ensures SpacedState(next, count + 1, fps, stride, cfg)
  {
  }

  /** Frame 0 never passes the interval rule: before any keyframe the last
      keyframe time is `-min_interval`. */
  lemma FirstFrameNotSaved<G>(st: Slicing<G>, count: nat, fps: real, stride: int, cfg: SlicerConfig)
    requires fps > 0.0 && SpacedState(st, count, fps, stride, cfg)
    ensures count == 0 ==> !(count as real / fps - st.lastSaved > cfg.minInterval)
  {
    if |st.saved| > 0 {
      assert st.saved[0] < count;
    }
    if count == 0 {
      assert count as real / fps == 0.0;
    }
  }

  /** A step that saves frame `count` keeps the state spaced. */
  lemma SaveStepSpaced<G>(st: Slicing<G>, next: Slicing<G>, count: nat, fps: real, stride: int, cfg: SlicerConfig)
    requires fps > 0.0 && SpacedState(st, count, fps, stride, cfg)
    requires st.prev.Some? && stride != 0 && count % stride == 0 && count as real / fps - st.lastSaved > cfg.minInterval
    requires next.prev.Some? && next == Slicing(next.prev, count as real / fps, st.saved + [count], false)
    ensures SpacedState(next, count + 1, fps, stride, cfg)
  {
    FirstFrameNotSaved(st, count, fps, stride, cfg);
    SaveKeepsSpacing(st.saved, st.lastSaved, count, fps, stride, cfg);
    assert next.saved[|st.saved|] == count;
  }

  /** Appending a sampled frame that passes the interval rule keeps the spacing. */
  lemma SaveKeepsSpacing(saved: seq<nat>, lastSaved: real, count: nat, fps: real, stride: int, cfg: SlicerConfig)
    requires fps > 0.0 && KeyframesSpaced(saved, lastSaved, fps, stride, cfg)
    requires forall k :: 0 <= k < |saved| ==> saved[k] < count
    requires count > 0 && stride != 0 && count % stride == 0
    requires count as real / fps - lastSaved > cfg.minInterval
    ensures KeyframesSpaced(saved + [count], count as real / fps, fps, stride, cfg)
  {
    var s := saved + [count];
    forall k | 0 < k < |s|
      ensures s[k - 1] < s[k] && s[k] as real / fps - s[k - 1] as real / fps > cfg.minInterval
    {
      if k == |saved| {
        assert s[k - 1] == saved[|saved| - 1];
      } else {
        assert s[k - 1] == saved[k - 1] && s[k] == saved[k];
      }
    }
  }

  /** A frame is a keyframe exactly when the rule held for it at its turn:
      it was sampled, a previous sample existed, the score passed the
      threshold and the interval since the last keyframe passed the minimum. */
  lemma SavedWhenRuleHolds<G>(frames: seq<G>, fps: real, stride: int, cfg: SlicerConfig, score: (G, G) -> real)
    requires |frames| > 0 && fps > 0.0
    ensures var count := |frames| - 1;
      var st := Slice(frames[..count], fps, stride, cfg, score);
      var r := Slice(frames, fps, stride, cfg, score);
      (|r.saved| == |st.saved| + 1 && r.saved[|st.saved|] == count) <==>
        (!st.raised && stride != 0 && count % stride == 0 && st.prev.Some? &&
         score(st.prev.value, frames[count]) > cfg.frameDiffThreshold &&
         count as real / fps - st.lastSaved > cfg.minInterval)
  {
  }

  /** The frame loop of `process_single_video`. */
  method SliceFrames<G>(frames: seq<G>, fps: real, cfg: SlicerConfig, score: (G, G) -> real)
    returns (saved: seq<nat>, raised: bool)
    requires fps > 0.0
    ensures var st := Slice(frames, fps, Stride(fps, cfg.sampleRate), cfg, score);
      saved == st.saved && raised == st.raised
    ensures !raised ==> KeyframesSpaced(saved, Slice(frames, fps, Stride(fps, cfg.sampleRate), cfg, score).lastSaved, fps, Stride(fps, cfg.sampleRate), cfg)
  {
    var lastSavedTime := -cfg.minInterval;
    var prevGray: Option<G> := None;
    var count := 0;
    saved, raised := [], false;
    ghost var stride := Stride(fps, cfg.sampleRate);
    while count < |frames|
      invariant 0 <= count <= |frames|
      invariant Slice(frames[..count], fps, stride, cfg, score) == Slicing(prevGray, lastSavedTime, saved, false)
    {
      assert frames[..count + 1][..count] == frames[..count];
      var gray := frames[count];
      var timestamp := count as real / fps;
      if cfg.sampleRate == 0.0 {
        raised := true;
        break;
      }
      var step := Trunc(fps / cfg.sampleRate);
      if step == 0 {
        raised := true;
        break;
      }
      if count % step == 0 {
        if prevGray.Some? {
          var s := score(prevGray.value, gray);
          if s > cfg.frameDiffThreshold && timestamp - lastSavedTime > cfg.minInterval {
            lastSavedTime := timestamp;
            saved := saved + [count];
          }
        }
        prevGray := Some(gray);
      }
      count := count + 1;
    }
    if raised {
      SliceRaisedStays(frames, count + 1, fps, stride, cfg, score);
    } else {
      assert frames[..count] == frames;
      SliceSpaced(frames, fps, stride, cfg, score);
    }
  }

  /** Once the frame loop has raised, later frames change nothing. */
  lemma {:induction false} SliceRaisedStays<G>(frames: seq<G>, i: nat, fps: real, stride: int, cfg: SlicerConfig, score: (G, G) -> real)
    requires fps > 0.0 && i <= |frames| && Slice(frames[..i], fps, stride, cfg, score).raised
    ensures Slice(frames, fps, stride, cfg, score) == Slice(frames[..i], fps, stride, cfg, score)
    decreases |frames| - i
  {
    if i < |frames| {
      assert frames[..|frames| - 1][..i] == frames[..i];
      SliceRaisedStays(frames[..|frames| - 1], i, fps, stride, cfg, score);
    } else {
      assert frames[..i] == frames;
    }
  }

  /** `process_single_video` as `run_batch` sees it: an existing standard
      mp4 is used as is; a failed transcode ends the video without slicing. */
  function SingleVideo<G>(fs: Fs<Doc>, processedDir: Path, name: string, input: VideoInput<G>,
                          cfg: SlicerConfig, score: (G, G) -> real): (r: VideoOutcome)
    ensures var mp4 := processedDir + [Stem(name), Stem(name) + ".standard.mp4"];
      r == NotTranscoded <==> !fs.Exists(mp4) && input.transcode == TranscodeFailed
    ensures var mp4 := processedDir + [Stem(name), Stem(name) + ".standard.mp4"];
      (fs.Exists(mp4) || input.transcode == Transcoded) ==>
        (r.VideoRaised? <==> Stride(EffectiveFps(input.fps), cfg.sampleRate) == 0 && |input.frames| > 0)
    // each keyframe is reported with its time in seconds
    ensures r.Keyframes? ==>
      |r.times| == |r.frames| <= |input.frames| &&
      forall k :: 0 <= k < |r.frames| ==> r.times[k] == r.frames[k] as real / EffectiveFps(input.fps)
  {
    var mp4 := processedDir + [Stem(name), Stem(name) + ".standard.mp4"];
    if !fs.Exists(mp4) && input.transcode == TranscodeFailed then NotTranscoded
    else if !fs.Exists(mp4) && input.transcode == TranscodeRaised then VideoRaised
    else
      var fps := EffectiveFps(input.fps);
      var st := Slice(input.frames, fps, Stride(fps, cfg.sampleRate), cfg, score);
      if st.raised then VideoRaised
      else Keyframes(st.saved, seq(|st.saved|, k requires 0 <= k < |st.saved| => st.saved[k] as real / fps))
  }

  /** An existing standard mp4 is never transcoded again. */
  lemma ExistingMp4NotTranscoded<G>(fs: Fs<Doc>, processedDir: Path, name: string, input: VideoInput<G>,
                                    cfg: SlicerConfig, score: (G, G) -> real)
    requires fs.Exists(processedDir + [Stem(name), Stem(name) + ".standard.mp4"])
    ensures SingleVideo(fs, processedDir, name, input, cfg, score) == SingleVideo(fs, processedDir, name, input.(transcode := TranscodeFailed), cfg, score)
  {
  }

  /** `process_single_video`. */
  method ProcessSingleVideo<G>(fs: Fs<Doc>, processedDir: Path, name: string, input: VideoInput<G>,
                               cfg: SlicerConfig, score: (G, G) -> real)
    returns (outcome: VideoOutcome)
    ensures outcome == SingleVideo(fs, processedDir, name, input, cfg, score)
  {
    var videoId := Stem(name);
    var outputMp4 := processedDir + [videoId] + [videoId + ".standard.mp4"];
    assert outputMp4 == processedDir + [Stem(name), Stem(name) + ".standard.mp4"];
    if !fs.Exists(outputMp4) {
      match input.transcode
      case TranscodeFailed => return NotTranscoded;
      case TranscodeRaised => return VideoRaised;
      case Transcoded =>
    }
    var fps := input.fps;
    if fps <= 0.0 {
      fps := DefaultFps;
    }
    var saved, raised := SliceFrames(input.frames, fps, cfg, score);
    if raised {
      return VideoRaised;
    }
    outcome := Keyframes(saved, seq(|saved|, k requires 0 <= k < |saved| => saved[k] as real / fps));
  }

  /** The video files of the raw folder, in listing order. */
  function VideoFiles(names: seq<string>): (r: seq<string>)
    ensures |r| <= |names|
    ensures |names| == 1 ==> r == (if IsVideoFile(names[0]) then names else [])
    ensures forall k :: 0 <= k < |r| ==> IsVideoFile(r[k]) && r[k] in names
  {
    if |names| == 0 then []
    else VideoFiles(names[..|names| - 1]) + (if IsVideoFile(names[|names| - 1]) then [names[|names| - 1]] else [])
  }

  /** The filter keeps the listing order: filtering a listing split in two
      gives the filtered first part followed by the filtered second part
      (with the one-name case of `VideoFiles`, this pins the result). */
  lemma {:induction false} VideoFilesConcat(a: seq<string>, b: seq<string>)
    ensures VideoFiles(a + b) == VideoFiles(a) + VideoFiles(b)
    decreases |b|
  {
    if |b| == 0 {
      assert a + b == a;
    } else {
      var b' := b[..|b| - 1];
      assert (a + b)[..|a + b| - 1] == a + b';
      assert (a + b)[|a + b| - 1] == b[|b| - 1];
      VideoFilesConcat(a, b');
    }
  }

  /** Every video file of the listing is kept. */
  lemma {:induction false} VideoFilesComplete(names: seq<string>, k: int)
    requires 0 <= k < |names| && IsVideoFile(names[k])
    ensures names[k] in VideoFiles(names)
    decreases |names|
  {
    if k < |names| - 1 {
      VideoFilesComplete(names[..|names| - 1], k);
    }
  }

  /** What `run_batch` records for the videos `videos`, in order: one
      outcome for each video that needs processing. */
  function BatchResults<G>(fs: Fs<Doc>, processedDir: Path, videos: seq<string>, inputs: string -> VideoInput<G>,
                           cfg: SlicerConfig, score: (G, G) -> real): seq<(string, VideoOutcome)>
  {
    if |videos| == 0 then []
    else
      var v := videos[|videos| - 1];
      BatchResults(fs, processedDir, videos[..|videos| - 1], inputs, cfg, score) +
        (if ShouldProcess(fs, processedDir, v) then [(v, SingleVideo(fs, processedDir, v, inputs(v), cfg, score))] else [])
  }

  /** `run_batch`. */
  method RunBatch<G>(fs: Fs<Doc>, rawDir: Path, processedDir: Path, inputs: string -> VideoInput<G>,
                     cfg: SlicerConfig, score: (G, G) -> real)
    returns (results: seq<(string, VideoOutcome)>)
    ensures results == BatchResults(fs, processedDir, VideoFiles(fs.Entries(rawDir)), inputs, cfg, score)
  {
    var videoFiles := VideoFiles(fs.Entries(rawDir));
    results := [];
    if |videoFiles| == 0 {
      return;
    }
    results := ProcessVideos(fs, processedDir, videoFiles, inputs, cfg, score);
  }

  /** The loop of `run_batch` over the listed video files. */
  method ProcessVideos<G>(fs: Fs<Doc>, processedDir: Path, videoFiles: seq<string>, inputs: string -> VideoInput<G>,
                          cfg: SlicerConfig, score: (G, G) -> real)
    returns (results: seq<(string, VideoOutcome)>)
    ensures results == BatchResults(fs, processedDir, videoFiles, inputs, cfg, score)
  {
    results := [];
    for idx := 0 to |videoFiles|
      invariant results == BatchResults(fs, processedDir, videoFiles[..idx], inputs, cfg, score)
    {
      var prefix := videoFiles[..idx + 1];
      assert prefix[..idx] == videoFiles[..idx] && prefix[idx] == videoFiles[idx];
      results := BatchStep(fs, processedDir, videoFiles[idx], inputs, cfg, score, results);
    }
    assert videoFiles[..|videoFiles|] == videoFiles;
  }

  /** One iteration of the batch loop: a video that needs processing has its
      outcome recorded after the earlier ones. */
  method BatchStep<G>(fs: Fs<Doc>, processedDir: Path, vFile: string, inputs: string -> VideoInput<G>,
                      cfg: SlicerConfig, score: (G, G) -> real, before: seq<(string, VideoOutcome)>)
    returns (results: seq<(string, VideoOutcome)>)
    ensures results == before + (if ShouldProcess(fs, processedDir, vFile) then [(vFile, SingleVideo(fs, processedDir, vFile, inputs(vFile), cfg, score))] else [])
  {
    results := before;
    if ShouldProcess(fs, processedDir, vFile) {
      var outcome := ProcessSingleVideo(fs, processedDir, vFile, inputs(vFile), cfg, score);
      results := results + [(vFile, outcome)];
    }
  }

  /** Each recorded outcome belongs to a video that needed processing and is
      that video's own outcome: an exception in one video affects no other. */
  lemma {:induction false} BatchIsolated<G>(fs: Fs<Doc>, processedDir: Path, videos: seq<string>, inputs: string -> VideoInput<G>,
                                            cfg: SlicerConfig, score: (G, G) -> real)
    ensures var r := BatchResults(fs, processedDir, videos, inputs, cfg, score);
      |r| <= |videos| &&
      forall k :: 0 <= k < |r| ==>
        (r[k].0 in videos && ShouldProcess(fs, processedDir, r[k].0) &&
         r[k].1 == SingleVideo(fs, processedDir, r[k].0, inputs(r[k].0), cfg, score))
    decreases |videos|
  {
    if |videos| > 0 {
      var init := videos[..|videos| - 1];
      BatchIsolated(fs, processedDir, init, inputs, cfg, score);
      var r := BatchResults(fs, processedDir, videos, inputs, cfg, score);
      var r0 := BatchResults(fs, processedDir, init, inputs, cfg, score);
      forall k | 0 <= k < |r|
        ensures r[k].0 in videos
      {
        if k < |r0| {
          assert r[k] == r0[k] && r0[k].0 in init;
        }
      }
    }
  }

  /** Every video that needs processing gets an outcome, whatever the
      outcomes of the videos before it. */
  lemma {:induction false} BatchComplete<G>(fs: Fs<Doc>, processedDir: Path, videos: seq<string>, inputs: string -> VideoInput<G>,
                                            cfg: SlicerConfig, score: (G, G) -> real, j: int)
    requires 0 <= j < |videos| && ShouldProcess(fs, processedDir, videos[j])
    ensures exists k ::
      (0 <= k < |BatchResults(fs, processedDir, videos, inputs, cfg, score)| &&
       BatchResults(fs, processedDir, videos, inputs, cfg, score)[k] ==
         (videos[j], SingleVideo(fs, processedDir, videos[j], inputs(videos[j]), cfg, score)))
    decreases |videos|
  {
    var init := videos[..|videos| - 1];
    var r := BatchResults(fs, processedDir, videos, inputs, cfg, score);
    var r0 := BatchResults(fs, processedDir, init, inputs, cfg, score);
    if j < |videos| - 1 {
      BatchComplete(fs, processedDir, init, inputs, cfg, score, j);
      var k :| 0 <= k < |r0| && r0[k] == (init[j], SingleVideo(fs, processedDir, init[j], inputs(init[j]), cfg, score));
      assert r[k] == r0[k];
    } else {
      assert r[|r0|] == (videos[j], SingleVideo(fs, processedDir, videos[j], inputs(videos[j]), cfg, score));
    }
  }
}

=== FILE: visual_wrapper.dfy ===
/** services/reasoning_eye/visual_wrapper.py: runs the visual inference
    script as a child process, copies its output lines to the log, keeps
    the lines between the result markers, and parses them as the reply. The
    child process is the parameter `launch`, JSON parsing the parameter
    `parse` (None when `json.loads` raises). */
module VisualWrapper {
  import opened Wrappers
  import opened Text
  import opened JsonValue

  const StartMarker := "--- RESULT_START ---"
  const EndMarker := "--- RESULT_END ---"

  /** The child process: its output lines (each with its newline) and exit
      code, or a failure to start it. */
  datatype Launch = Ran(lines: seq<string>, returncode: int) | LaunchFailed

  /** Why an error record was returned. */
  datatype ErrorKind =
    | NoValidResult     // "Logic layer did not return a valid result"
    | ClosedLog         // ValueError: "I/O operation on closed file."
    | LaunchError       // the child process could not be started
    | BadParams         // `params.get` or an argument of the wrong type
    | ParseError        // `json.loads` raised on the capture

  /** What `run_visual_inference` returns. */
  datatype Reply<J> = Parsed(value: J) | ErrorRecord(kind: ErrorKind)

  predicate IsStart(line: string) {
    Contains(line, StartMarker)
  }

  predicate IsSentinel(line: string) {
    Contains(line, StartMarker) || Contains(line, EndMarker)
  }

  /** `capture_mode` after the lines: a line with the start marker turns it
      on (even if it also holds the end marker), a line with the end marker
      turns it off. */
  function ModeAfter(lines: seq<string>): bool
    decreases |lines|
  {
    if |lines| == 0 then false
    else
      var last := lines[|lines| - 1];
      if IsStart(last) then true
      else if IsSentinel(last) then false
      else ModeAfter(lines[..|lines| - 1])
  }

  /** `final_json_raw` after the lines: every non-marker line read in
      capture mode, in order. */
  function Captured(lines: seq<string>): string
    decreases |lines|
  {
    if |lines| == 0 then ""
    else
      var last := lines[|lines| - 1];
      Captured(lines[..|lines| - 1]) + (if !IsSentinel(last) && ModeAfter(lines[..|lines| - 1]) then last else "")
  }

  /** Line `j` holds the start marker and no marker line follows it. */
  predicate OpenFrom(lines: seq<string>, j: int) {
    0 <= j < |lines| && IsStart(lines[j]) && forall k :: j < k < |lines| ==> !IsSentinel(lines[k])
  }

  /** Capture mode is on exactly when some earlier line held the start
      marker and no marker line came after it. */
  lemma {:induction false} ModeAfterIff(lines: seq<string>)
    ensures ModeAfter(lines) <==> exists j :: OpenFrom(lines, j)
    decreases |lines|
  {
    if |lines| > 0 {
      var n := |lines|;
      var init := lines[..n - 1];
      ModeAfterIff(init);
      if exists j :: OpenFrom(lines, j) {
        var j :| OpenFrom(lines, j);
        if j < n - 1 {
          assert !IsSentinel(lines[n - 1]);
          assert OpenFrom(init, j);
        }
      }
      if IsStart(lines[n - 1]) {
        assert OpenFrom(lines, n - 1);
      } else if ModeAfter(lines) {
        var j :| OpenFrom(init, j);
        assert OpenFrom(lines, j);
      }
    }
  }

  /** Output read after capture mode is off adds its own capture to what
      came before: blocks are concatenated in stream order. */
  lemma {:induction false} CapturedAppend(a: seq<string>, b: seq<string>)
    requires !ModeAfter(a)
    ensures Captured(a + b) == Captured(a) + Captured(b)
    ensures ModeAfter(a + b) == ModeAfter(b)
    decreases |b|
  {
    if |b| == 0 {
      assert a + b == a;
    } else {
      var n := |b|;
      CapturedAppend(a, b[..n - 1]);
      assert (a + b)[..|a + b| - 1] == a + b[..n - 1];
      assert (a + b)[|a + b| - 1] == b[n - 1];
    }
  }

  /** A block opened by a start line and closed by an end line captures
      exactly its inner lines, and leaves capture mode off. */
  lemma {:induction false} CapturedBlock(start: string, body: seq<string>, end: string)
    requires IsStart(start) && !IsStart(end) && IsSentinel(end)
    requires forall k :: 0 <= k < |body| ==> !IsSentinel(body[k])
    ensures Captured([start] + body + [end]) == Join(body, "")
    ensures !ModeAfter([start] + body + [end])
  {
    BlockBody(start, body);
    var s := [start] + body + [end];
    assert s[..|s| - 1] == [start] + body;
  }

  lemma {:induction false} BlockBody(start: string, body: seq<string>)
    requires IsStart(start)
    requires forall k :: 0 <= k < |body| ==> !IsSentinel(body[k])
    ensures Captured([start] + body) == Join(body, "") && ModeAfter([start] + body)
    decreases |body|
  {
    var s := [start] + body;
    if |body| == 0 {
      assert s[..0] == [];
    } else {
      var n := |body|;
      BlockBody(start, body[..n - 1]);
      assert s[..|s| - 1] == [start] + body[..n - 1];
      JoinSnoc(body[..n - 1], body[n - 1]);
      assert body[..n - 1] + [body[n - 1]] == body;
    }
  }

  /** Joining with no separator appends the last piece. */
  lemma {:induction false} JoinSnoc(parts: seq<string>, x: string)
    ensures Join(parts + [x], "") == Join(parts, "") + x
    decreases |parts|
  {
    if |parts| == 0 {
      assert parts + [x] == [x];
    } else if |parts| == 1 {
      assert (parts + [x])[1..] == [x];
    } else {
      JoinSnoc(parts[1..], x);
      assert (parts + [x])[1..] == parts[1..] + [x];
    }
  }

  /** The read loop: every line goes to the log; the capture is the
      marker-delimited text. */
  method CaptureLoop(lines: seq<string>) returns (log: seq<string>, finalJsonRaw: string)
    ensures log == lines
    ensures finalJsonRaw == Captured(lines)
  {
    log := [];
    finalJsonRaw := "";
    var captureMode := false;
    for i := 0 to |lines|
      invariant log == lines[..i]
      invariant finalJsonRaw == Captured(lines[..i]) && captureMode == ModeAfter(lines[..i])
    {
      var line := lines[i];
      assert lines[..i + 1][..i] == lines[..i] && lines[..i + 1][i] == line;
      log := log + [line];
      if Contains(line, StartMarker) {
        captureMode := true;
        continue;
      }
      if Contains(line, EndMarker) {
        captureMode := false;
        continue;
      }
      if captureMode {
        finalJsonRaw := finalJsonRaw + line;
      } else {
        assert finalJsonRaw + "" == finalJsonRaw;
      }
    }
    assert lines[..|lines|] == lines;
  }

  /** The command line of the child process, or None when `params` is not
      a dict or an argument is not a string. */
  function Command(python: string, script: string, params: Json): (r: Option<seq<string>>)
    ensures r.Some? ==> |r.value| == 7 && r.value[..3] == [python, "-u", script] && r.value[3] == "--image" && r.value[5] == "--prompt"
    ensures params == JObj(map[]) ==> r == Some([python, "-u", script, "--image", "", "--prompt", ""])
    ensures r.None? <==> !params.JObj? || !Get(params.fields, "image", JStr("")).JStr? ||
                         !Get(params.fields, "prompt", JStr("")).JStr?
    ensures r.Some? ==> r.value[4] == Get(params.fields, "image", JStr("")).s &&
                        r.value[6] == Get(params.fields, "prompt", JStr("")).s
  {
    if !params.JObj? then None
    else
      var image := Get(params.fields, "image", JStr(""));
      var prompt := Get(params.fields, "prompt", JStr(""));
      if image.JStr? && prompt.JStr? then Some([python, "-u", script, "--image", image.s, "--prompt", prompt.s])
      else None
  }

  /** The decision after the child exits: the parse of the stripped capture
      when the exit code is 0 and something was captured. */
  function Decide<J>(returncode: int, raw: string, parse: string -> Option<J>): (r: Reply<J>)
    ensures r.Parsed? <==> returncode == 0 && raw != "" && parse(Strip(raw)).Some?
    ensures r.Parsed? ==> r.value == parse(Strip(raw)).value
    ensures returncode != 0 || raw == "" ==> r == ErrorRecord(NoValidResult)
  {
    if returncode == 0 && raw != "" then
      match parse(Strip(raw))
      case Some(v) => Parsed(v)
      case None => ErrorRecord(ParseError)
    else ErrorRecord(NoValidResult)
  }

  /** `run_visual_inference` as written: the exit-code line is written to
      the log after the `with` block has closed it, which raises on every
      run that gets that far. */
  function RunVisualInferenceAsWritten<J>(python: string, script: string, params: Json,
                                          launch: seq<string> -> Launch, parse: string -> Option<J>): (r: Reply<J>)
    ensures r.ErrorRecord?
    ensures Command(python, script, params).None? ==> r == ErrorRecord(BadParams)
  {
    match Command(python, script, params)
    case None => ErrorRecord(BadParams)
    case Some(cmd) =>
      match launch(cmd)
      case LaunchFailed => ErrorRecord(LaunchError)
      case Ran(lines, code) => ErrorRecord(ClosedLog)
  }

  /** As written, no run returns a parsed result, however clean the child's
      exit and output. */
  lemma AsWrittenNeverParses<J>(python: string, script: string, params: Json,
                                launch: seq<string> -> Launch, parse: string -> Option<J>)
    ensures RunVisualInferenceAsWritten(python, script, params, launch, parse).ErrorRecord?
    ensures Command(python, script, params).Some? && launch(Command(python, script, params).value).Ran? ==>
      RunVisualInferenceAsWritten(python, script, params, launch, parse) == ErrorRecord(ClosedLog)
  {
  }

  /** A concrete run that shows it: the child prints a result block and
      exits 0, which the intended decision parses and the code as written
      turns into an error record. */
  lemma AsWrittenLosesResult()
    ensures var lines := [StartMarker + "\n", "{}\n"];
      var launch := (cmd: seq<string>) => Ran(lines, 0);
      var parse := (s: string) => if s == "{}" then Some(JObj(map[])) else None;
      Decide(0, Captured(lines), parse) == Parsed(JObj(map[])) &&
      RunVisualInferenceAsWritten("python", "qwen_inference.py", JObj(map[]), launch, parse) == ErrorRecord(ClosedLog)
  {
    ExampleCapture();
    ExampleStrip();
  }

  lemma ExampleCapture()
    ensures Captured([StartMarker + "\n", "{}\n"]) == "{}\n"
  {
    var lines := [StartMarker + "\n", "{}\n"];
    assert IsStart(lines[0]) by { assert IsPrefix(StartMarker, lines[0]); }
    ShortNoContains("{}\n", StartMarker);
    ShortNoContains("{}\n", EndMarker);
    assert lines[..1] == [lines[0]] && lines[..1][..0] == [];
    assert ModeAfter(lines[..1]) && Captured(lines[..1]) == "";
  }

  lemma ExampleStrip()
    ensures Strip("{}\n") == "{}"
  {
    assert StripLeft("{}\n") == "{}\n";
    assert StripRight("{}\n") == "{}";
  }

  /** A string shorter than the needle does not contain it. */
  lemma {:induction false} ShortNoContains(hay: string, needle: string)
    requires |hay| < |needle|
    ensures !Contains(hay, needle)
    decreases |hay|
  {
    if |hay| > 0 {
      ShortNoContains(hay[1..], needle);
    }
  }

  /** `run_visual_inference` with the exit-code line written while the log
      is still open: the reply follows the exit code and the capture. */
  method RunVisualInference<J>(python: string, script: string, params: Json,
                               launch: seq<string> -> Launch, parse: string -> Option<J>)
    returns (reply: Reply<J>, log: seq<string>)
    ensures var cmd := Command(python, script, params);
      if cmd.None? then reply == ErrorRecord(BadParams) && log == []
      else if launch(cmd.value).LaunchFailed? then reply == ErrorRecord(LaunchError) && log == []
      else reply == Decide(launch(cmd.value).returncode, Captured(launch(cmd.value).lines), parse) &&
           log == launch(cmd.value).lines
  {
    var cmd := Command(python, script, params);
    if cmd.None? {
      return ErrorRecord(BadParams), [];
    }
    var process := launch(cmd.value);
    if process.LaunchFailed? {
      return ErrorRecord(LaunchError), [];
    }
    var finalJsonRaw;
    log, finalJsonRaw := CaptureLoop(process.lines);
    if process.returncode == 0 && finalJsonRaw != "" {
      var parsed := parse(Strip(finalJsonRaw));
      if parsed.Some? {
        reply := Parsed(parsed.value);
      } else {
        reply := ErrorRecord(ParseError);
      }
    } else {
      reply := ErrorRecord(NoValidResult);
    }
  }

  /** `sys.argv[1]` when given, else `"{}"`. */
  function InputJson(argv: seq<string>): (r: string)
    ensures |argv| > 1 ==> r == argv[1]
    ensures |argv| <= 1 ==> r == "{}"
  {
    if |argv| > 1 then argv[1] else "{}"
  }
}
